=== FILE: README.md ===
# Test-case generator for Jira stories: a Dafny model

This project models the server side of a Jira add-on that writes test cases for
user stories. It uses the Anthropic Claude model hosted on AWS Bedrock.

When a Story moves into the project's trigger status, the issue-update trigger
(`run`) does the following:
- marks the issue `loading`;
- reads the story description;
- fills it into the project's prompt template;
- sends one signed request to Bedrock;
- turns the answer into a list of test cases;
- stores that list on the issue;
- finally marks the issue `done`, or `error` then `done` when it fails.

The issue panel's resolvers do the rest:
- they poll that status (at most four reads, three waits);
- they create, update and delete test cases, up to a per-project limit;
- they test stored or typed-in AWS credentials.

Requests are signed with AWS Signature Version 4. The add-on's signer and the
stand-alone connection tester build different headers:
- the add-on signs `host` and `x-amz-date`, drops the `Z` from the date, and re-parses hex between HMAC steps;
- the tester also signs `content-type`, keeps the `Z`, optionally adds a session token, and chains raw HMAC bytes.

Settings live in Jira entity properties. These are modelled as one typed store
keyed by (project or issue, property). The region, prompt-template and limit
getters fall back to defaults. The trigger status, the credentials, the
generation status and the session token have none: a missing one reads as
`undefined`. The test-case limit is clamped to 1..15.

Modules follow the source files:

| module | file | source |
|---|---|---|
| `Common`, `JsText` | common.dfy, js_text.dfy | the JavaScript string semantics the code relies on: `trim`, `\s`, `split`, `join`, `filter`, `toLowerCase`, `replace`, truthiness |
| `Hex`, `Timestamp`, `SigV4`, `Http` | hex.dfy, timestamp.dfy, sigv4.dfy, http.dfy | the pieces both signers share |
| `BedrockSigner` | bedrock_signer.dfy | `createAwsHeaders` and the key chain of src/helpers/callAWSBedrock.js |
| `BedrockClient` | bedrock_client.dfy | `callAWSBedrock` and its response handling |
| `ConnectionSigner`, `ConnectionTest` | connection_signer.dfy, connection_test.dfy | test-aws-connection.js |
| `Storage` | storage.dfy | src/helpers/storageHelper.js |
| `TestGen` | testgen.dfy | `run` in src/testgen.jsx |
| `Resolver` | resolver.dfy | src/resolver.js |

Several things become parameters:
- the clock's ISO text;
- SHA-256, HMAC and UTF-8 encoding (the `Crypto` record);
- `JSON.stringify`, `JSON.parse` and `fetch`;
- the texts of `Math.random().toString(16)`;
- the description lookup;
- which storage reads reject: the three reads `run` awaits (`TestGen.ReadFaults`), the settings reads of `callAWSBedrock` (`BedrockClient.Env`), the list read of the resolvers, the limit read of `create` and the settings reads of `execute-aws-test`;
- the model call as seen from `run` (`TestGen.Generator`; `TestGen.BedrockGenerator` plugs in the add-on's own).

## Model

| member | source | states |
|---|---|---|
| JsText.Trim | src/testgen.jsx:90 | the trimmed string is a slice of the input with only whitespace cut from its two ends, no longer than the input, and neither starts nor ends with whitespace |
| JsText.TrimEmptyIff | src/testgen.jsx:119 | a description trims to nothing exactly when every character is whitespace |
| JsText.ToLowerIdempotent | src/testgen.jsx:90 | lower-casing an already lower-cased status changes nothing |
| JsText.Split | src/helpers/callAWSBedrock.js:42 | `split('\n')` gives one more line than there are newlines, and no line holds a newline |
| JsText.JoinSplit | src/helpers/callAWSBedrock.js:42 | joining the split lines with the separator gives back the text |
| JsText.SplitJoin | src/helpers/callAWSBedrock.js:42 | splitting separator-free parts joined by the separator gives back the parts |
| JsText.FilterAppend | src/helpers/callAWSBedrock.js:42 | `filter` of a concatenation is the concatenation of the filters, so order is kept |
| JsText.FilterMembership | src/helpers/callAWSBedrock.js:42 | an element survives `filter` exactly when it was there and satisfies the predicate |
| JsText.DecimalRoundTrip | test-aws-connection.js:41 | the decimal text of a status code parses back to that code |
| JsText.IndexOf | src/testgen.jsx:125 | the first occurrence of the pattern, or none when the pattern occurs nowhere |
| JsText.ReplaceFirstJs | src/testgen.jsx:125 | `replace` with a string pattern changes only the first occurrence and keeps the text around it; no occurrence leaves the string unchanged |
| JsText.ReplaceAgreesWithoutDollar | src/testgen.jsx:125 | for a replacement without `$`, JavaScript's `replace` is plain substitution |
| Hex.ByteToHex | src/helpers/callAWSBedrock.js:89 | each byte becomes two lower-case hex digits whose value is the byte |
| Hex.HexEncode | src/helpers/callAWSBedrock.js:89 | the hex text is twice as long as the bytes and all lower-case hex digits |
| Hex.HexRoundTrip | src/helpers/callAWSBedrock.js:103-106 | re-parsing the hex text in pairs (`match(/.{2}/g)` then `parseInt(_, 16)`) gives back the HMAC's bytes |
| Hex.EncodeDecode | src/helpers/callAWSBedrock.js:103-106 | hex-encoding the parsed pairs of an even-length lower-case hex text gives the text back |
| Timestamp.SkipLineStrip | src/helpers/callAWSBedrock.js:60 | removing the separators and cutting at the first `.` commute, so the one-pass regular expression equals the two-step form |
| Timestamp.CompactDate | src/helpers/callAWSBedrock.js:60 | no `:`, `-` or `.` survives the replacement, the result is no longer than the input, and a text without those characters is kept as is |
| Timestamp.StripSeparators | test-aws-connection.js:55 | no `:` or `-` survives, and the result is no longer than the input |
| Timestamp.FractionClean | test-aws-connection.js:55 | `replace(/\..*/g, rep)` with a replacement free of `.` leaves no `.`; it brings in no `:` or `-` that was not in the input or the replacement |
| Timestamp.BedrockAmzDate | src/helpers/callAWSBedrock.js:60 | whatever the clock text, the add-on's date holds no `:`, `-` or `.` |
| Timestamp.ConnectionAmzDate | test-aws-connection.js:55 | whatever the clock text, the tester's date holds no `:`, `-` or `.` |
| Timestamp.CompactIsStripThenCut | src/helpers/callAWSBedrock.js:60 | the single regular-expression replacement of line 60 equals removing `:` and `-`, then cutting from the first `.` |
| Timestamp.StripIso | test-aws-connection.js:55 | on an ISO timestamp, removing `:` and `-` leaves the basic date-time followed by the fraction and `Z` |
| Timestamp.BedrockAmzDateIso | src/helpers/callAWSBedrock.js:60 | on an ISO timestamp the add-on's date is the basic date-time `YYYYMMDDTHHMMSS`, the `.sssZ` tail cut |
| Timestamp.ConnectionAmzDateIso | test-aws-connection.js:55 | on an ISO timestamp the tester's date is the basic date-time followed by `Z` |
| Timestamp.AmzDates | src/helpers/callAWSBedrock.js:60-61 | for an ISO clock reading, the add-on's date is the 15-character `YYYYMMDDTHHMMSS`, the tester's is that plus `Z`, and both date stamps are `YYYYMMDD` |
| Timestamp.DateStamp | test-aws-connection.js:56 | the date stamp is the first eight characters, or the whole date when it is shorter |
| SigV4.HexSha256 | test-aws-connection.js:88-90 | a SHA-256 digest is 64 lower-case hex digits |
| SigV4.Authorization | test-aws-connection.js:73 | the header starts with the algorithm, the credential (key id and scope) and the signed-header list, and what follows `Signature=` is exactly the signature |
| SigV4.Signature | test-aws-connection.js:71 | the signature is 64 lower-case hex digits |
| SigV4.StringToSignFields | test-aws-connection.js:66-68 | the string to sign has exactly four lines: algorithm, date, scope and the canonical request's hash |
| Http.AmzHeaders | src/helpers/callAWSBedrock.js:78-82 | exactly `Authorization`, `Content-Type: application/json` and `X-Amz-Date`, with the given values |
| BedrockSigner.HmacSha256 | src/helpers/callAWSBedrock.js:92-99 | an HMAC rendered as 64 lower-case hex digits |
| BedrockSigner.SigningKey | src/helpers/callAWSBedrock.js:101-107 | the derived key is 32 bytes |
| BedrockSigner.SigningKeyIsRawChain | src/helpers/callAWSBedrock.js:101-107 | hex-encoding then re-parsing between steps gives the same key as chaining the raw HMAC bytes, as Signature Version 4 prescribes |
| ConnectionSigner.TesterKeyMatchesAddOn | test-aws-connection.js:92-98 | the tester's chain of four HMACs over raw bytes (`SigV4.RawSigningKey`) gives the same key as the add-on's chain with hex round trips |
| BedrockSigner.CreateHeaders | src/helpers/callAWSBedrock.js:56-83 | three headers; the date is the compacted clock; the authorization signs `host;x-amz-date` over the scope `date/region/bedrock/aws4_request` with the derived key |
| BedrockSigner.CanonicalRequestJoin | src/helpers/callAWSBedrock.js:63-67 | the template literal equals the eight canonical-request lines joined by newlines |
| BedrockSigner.CanonicalRequestFields | src/helpers/callAWSBedrock.js:63-67 | split at newlines, the canonical request is exactly: method, the fixed model path, empty query, the two header lines, a blank line, the signed headers, the body hash |
| BedrockSigner.HeadersIgnoreUrl | src/helpers/callAWSBedrock.js:56-67 | the headers do not depend on the URL argument: host and path come from the region and a constant |
| BedrockSigner.HeadersForIsoClock | src/helpers/callAWSBedrock.js:60-76 | for an ISO clock reading, `X-Amz-Date` is the 15-character basic date-time and the credential scope starts with `YYYYMMDD` |
| BedrockClient.FullPrompt | src/helpers/callAWSBedrock.js:5-6 | the caller's prompt appears verbatim between the system prompt with `Human: ` and the `result`-array instruction ending in `Assistant:` |
| BedrockClient.BedrockPayload | src/helpers/callAWSBedrock.js:14-21 | version `bedrock-2023-05-31`, 1000 tokens, one user message holding the wrapped prompt |
| BedrockClient.UniqueId | src/helpers/callAWSBedrock.js:109 | an id is `_` followed by the sliced draw: at most 13 characters, the rest after the `_` being exactly `DrawSlice` of the random text |
| BedrockClient.DrawSlice | src/helpers/callAWSBedrock.js:109 | `slice(2, 15)`: characters 2 to 14 when the text is long enough, characters 2 to the end when it has 3 to 14, nothing when it has at most two characters, never more than 13 |
| BedrockClient.UniqueIdInjective | src/helpers/callAWSBedrock.js:109 | two ids are equal exactly when their sliced draws are equal |
| BedrockClient.JsonRecords | src/helpers/callAWSBedrock.js:39 | one record per element, in order, each keeping the element's fields and getting a fresh `id` that overrides any it had |
| BedrockClient.LabelRecords | src/helpers/callAWSBedrock.js:43 | one record per kept line, in order, with exactly the fields `label` (the cleaned line) and `id` (the next random id) |
| BedrockClient.FallbackRecords | src/helpers/callAWSBedrock.js:41-43 | one record per kept list line of the text, in order: the i-th record is exactly `label` (the label of the i-th kept line) and `id` (the i-th id); never more records than lines |
| BedrockClient.FallbackCoversListLines | src/helpers/callAWSBedrock.js:41-43 | no list line of the text is dropped: each has a record carrying its label |
| BedrockClient.ParseContent | src/helpers/callAWSBedrock.js:37-44 | a `result` array maps to records, no `result` gives `[]`, and a syntax error, `null` or a non-array `result` take the fallback |
| BedrockClient.HandleResponse | src/helpers/callAWSBedrock.js:33-52 | every failure gives `[]`; a non-empty list implies status 200; a 200 with a first text block gives exactly what the parser makes of that text |
| BedrockClient.BuildRequest | src/helpers/callAWSBedrock.js:9-29 | POST to the regional invoke URL, the serialised payload as body, headers signed with the stored keys (`undefined` when missing) and region |
| BedrockClient.CallBedrock | src/helpers/callAWSBedrock.js:4-53 | every returned record has an id `_...` from the i-th random draw; a rejected credentials or region read is caught and gives `[]`; when the reads succeed and the signed request gets a 200 whose first content element has a `text`, the answer is exactly what the parser makes of that text; a non-empty answer means the reads succeeded and the request got a 200 |
| BedrockClient.ListLinesMembership | src/helpers/callAWSBedrock.js:42 | a line is kept exactly when its trimmed form starts with `-` or with digits and a `.` |
| BedrockClient.ListLinesAppend | src/helpers/callAWSBedrock.js:42 | the kept lines keep their order |
| BedrockClient.Label | src/helpers/callAWSBedrock.js:43 | a label is no longer than its line, and neither starts with a list marker (`-`, digit, `.`, space) nor ends with whitespace |
| BedrockClient.LabelOfItem | src/helpers/callAWSBedrock.js:43 | markers followed by a clean item text label as exactly that text, so `1. Login works` gives `Login works` |
| BedrockClient.NoListLinesNoRecords | src/helpers/callAWSBedrock.js:42-43 | text without list lines yields no test cases |
| BedrockClient.IdsDistinct | src/helpers/callAWSBedrock.js:39-43 | given an id supply that never repeats, the records of one answer have pairwise distinct ids |
| BedrockClient.DistinctDrawsDistinctIds | src/helpers/callAWSBedrock.js:39-43 | random draws whose sliced texts never repeat give one answer's records pairwise distinct ids |
| ConnectionSigner.WithSessionToken | test-aws-connection.js:81-83 | the token header is added exactly when the token is truthy, and the other headers are untouched |
| ConnectionSigner.CreateHeaders | test-aws-connection.js:51-86 | header set with the token header exactly when the token is truthy; the date keeps `Z`; the authorization uses the raw-byte key chain and the token-dependent signed headers |
| ConnectionSigner.LiteralsMatchEntries | test-aws-connection.js:58-61 | both header literals and both signed-header literals agree with one ordered list of entries |
| ConnectionSigner.EntriesSorted | test-aws-connection.js:58-61 | the signed header names are in strictly increasing code-unit order, with or without the token |
| ConnectionSigner.RenderJoin | test-aws-connection.js:58-64 | rendering header entries in front of newline-joined lines equals joining the entries' texts in front of them |
| ConnectionSigner.CanonicalRequestJoin | test-aws-connection.js:58-64 | the template literal equals the canonical-request lines (method, path, empty query, one line per header, blank, signed headers, hash) joined by newlines |
| ConnectionSigner.CanonicalRequestFields | test-aws-connection.js:58-64 | split at newlines, the canonical request is exactly those lines, with three or four header lines as the token is absent or present |
| ConnectionSigner.HeadersForIsoClock | test-aws-connection.js:55-73 | for an ISO clock reading, `X-Amz-Date` is the 16-character `YYYYMMDDTHHMMSSZ` and the scope starts with `YYYYMMDD` |
| ConnectionTest.TestPayload | test-aws-connection.js:9-16 | version `bedrock-2023-05-31`, 10 tokens, the single message `Test connection` |
| ConnectionTest.TestRequest | test-aws-connection.js:5-29 | POST to the invoke URL of the region (default `us-east-1`), signed with the token |
| ConnectionTest.Classify | test-aws-connection.js:34-46 | success exactly on a 200 whose body parses as JSON, and then the result is `AWS Bedrock connection successful` with the parsed body; a non-200 gives `Connection failed: <status>` with the body text; a rejected `fetch`, `response.json()` or `response.text()` gives `Connection test failed` with that rejection's message |
| ConnectionTest.TestConnection | test-aws-connection.js:5-48 | success exactly when the signed request got a 200 with a JSON body |
| ConnectionTest.FailureMessageNamesStatus | test-aws-connection.js:38-41 | when the body of a non-200 answer can be read, the failure message names the status, which can be read back from it |
| Storage.PropertyNamesDistinct | src/helpers/storageHelper.js:8-78 | the property names used are pairwise distinct, so no two settings share a property |
| Storage.Write | src/helpers/storageHelper.js:13-17 | a write sets one key and keeps every other |
| Storage.StorageSet | src/helpers/storageHelper.js:13-17 | the issue's list reads back as written; nothing else changes |
| Storage.SetGenStatus | src/helpers/storageHelper.js:45-49 | the issue's status reads back as written; nothing else changes |
| Storage.GetSelectedStatus | src/helpers/storageHelper.js:19-23 | no default: `undefined` when no trigger status is stored, the stored text otherwise |
| Storage.GetGenStatus | src/helpers/storageHelper.js:39-43 | no default: `undefined` when no status is stored, the stored text otherwise |
| Storage.GetAwsRegion | src/helpers/storageHelper.js:33-37 | never empty: the stored region when truthy, `us-east-1` otherwise |
| Storage.GetPromptTemplate | src/helpers/storageHelper.js:65-69 | never empty: the stored template when truthy, the default template otherwise |
| Storage.GetSessionToken | src/helpers/storageHelper.js:71-75 | no default: `undefined` when no token is stored, the stored text otherwise |
| Storage.GetAwsCredentials | src/helpers/storageHelper.js:25-31 | both keys come from their own project properties |
| Storage.TextOr | src/helpers/storageHelper.js:34 | a string setting with a default: the value when truthy, the default otherwise |
| Storage.GetTestCaseLimit | src/helpers/storageHelper.js:51-55 | a stored non-zero limit is returned as stored; a missing or zero limit falls back to 5; so the limit is never 0 |
| Storage.ClampLimit | src/helpers/storageHelper.js:57-59 | the stored limit is always within 1..15 |
| Storage.SetTestCaseLimit | src/helpers/storageHelper.js:57-63 | returns the clamped limit, which then reads back, and nothing else changes |
| Storage.SetSessionToken | src/helpers/storageHelper.js:77-81 | returns the token, which then reads back, and nothing else changes |
| Storage.VerifyStoredValues | src/helpers/storageHelper.js:83-118 | `hasCredentials` iff both keys are truthy; `hasSessionToken` iff the token is truthy; `isTemporaryCredentials` is undefined without a key id and true iff it starts with `ASIA`; no issue means no issue reads |
| Storage.ClampIdempotent | src/helpers/storageHelper.js:57-59 | clamping a clamped limit changes nothing |
| Storage.ClampCases | src/helpers/storageHelper.js:57-59 | a missing or zero parse gives 5, negatives give 1, above 15 gives 15, and 1..15 is kept |
| Storage.SettingsReadBack | src/helpers/storageHelper.js:33-81 | what the setters write reads back through the getters: the clamped limit, the token, and a non-empty region or template |
| Storage.WritesKeepTypes | src/helpers/storageHelper.js:13-81 | every setter keeps each property holding a value of its type |
| Storage.SeparateKeys | src/helpers/storageHelper.js:7-49 | the test-case list and the generation status are distinct properties: writing one leaves the other as it was |
| Storage.StatusWriteKeepsTemplate | src/helpers/storageHelper.js:44-68 | writing an issue's generation status leaves every project's prompt template as it was |
| TestGen.Prompt | src/testgen.jsx:124-125 | the intended prompt: the first `{description}` is replaced by the description verbatim; without a placeholder the template is sent as is |
| TestGen.PromptAsWritten | src/testgen.jsx:125 | the prompt the source builds: without a placeholder the template as is; otherwise the text before and after the first `{description}` kept and the description, with its `$` patterns expanded, in between |
| TestGen.CheckGuards | src/testgen.jsx:8-93 | the ordered guard chain goes ahead exactly when the trigger status was read, every guard holds and the source status has a name; it throws the read's error when that read rejects after the status, Story and project guards passed, and the `sanitizeForLog` TypeError exactly when a value it logs is `undefined` (issue type, either status name, trigger status); otherwise it returns |
| TestGen.IntendedGuards | src/testgen.jsx:45-93 | the chain without the logging TypeError: goes ahead exactly when the transition matches a configured trigger status, and throws only the error of a rejected trigger-status read |
| TestGen.GuardsAgreeWhenLogged | src/testgen.jsx:8-77 | the chain as written and the intended one give the same outcome exactly when no logged value is `undefined` |
| TestGen.Generate | src/testgen.jsx:97-145 | after `loading`: the description is read exactly when the list read succeeds, finds no test cases and the issue has an id; an error exactly when the list read fails, the issue id is `undefined` (the TypeError of logging it), or the description lookup or (for a non-blank description) the template read fails, carrying that failure's message; a prompt exactly when the description has text and the template was read, and then the list becomes the model's answer; otherwise the store stays as `loading` left it |
| TestGen.TryBlock | src/testgen.jsx:38-145 | a failing guard writes nothing; a rejected trigger-status read throws its error, and an `undefined` logged value among the guards throws the TypeError, both having written nothing; `loading` is written exactly when the guards let generation go ahead; no error comes with a prompt |
| TestGen.Run | src/testgen.jsx:15-171 | the status writes are `loading` when the guards let generation go ahead, then `error` on a failure, then always `done`; the issue always ends `done` |
| TestGen.RunFromAttempt | src/testgen.jsx:147-170 | a failure of the `try` block is rethrown after `error` and `done`; a success returns after `done`; the run keeps the description read and the prompt of the block, and leaves the issue's list as the block left it |
| TestGen.GeneratingAttempt | src/testgen.jsx:97-145 | with every read succeeding, no list and a non-blank description, the `try` block writes `loading`, makes one model call on the prompt the source builds, and stores its answer as the list |
| TestGen.RunChangesOnlyIssueProperties | src/testgen.jsx:97-165 | a run writes only the issue's list and status |
| TestGen.SkipsUnlessTriggered | src/testgen.jsx:45-93 | a guard that returns means no description read, no model call, an unchanged list and only `done` written; `loading` comes first exactly when the trigger status was read and every guard holds |
| TestGen.TriggerReadRejected | src/testgen.jsx:72 | a rejected trigger-status read writes `error` and `done`, rethrows its error, and reads no description and leaves the list alone |
| TestGen.LoggingUndefinedThrows | src/testgen.jsx:8-170 | an `undefined` issue type, status name or trigger status among the guards makes the run write `error` and `done` and throw the TypeError, with no `loading`, no description read, no model call and the list untouched |
| TestGen.UnconfiguredTriggerThrows | src/testgen.jsx:72-82 | a Story moving between two named statuses in a project with no trigger status throws the TypeError and writes `error`, `done`, where the intended chain skips it |
| TestGen.IssueIdUndefinedThrows | src/testgen.jsx:107 | with no issue id, a triggered run with no list writes `loading`, `error`, `done` and throws the TypeError before reading the description |
| TestGen.PaddedStatusMatches | src/testgen.jsx:90 | a destination status padded with spaces and in any case matches its lower-case trigger |
| TestGen.ExistingListKept | src/testgen.jsx:97-105 | with test cases present, a triggered run writes `loading` and `done` and nothing else |
| TestGen.ListReadRejected | src/testgen.jsx:99 | a rejected read of the existing list writes `loading`, `error`, `done` and rethrows, before any description read, leaving the list alone |
| TestGen.BlankDescriptionSkips | src/testgen.jsx:119-122 | a blank description stops after `loading` with no model call |
| TestGen.DescriptionFailureRethrows | src/testgen.jsx:109-117 | a failed description lookup writes `loading`, `error`, `done` and rethrows its error; the list is untouched |
| TestGen.TemplateReadRejected | src/testgen.jsx:124 | a rejected template read after a non-blank description writes `loading`, `error`, `done` and rethrows, with no model call and the list untouched |
| TestGen.GenerateCalls | src/testgen.jsx:124-144 | with every read succeeding, no list and a non-blank description, exactly one model call with the prompt as the source builds it, and its answer is stored |
| TestGen.GeneratedListStored | src/testgen.jsx:97-145 | with every read succeeding, a triggered run with no list and a non-blank description sends the prompt as the source builds it and stores exactly the model's answer, writing `loading` then `done` |
| TestGen.RunPromptAsIntended | src/testgen.jsx:124-125 | when the description has no `$`, the prompt the run sends is the intended one |
| TestGen.BedrockRunIds | src/testgen.jsx:132-144 | with the add-on's model call, each stored test case carries the id `_...` of its random draw |
| TestGen.RepeatKeepsList | src/testgen.jsx:72-105 | once a run has stored test cases, a second run makes no model call and keeps the list, whichever of its reads reject |
| TestGen.DollarPatternCounterexample | src/testgen.jsx:125 | the replacement as written turns description `$&` into the placeholder text itself |
| TestGen.PromptAgreesWithoutDollar | src/testgen.jsx:125 | without `$` in the description, the written and the intended prompt agree |
| Resolver.GetAll | src/resolver.js:23-40 | the stored list, or `[]` when it is missing or the read fails |
| Resolver.GetGenrStatus | src/resolver.js:41-65 | one status read per attempt and one wait fewer; a status other than `loading` returns the list at once |
| Resolver.PollFailsIffAlwaysLoading | src/resolver.js:49-60 | the poller answers `failed` exactly when every attempt up to the fourth saw `loading` |
| Resolver.PollBounded | src/resolver.js:41-65 | from attempt 1: at most four status reads and three waits |
| Resolver.GetAllResolver | src/resolver.js:66-83 | `[]` when the settings check fails, else the poller's answer from attempt 1 |
| Resolver.GetStatus | src/resolver.js:147-153 | `undefined` exactly when the read fails (the catch returns nothing); otherwise the stored list or `[]` |
| Resolver.Create | src/resolver.js:85-106 | a rejected limit read is rethrown; otherwise refuses exactly when the list already holds the limit, with `Maximum test case limit of <limit> reached`; otherwise appends `{id, ...payload}` (payload fields win; a fresh `_` id otherwise) and changes nothing but the list |
| Resolver.CreateThenGetAll | src/resolver.js:85-106 | after a successful `create` the list reads back as the list `create` read plus the new record last |
| Resolver.CreateThenDeleteRestores | src/resolver.js:85-135 | deleting the record `create` just added, when its fresh id is new to the list, gives back the list `create` started from |
| Resolver.Replace | src/resolver.js:110-116 | same length; each record whose id equals the payload's becomes the payload, the others stay |
| Resolver.Update | src/resolver.js:108-123 | stores the replaced list, returns the payload, and changes nothing but the issue's list |
| Resolver.UpdateIdempotent | src/resolver.js:108-123 | updating twice with the same payload leaves the list as one update does |
| Resolver.Without | src/resolver.js:128 | no kept record has the payload's id |
| Resolver.Delete | src/resolver.js:125-135 | stores the list without the payload's id, returns the payload, and changes nothing but the issue's list |
| Resolver.DeleteIdempotent | src/resolver.js:125-135 | deleting the same id twice leaves the list as one delete does |
| Resolver.WithoutAbsent | src/resolver.js:128 | deleting an id no record has keeps the list |
| Resolver.DeleteAll | src/resolver.js:137-145 | the list becomes empty; nothing else changes |
| Resolver.DeleteAllThenGetAll | src/resolver.js:137-153 | after `delete-all`, `getAll` and `get-status` read back an empty list |
| Resolver.UpdateWithoutIdKeepsList | src/resolver.js:110-116 | a payload without an id leaves a list whose records all have ids unchanged |
| Resolver.WithoutMembership | src/resolver.js:128 | a record survives delete exactly when it was there and has a different id |
| Resolver.WithoutAppend | src/resolver.js:128 | delete keeps the order of the records it keeps |
| Resolver.TestAwsConnection | src/resolver.js:171-187 | without both keys `AWS credentials are required`; otherwise the tester's answer, or `Test failed` with its error |
| Resolver.ExecuteAwsTest | src/resolver.js:189-213 | `No project key found`; then `Test execution failed` with the error of a rejected credentials or region read; then `No AWS credentials configured for this project` without both stored keys; otherwise the tester's answer on the stored keys and the stored region (or `us-east-1`), or `Test execution failed` with the tester's error |
| Resolver.GuardsIgnoreTester | src/resolver.js:171-213 | when a guard refuses or a settings read rejects, the tester is never consulted |

## Left out

- Logging (`console.log`, `log`) only prints and is not modelled, with one exception: `sanitizeForLog` in src/testgen.jsx throws on `undefined`. That throw is modelled (`TestGen.LogsUndefined`, `TestGen.UndefinedTypeError`).
- TestGen.CheckGuards: a missing event field (`None`) stands for `undefined`. A `null` would be logged as `null` without throwing, and is not modelled. The TypeError's message is worded as V8 words it; other engines word it differently.
- Concurrency and the timing of the awaited calls are not modelled. Each run or resolver call is one step on one store.
- The 4-second `wait` of the poller is counted, not timed.
- `src/helpers/getdescription.js` is not part of this model. Its answer is an input (`TestGen.Description`).
- Real SHA-256, HMAC, UTF-8 and `crypto.subtle` are left abstract (`SigV4.Crypto`). Signatures are stated in terms of them.
- `JSON.stringify` and `JSON.parse` are left abstract. The parser's outcome is classified by `BedrockClient.Parsed`.
- `fetch` is an input (`Http.FetchOutcome`). A rejected `response.json()` or `response.text()` is an input too, with its message (`Http.JsonBody`, `Http.TextBody`).
- The clock and `Math.random` are inputs. The date lemmas assume an ISO reading of the form `new Date().toISOString()` gives.
- Elements of a parsed `result` array that are not objects are not modelled. The spread of a string or number is out of scope.
- Storage is typed. A property holding a value of the wrong JSON type reads as absent, and storage write failures are not modelled.
- Storage.GetTestCaseLimit: the limit is stored as a number. A truthy non-number limit read back is not modelled.
- Storage.SetTestCaseLimit: `parseInt` is an input (`Option<int>`), because JavaScript's number parsing is out of scope.
- JsText.ToLower: covers the ASCII letters only. Non-ASCII case mapping is out of scope.
- The `test-connection` resolver is not modelled: it only echoes the context and the clock.
- `src/resolver.js:4` imports `testAwsBedrockConnection` from `src/helpers/callAWSBedrock.js`, which does not export it. `Resolver.Tester` is therefore an abstract callee, and its exception path is `TesterThrew`.
- The `run` early returns before `loading` still reach `finally`. The model follows the code: they write `done`, not nothing.
- The update resolver compares `item.id === payload.id`, so two missing ids match. `Resolver.Replace` follows the code: a payload without an id replaces every record without one.
- The UI (`static/`), `src/projectsetting.jsx`, `index.js`, `validate-integration.js`, the tests and the Node test driver after `test-aws-connection.js:99` are outside the core.
- TestGen.TryBlock: storage writes are taken to succeed. A rejected `setGenStatus` or `storageSetHelper` inside the `try` block is not modelled; a failure of the `catch` or `finally` writes is ignored, as the source does. The storage reads may reject (`TestGen.ReadFaults`).
- BedrockClient.UniqueId: `Number.prototype.toString(16)` is not modelled. The id is stated over the random text's characters 2 to 14.

## Findings

| source | as written | input that shows it | evidently intended | confidence | as-written member | corrected member |
|---|---|---|---|---|---|---|
| src/testgen.jsx:12 | `sanitizeForLog` calls `JSON.stringify(input).substring(0, 200)`, and `JSON.stringify(undefined)` is `undefined`, so logging an `undefined` value throws a TypeError | a Story moving from `To Do` to `Ready` in a project with no trigger status configured: line 77 logs the `undefined` trigger status and the run ends in `error`, never reaching the `!triggerStatus` skip at line 79 | logging never throws; an unconfigured trigger status, a missing issue type or a missing status name skips the event | high, not executed | TestGen.UnconfiguredTriggerThrows | TestGen.IntendedGuards |
| src/testgen.jsx:125 | `promptTemplate.replace('{description}', extractedText)` passes the description as a replacement string, so `$&`, `` $` ``, `$'` and `$$` in it are expanded | template `{description}` and description `$&`: the prompt becomes `{description}` instead of `$&` | the description inserted verbatim | medium, not executed | TestGen.DollarPatternCounterexample | TestGen.Prompt |

The run follows the code as written.
- `TestGen.CheckGuards` throws where the source's logging throws. `TestGen.GuardsAgreeWhenLogged` shows it agrees with `TestGen.IntendedGuards` whenever no logged value is `undefined`.
- `TestGen.Generate` builds its prompt with `TestGen.PromptAsWritten`. `TestGen.PromptAgreesWithoutDollar` and `TestGen.RunPromptAsIntended` show that the prompt sent is the intended `TestGen.Prompt` whenever the description holds no `$`.

=== FILE: bedrock_client.dfy ===
/** `callAWSBedrock(prompt, projectKey)` of src/helpers/callAWSBedrock.js:
    wraps the prompt, signs and sends one request, and turns the answer into
    test cases.  It never throws: every failure degrades to the empty list.
    The clock, `JSON.stringify`, `fetch`, `JSON.parse` and `Math.random` are
    inputs. */
module BedrockClient {
  import opened Common
  import opened JsText
  import opened Http
  import opened SigV4
  import opened Storage
  import BedrockSigner

  const SystemPrompt: string :=
    "You are a helpful coding assistant. Generate test cases in JSON format with an array of objects containing 'label' field for each test case description."

  /** The text of the wrapper before the caller's prompt. */
  const PromptLead: string := SystemPrompt + "\n\nHuman: "

  /** The text of the wrapper after the caller's prompt. */
  const PromptTrail: string :=
    "\n\nPlease respond with a JSON object containing a 'result' array where each item has a 'label' field with the test case description.\n\nAssistant:"

  /** `fullPrompt`: the system prompt, then `Human: ` and the prompt, then the
      instruction to answer with a `result` array. */
  function FullPrompt(prompt: string): (r: string)
    ensures OccursAt(r, prompt, |PromptLead|)
    ensures r[..|PromptLead|] == PromptLead && r[|PromptLead| + |prompt|..] == PromptTrail
  {
    var r := PromptLead + prompt + PromptTrail;
    assert r[|PromptLead|..|PromptLead| + |prompt|] == prompt;
    r
  }

  /** The request body before serialisation: one user message. */
  function BedrockPayload(prompt: string): (p: Payload)
    ensures p.anthropicVersion == AnthropicVersion && p.maxTokens == 1000
    ensures |p.messages| == 1 && p.messages[0].role == "user"
    ensures OccursAt(p.messages[0].content, prompt, |PromptLead|)
  {
    Payload(AnthropicVersion, 1000, [Message("user", FullPrompt(prompt))])
  }

  /** What `JSON.parse` makes of the model's `result` field: absent (or
      `null`), an array of objects, or some other value. */
  datatype ResultField = NoResult | ResultList(items: seq<Record>) | ResultOther

  /** The outcome of `JSON.parse(content)`: a syntax error, `null`, or any
      other value (a non-object has no `result`, so `NoResult`). */
  datatype Parsed = NotJson | JsonNull | JsonValue(result: ResultField)

  /** Everything `callAWSBedrock` consults besides the store: whether the
      reads of the credentials and the region reject, the signing
      primitives, the clock's ISO text, `JSON.stringify`, `fetch`,
      `JSON.parse`, and the text of the i-th `Math.random().toString(16)`. */
  datatype Env = Env(
    settingsReadFails: bool,
    crypto: Crypto,
    now: string,
    stringify: Payload -> string,
    send: HttpRequest -> FetchOutcome,
    parse: string -> Parsed,
    randomText: nat -> string)

  /** `.slice(2, 15)` of the random number's hexadecimal text: characters 2
      to 14, as many of them as there are. */
  function DrawSlice(randomText: string): (r: string)
    ensures |r| <= 13
    ensures |randomText| >= 15 ==> r == randomText[2..15]
    ensures 2 < |randomText| < 15 ==> r == randomText[2..]
    ensures |randomText| <= 2 ==> r == ""
  {
    var lo := if |randomText| < 2 then |randomText| else 2;
    var hi := if |randomText| < 15 then |randomText| else 15;
    randomText[lo..hi]
  }

  /** `getUniqueId()`: `_` followed by the sliced draw. */
  function UniqueId(randomText: string): (r: string)
    ensures |r| >= 1 && r[0] == '_'
    ensures |r| <= 14
    ensures r[1..] == DrawSlice(randomText)
  {
    "_" + DrawSlice(randomText)
  }

  /** Two ids are equal exactly when their sliced draws are: the `_` prefix
      neither merges nor separates draws. */
  lemma UniqueIdInjective(a: string, b: string)
    ensures UniqueId(a) == UniqueId(b) <==> DrawSlice(a) == DrawSlice(b)
  {
    if UniqueId(a) == UniqueId(b) {
      assert UniqueId(a)[1..] == UniqueId(b)[1..];
    }
  }

  /** The id of the i-th record built, from the i-th random draw. */
  function Ids(randomText: nat -> string): nat -> string {
    (i: nat) => UniqueId(randomText(i))
  }

  /** The JSON path: `{ ...el, id: getUniqueId() }` for each element, in
      order; the new `id` wins over one the element had. */
  function JsonRecords(items: seq<Record>, ids: nat -> string): (r: seq<Record>)
    ensures |r| == |items|
    ensures forall i :: 0 <= i < |r| ==> r[i].Keys == items[i].Keys + {"id"}
    ensures forall i :: 0 <= i < |r| ==> r[i]["id"] == ids(i)
    ensures forall i, f :: 0 <= i < |r| && f in items[i] && f != "id" ==> r[i][f] == items[i][f]
  {
    seq(|items|, i requires 0 <= i < |items| => items[i]["id" := ids(i)])
  }

  /** The characters `^[-\d\.\s]+` strips from the front of a line. */
  predicate IsMarker(c: char) {
    c == '-' || IsDigit(c) || c == '.' || IsWhitespace(c)
  }

  /** A trimmed line that starts with `-`, or matches `^\d+\.`. */
  predicate IsListLine(t: string) {
    || StartsWith(t, "-")
    || (var k := PrefixLength(t, IsDigit); 1 <= k < |t| && t[k] == '.')
  }

  /** `line.trim().startsWith('-') || line.trim().match(/^\d+\./)`. */
  predicate Keep(line: string) {
    IsListLine(Trim(line))
  }

  /** `lines.filter(...)`. */
  function ListLines(lines: seq<string>): (r: seq<string>)
    ensures |r| <= |lines|
    ensures forall i :: 0 <= i < |r| ==> Keep(r[i])
  {
    Filter(lines, Keep)
  }

  /** `line.replace(/^[-\d\.\s]+/, '').trim()`: no label starts with a
      marker character, and none ends with whitespace. */
  function Label(line: string): (r: string)
    ensures |r| <= |line|
    ensures r == [] || (!IsMarker(r[0]) && !IsWhitespace(r[|r| - 1]))
  {
    var rest := line[PrefixLength(line, IsMarker)..];
    if rest == [] then Trim(rest)
    else
      TrimKeepsFirst(rest);
      Trim(rest)
  }

  /** `lines.map(line => ({ label: ..., id: getUniqueId() }))`: one record
      per line, in order, holding just the line's label and the next id. */
  function LabelRecords(lines: seq<string>, ids: nat -> string): (r: seq<Record>)
    ensures |r| == |lines|
    ensures forall i :: 0 <= i < |r| ==> r[i].Keys == {"label", "id"}
    ensures forall i :: 0 <= i < |r| ==> r[i]["label"] == Label(lines[i]) && r[i]["id"] == ids(i)
  {
    seq(|lines|, i requires 0 <= i < |lines| => map["label" := Label(lines[i]), "id" := ids(i)])
  }

  /** The fallback path: the kept lines of the text, labelled.  There are
      at most as many records as lines, one per kept line in order, and each
      is the label of a list line of the text with the next id. */
  function FallbackRecords(text: string, ids: nat -> string): (r: seq<Record>)
    ensures |r| <= Count(text, '\n') + 1
    ensures |r| == |ListLines(Split(text, '\n'))|
    ensures forall i :: 0 <= i < |r| ==> r[i].Keys == {"label", "id"} && r[i]["id"] == ids(i)
    ensures forall i :: 0 <= i < |r| ==> r[i]["label"] == Label(ListLines(Split(text, '\n'))[i])
    ensures forall i :: 0 <= i < |r| ==>
              exists line :: line in Split(text, '\n') && Keep(line) && r[i]["label"] == Label(line)
  {
    var kept := ListLines(Split(text, '\n'));
    var r := LabelRecords(kept, ids);
    assert forall i :: 0 <= i < |r| ==> kept[i] in Split(text, '\n') && Keep(kept[i]) && r[i]["label"] == Label(kept[i]);
    r
  }

  /** The inner `try`/`catch`: a parsed `result` array maps to records, a
      missing `result` to `[]`, and anything that makes the inner block throw
      (a syntax error, `null`, a `result` without `map`) to the fallback. */
  function ParseContent(parse: string -> Parsed, ids: nat -> string, text: string): (r: seq<Record>)
    ensures forall i :: 0 <= i < |r| ==> "id" in r[i] && r[i]["id"] == ids(i)
    ensures parse(text) == JsonValue(NoResult) ==> r == []
    ensures parse(text).JsonValue? && parse(text).result.ResultList? ==> r == JsonRecords(parse(text).result.items, ids)
    ensures parse(text) in {NotJson, JsonNull, JsonValue(ResultOther)} ==> r == FallbackRecords(text, ids)
  {
    match parse(text)
    case JsonValue(NoResult) => []
    case JsonValue(ResultList(items)) => JsonRecords(items, ids)
    case _ => FallbackRecords(text, ids)
  }

  /** `data.content[0].text` of a 200 answer whose body parses, when that
      element has a string `text`; `None` for any other outcome. */
  function FirstText(outcome: FetchOutcome): Option<string> {
    if outcome.Received? && outcome.response.status == 200 && outcome.response.json.BodyJson?
       && outcome.response.json.value.content.Some?
       && |outcome.response.json.value.content.value| > 0
       && outcome.response.json.value.content.value[0].TextBlock?
    then Some(outcome.response.json.value.content.value[0].text)
    else None
  }

  /** The outer branches: only a 200 answer whose body parses and whose
      first `content` element has a `text` reaches the parser; a network
      error, another status, or a body without that text (which throws in
      the source and is caught) gives `[]`. */
  function HandleResponse(parse: string -> Parsed, ids: nat -> string, outcome: FetchOutcome): (r: seq<Record>)
    ensures forall i :: 0 <= i < |r| ==> "id" in r[i] && r[i]["id"] == ids(i)
    ensures r != [] ==> outcome.Received? && outcome.response.status == 200
    ensures FirstText(outcome).Some? ==> r == ParseContent(parse, ids, FirstText(outcome).value)
    ensures outcome.Received? && outcome.response.status == 200 && outcome.response.json.BodyJson?
              && outcome.response.json.value.content.Some?
              && |outcome.response.json.value.content.value| > 0
              && outcome.response.json.value.content.value[0].TextBlock?
            ==> r == ParseContent(parse, ids, outcome.response.json.value.content.value[0].text)
  {
    match outcome
    case NetworkError(_) => []
    case Received(resp) =>
      if resp.status != 200 then []
      else match resp.json
        case BodyError(_) => []
        case BodyJson(data) => match data.content
          case None => []
          case Some(blocks) =>
            if |blocks| == 0 then []
            else match blocks[0]
              case OtherBlock => []
              case TextBlock(t) => ParseContent(parse, ids, t)
  }

  /** JavaScript's rendering of a possibly missing string in a template
      literal. */
  function Render(o: Option<string>): string {
    match o
    case Some(v) => v
    case None => "undefined"
  }

  /** The signed request `callAWSBedrock` sends for a project: the stored
      region (or `us-east-1`), the stored keys, the wrapped prompt. */
  function BuildRequest(env: Env, store: Store, prompt: string, project: string): (r: HttpRequest)
    ensures r.url == InvokeUrl(GetAwsRegion(store, project)) && r.verb == "POST"
    ensures r.body == env.stringify(BedrockPayload(prompt))
    ensures var creds := GetAwsCredentials(store, project);
            r.headers == BedrockSigner.CreateHeaders(env.crypto, env.now, r.url, r.body,
                           Render(creds.accessKeyId), Render(creds.secretAccessKey), GetAwsRegion(store, project))
  {
    var creds := GetAwsCredentials(store, project);
    var region := GetAwsRegion(store, project);
    var url := InvokeUrl(region);
    var body := env.stringify(BedrockPayload(prompt));
    HttpRequest(url, "POST", BedrockSigner.CreateHeaders(env.crypto, env.now, url, body,
                               Render(creds.accessKeyId), Render(creds.secretAccessKey), region), body)
  }

  /** `callAWSBedrock(prompt, projectKey)`.  Every record carries a fresh
      id beginning with `_`; a rejected settings read is caught and gives
      no test cases, a non-empty answer means a 200 response, and a 200
      response whose first content block has text gives what the parser
      makes of that text. */
  function CallBedrock(env: Env, store: Store, prompt: string, project: string): (r: seq<Record>)
    ensures forall i :: 0 <= i < |r| ==> "id" in r[i] && r[i]["id"] == UniqueId(env.randomText(i)) && r[i]["id"][0] == '_'
    ensures env.settingsReadFails ==> r == []
    ensures var outcome := env.send(BuildRequest(env, store, prompt, project));
            r != [] ==> !env.settingsReadFails && outcome.Received? && outcome.response.status == 200
    ensures var text := FirstText(env.send(BuildRequest(env, store, prompt, project)));
            !env.settingsReadFails && text.Some? ==> r == ParseContent(env.parse, Ids(env.randomText), text.value)
  {
    if env.settingsReadFails then []
    else HandleResponse(env.parse, Ids(env.randomText), env.send(BuildRequest(env, store, prompt, project)))
  }

  /** The kept lines are exactly the lines whose trimmed form is a list item. */
  lemma ListLinesMembership(lines: seq<string>, x: string)
    ensures x in ListLines(lines) <==> x in lines && Keep(x)
  {
    FilterMembership(lines, Keep, x);
  }

  /** The kept lines of a concatenation are those of the first part
      followed by those of the second, in order. */
  lemma ListLinesAppend(a: seq<string>, b: seq<string>)
    ensures ListLines(a + b) == ListLines(a) + ListLines(b)
  {
    FilterAppend(a, b, Keep);
  }

  /** A list item's label is its text: markers followed by a word that
      neither starts with a marker nor ends with whitespace label as that
      word. */
  lemma LabelOfItem(markers: string, word: string)
    requires forall i :: 0 <= i < |markers| ==> IsMarker(markers[i])
    requires word != [] && !IsMarker(word[0]) && !IsWhitespace(word[|word| - 1])
    ensures Label(markers + word) == word
  {
    PrefixLengthAppend(markers, word, IsMarker);
    assert (markers + word)[|markers|..] == word;
    TrimClean(word);
  }

  /** The longest `p`-prefix of `a + b` is `a` when all of `a` satisfies
      `p` and `b` does not start with a `p` character. */
  lemma {:induction false} PrefixLengthAppend(a: string, b: string, p: char -> bool)
    requires forall i :: 0 <= i < |a| ==> p(a[i])
    requires b == [] || !p(b[0])
    ensures PrefixLength(a + b, p) == |a|
    decreases |a|
  {
    if |a| == 0 {
      assert a + b == b;
    } else {
      PrefixLengthAppend(a[1..], b, p);
      assert (a + b)[1..] == a[1..] + b;
    }
  }

  /** Every list line of the text gives a record labelled with it. */
  lemma FallbackCoversListLines(text: string, ids: nat -> string, line: string)
    requires line in Split(text, '\n') && Keep(line)
    ensures exists i :: 0 <= i < |FallbackRecords(text, ids)| && FallbackRecords(text, ids)[i]["label"] == Label(line)
  {
    var kept := ListLines(Split(text, '\n'));
    ListLinesMembership(Split(text, '\n'), line);
    var i :| 0 <= i < |kept| && kept[i] == line;
    assert FallbackRecords(text, ids)[i]["label"] == Label(line);
  }

  /** Text in which no line is a list item yields no test cases. */
  lemma NoListLinesNoRecords(text: string, ids: nat -> string)
    requires forall line :: line in Split(text, '\n') ==> !Keep(line)
    ensures FallbackRecords(text, ids) == []
  {
    var kept := ListLines(Split(text, '\n'));
    if kept != [] {
      ListLinesMembership(Split(text, '\n'), kept[0]);
    }
  }

  /** With a supply of distinct ids, the records of one answer have
      pairwise distinct ids. */
  lemma IdsDistinct(parse: string -> Parsed, ids: nat -> string, outcome: FetchOutcome)
    requires forall i, j :: 0 <= i < j ==> ids(i) != ids(j)
    ensures var r := HandleResponse(parse, ids, outcome);
            forall i, j :: 0 <= i < j < |r| ==> r[i]["id"] != r[j]["id"]
  {
  }

  /** Random draws whose sliced texts never repeat give test cases with
      pairwise distinct ids. */
  lemma DistinctDrawsDistinctIds(parse: string -> Parsed, randomText: nat -> string, outcome: FetchOutcome)
    requires forall i: nat, j: nat :: i < j ==> DrawSlice(randomText(i)) != DrawSlice(randomText(j))
    ensures var r := HandleResponse(parse, Ids(randomText), outcome);
            forall i, j :: 0 <= i < j < |r| ==> r[i]["id"] != r[j]["id"]
  {
    forall i: nat, j: nat | i < j
      ensures Ids(randomText)(i) != Ids(randomText)(j)
    {
      UniqueIdInjective(randomText(i), randomText(j));
    }
    IdsDistinct(parse, Ids(randomText), outcome);
  }
}

=== FILE: bedrock_signer.dfy ===
/** The Signature Version 4 headers of src/helpers/callAWSBedrock.js
    (`createAwsHeaders`, `sha256`, `hmacSha256`, `getSignatureKey`).  It
    differs from the standard and from test-aws-connection.js in three ways
    the model keeps: `X-Amz-Date` has no trailing `Z`, only `host` and
    `x-amz-date` are signed, and every intermediate key of the chain passes
    through hex text. */
module BedrockSigner {
  import opened JsText
  import opened Hex
  import opened Timestamp
  import opened Http
  import opened SigV4

  /** The key argument of `hmacSha256`: a string, which is UTF-8 encoded, or
      a byte array, which is used as is. */
  datatype HmacKey = TextKey(text: string) | ByteKey(bytes: seq<Byte>)

  /** `hmacSha256(key, message)`: lowercase hex of the HMAC. */
  function HmacSha256(c: Crypto, key: HmacKey, message: string): (r: string)
    ensures |r| == 64
    ensures forall i :: 0 <= i < |r| ==> IsLowerHexDigit(r[i])
  {
    var keyData := match key
      case TextKey(t) => c.utf8(t)
      case ByteKey(b) => b;
    HexEncode(c.hmac(keyData, c.utf8(message)))
  }

  /** `getSignatureKey(key, dateStamp, regionName, serviceName)`: each step's
      hex output is decoded two characters at a time into the next key. */
  function SigningKey(c: Crypto, key: string, dateStamp: string, regionName: string, serviceName: string): (k: seq<Byte>)
    ensures |k| == 32
  {
    var kDate := HmacSha256(c, TextKey("AWS4" + key), dateStamp);
    var kRegion := HmacSha256(c, ByteKey(HexDecode(kDate)), regionName);
    var kService := HmacSha256(c, ByteKey(HexDecode(kRegion)), serviceName);
    var kSigning := HmacSha256(c, ByteKey(HexDecode(kService)), ScopeTerminator);
    HexDecode(kSigning)
  }

  /** Because decoding inverts the hex encoding, the hex round trips in the
      chain change nothing: the key equals the raw-byte chain of
      test-aws-connection.js. */
  lemma SigningKeyIsRawChain(c: Crypto, key: string, dateStamp: string, regionName: string, serviceName: string)
    ensures SigningKey(c, key, dateStamp, regionName, serviceName)
         == RawSigningKey(c, key, dateStamp, regionName, serviceName)
  {
    var kDate := c.hmac(c.utf8("AWS4" + key), c.utf8(dateStamp));
    HexRoundTrip(kDate);
    var kRegion := c.hmac(kDate, c.utf8(regionName));
    HexRoundTrip(kRegion);
    var kService := c.hmac(kRegion, c.utf8(serviceName));
    HexRoundTrip(kService);
    var kSigning := c.hmac(kService, c.utf8(ScopeTerminator));
    HexRoundTrip(kSigning);
  }

  /** `host:${host}\nx-amz-date:${date}\n`. */
  function CanonicalHeaders(host: string, date: string): string {
    "host:" + host + "\nx-amz-date:" + date + "\n"
  }

  const SignedHeaders: string := "host;x-amz-date"

  /** The canonical request; its URI is the fixed model path, whatever URL
      the caller passed. */
  function CanonicalRequest(c: Crypto, host: string, date: string, body: string): string {
    Method + "\n" + ModelPath + "\n\n" + CanonicalHeaders(host, date) + "\n" + SignedHeaders + "\n" + HexSha256(c, body)
  }

  /** `createAwsHeaders(url, body, accessKeyId, secretAccessKey, region)`;
      `now` is the text of `new Date().toISOString()`.  The result is exactly
      three headers, and the signature is the one the raw-byte key chain
      gives. */
  function CreateHeaders(c: Crypto, now: string, url: string, body: string,
                         accessKeyId: string, secretAccessKey: string, region: string): (h: map<string, string>)
    ensures h.Keys == {"Authorization", "Content-Type", "X-Amz-Date"}
    ensures h["Content-Type"] == "application/json"
    ensures h["X-Amz-Date"] == BedrockAmzDate(now)
    ensures
      var date := BedrockAmzDate(now);
      var scope := CredentialScope(DateStamp(date), region);
      var toSign := StringToSign(c, date, scope, CanonicalRequest(c, Host(region), date, body));
      var key := RawSigningKey(c, secretAccessKey, DateStamp(date), region, Service);
      h["Authorization"] == Authorization(accessKeyId, scope, "host;x-amz-date", Signature(c, key, toSign))
  {
    var date := BedrockAmzDate(now);
    var dateStamp := DateStamp(date);
    var canonicalRequest := CanonicalRequest(c, Host(region), date, body);
    var scope := CredentialScope(dateStamp, region);
    var toSign := StringToSign(c, date, scope, canonicalRequest);
    var signingKey := SigningKey(c, secretAccessKey, dateStamp, region, Service);
    SigningKeyIsRawChain(c, secretAccessKey, dateStamp, region, Service);
    var signature := HmacSha256(c, ByteKey(signingKey), toSign);
    AmzHeaders(Authorization(accessKeyId, scope, SignedHeaders, signature), date)
  }

  /** The eight lines of the canonical request, in order. */
  function CanonicalLines(c: Crypto, host: string, date: string, body: string): seq<string> {
    [Method, ModelPath, "", "host:" + host, "x-amz-date:" + date, "", SignedHeaders, HexSha256(c, body)]
  }

  /** Joining eight lines with newlines puts one newline after each of
      the first seven. */
  lemma JoinEight(m: string, p: string, l3: string, l4: string, sh: string, h: string)
    ensures Join([m, p, "", l3, l4, "", sh, h], "\n")
         == m + "\n" + (p + "\n" + ("" + "\n" + (l3 + "\n" + (l4 + "\n" + ("" + "\n" + (sh + "\n" + h))))))
  {
    var lines := [m, p, "", l3, l4, "", sh, h];
    JoinLines(lines, 7);
    JoinLines(lines, 6);
    JoinLines(lines, 5);
    JoinLines(lines, 4);
    JoinLines(lines, 3);
    JoinLines(lines, 2);
    JoinLines(lines, 1);
    JoinLines(lines, 0);
    assert lines[0..] == lines;
  }

  /** The nested join reads as the template literal of the source. */
  lemma EightLinesFlat(m: string, p: string, l3: string, l4: string, sh: string, h: string)
    ensures m + "\n" + (p + "\n" + ("" + "\n" + (l3 + "\n" + (l4 + "\n" + ("" + "\n" + (sh + "\n" + h))))))
         == m + "\n" + p + "\n\n" + (l3 + "\n" + l4 + "\n") + "\n" + sh + "\n" + h
  {
    var nl := "\n";
    var tail := sh + nl + h;
    assert "" + nl + tail == nl + tail;
    assert l4 + nl + (nl + tail) == l4 + nl + nl + tail;
    assert l3 + nl + (l4 + nl + nl + tail) == (l3 + nl + l4 + nl) + nl + tail;
    assert "\n\n" == nl + nl;
  }

  /** The canonical request is its eight lines joined by newlines. */
  lemma CanonicalRequestJoin(c: Crypto, host: string, date: string, body: string)
    ensures Join(CanonicalLines(c, host, date, body), "\n") == CanonicalRequest(c, host, date, body)
  {
    var l3, l4 := "host:" + host, "x-amz-date:" + date;
    JoinEight(Method, ModelPath, l3, l4, SignedHeaders, HexSha256(c, body));
    EightLinesFlat(Method, ModelPath, l3, l4, SignedHeaders, HexSha256(c, body));
    assert "\nx-amz-date:" == "\n" + "x-amz-date:";
    assert CanonicalHeaders(host, date) == l3 + "\n" + l4 + "\n";
  }

  /** The canonical request reads back, line by line, as method, URI, empty
      query, the two header lines, the blank line that ends the headers, the
      signed-header list and the payload hash. */
  lemma CanonicalRequestFields(c: Crypto, host: string, date: string, body: string)
    requires NoNewline(host) && NoNewline(date)
    ensures Split(CanonicalRequest(c, host, date, body), '\n')
         == [Method, ModelPath, "", "host:" + host, "x-amz-date:" + date, "", SignedHeaders, HexSha256(c, body)]
  {
    var lines := CanonicalLines(c, host, date, body);
    CanonicalLinesHaveNoNewline(c, host, date, body);
    CanonicalRequestJoin(c, host, date, body);
    assert "\n" == ['\n'];
    SplitJoin(lines, '\n');
  }

  /** No line of the canonical request holds a newline of its own. */
  lemma CanonicalLinesHaveNoNewline(c: Crypto, host: string, date: string, body: string)
    requires NoNewline(host) && NoNewline(date)
    ensures forall i :: 0 <= i < 8 ==> '\n' !in CanonicalLines(c, host, date, body)[i]
  {
    var h := HexSha256(c, body);
    HexHasNoNewline(h);
    ModelPathHasNoNewline();
    assert NoNewline(SignedHeaders);
    assert NoNewline("host:" + host);
    assert NoNewline("x-amz-date:" + date);
  }

  /** The `url` argument plays no part in the headers. */
  lemma HeadersIgnoreUrl(c: Crypto, now: string, url1: string, url2: string, body: string,
                         accessKeyId: string, secretAccessKey: string, region: string)
    ensures CreateHeaders(c, now, url1, body, accessKeyId, secretAccessKey, region)
         == CreateHeaders(c, now, url2, body, accessKeyId, secretAccessKey, region)
  {
  }

  /** With a clock reading in ISO form, `X-Amz-Date` is the 15-character
      `YYYYMMDDTHHMMSS` and the credential scope starts with `YYYYMMDD`. */
  lemma HeadersForIsoClock(c: Crypto, now: string, url: string, body: string,
                           accessKeyId: string, secretAccessKey: string, region: string)
    requires IsIsoTimestamp(now)
    ensures var h := CreateHeaders(c, now, url, body, accessKeyId, secretAccessKey, region);
            && h["X-Amz-Date"] == BasicDateTime(now)
            && |h["X-Amz-Date"]| == 15
            && StartsWith(h["Authorization"],
                 AuthorizationPrefix(accessKeyId, CredentialScope(now[0..4] + now[5..7] + now[8..10], region), "host;x-amz-date"))
  {
    AmzDates(now);
  }
}

=== FILE: common.dfy ===
/** Values shared by every module of the model. */
module Common {

  /** A value that may be absent: JavaScript's `undefined` (or `null`) is `None`. */
  datatype Option<+T> = None | Some(value: T) {

    /** The value, or `default` when absent. */
    function GetOr(default: T): T {
      match this
      case Some(v) => v
      case None => default
    }
  }
}

=== FILE: connection_signer.dfy ===
/** The Signature Version 4 headers of test-aws-connection.js
    (`createAwsHeaders`, `sha256`, `getSignatureKey`): `content-type` is
    signed too, an optional session token adds a fourth signed header, the
    date keeps its trailing `Z`, and the key chain passes raw bytes. */
module ConnectionSigner {
  import opened Common
  import opened JsText
  import opened Timestamp
  import opened Http
  import opened SigV4
  import BedrockSigner

  /** The canonical headers, as the two template literals of the source
      choose between them on the token's truthiness. */
  function CanonicalHeaders(host: string, date: string, token: Option<string>): string {
    if Truthy(token) then
      "content-type:application/json\nhost:" + host + "\nx-amz-date:" + date + "\nx-amz-security-token:" + token.value + "\n"
    else
      "content-type:application/json\nhost:" + host + "\nx-amz-date:" + date + "\n"
  }

  /** The signed-header list, as the two literals of the source. */
  function SignedHeaders(token: Option<string>): string {
    if Truthy(token) then "content-type;host;x-amz-date;x-amz-security-token" else "content-type;host;x-amz-date"
  }

  /** One canonical header: a lower-case name and its value. */
  datatype HeaderEntry = HeaderEntry(name: string, value: string)

  /** The headers the request is signed over, in order, written once: the
      reference both literals above are checked against. */
  function HeaderEntries(host: string, date: string, token: Option<string>): (e: seq<HeaderEntry>)
    ensures |e| == if Truthy(token) then 4 else 3
  {
    [HeaderEntry("content-type", "application/json"), HeaderEntry("host", host), HeaderEntry("x-amz-date", date)]
      + (if Truthy(token) then [HeaderEntry("x-amz-security-token", token.value)] else [])
  }

  /** One canonical header line, `name:value` and a newline. */
  function Line(e: HeaderEntry): string {
    e.name + ":" + e.value + "\n"
  }

  /** The entries' lines, one after another. */
  function RenderEntries(entries: seq<HeaderEntry>): string {
    if |entries| == 0 then "" else Line(entries[0]) + RenderEntries(entries[1..])
  }

  function Names(entries: seq<HeaderEntry>): (names: seq<string>)
    ensures |names| == |entries|
    ensures forall i :: 0 <= i < |entries| ==> names[i] == entries[i].name
  {
    if |entries| == 0 then [] else [entries[0].name] + Names(entries[1..])
  }

  /** `a` comes strictly before `b` in code-unit order, the order Signature
      Version 4 asks of canonical header names. */
  predicate Precedes(a: string, b: string)
    decreases |a|
  {
    |b| > 0 && (|a| == 0 || a[0] < b[0] || (a[0] == b[0] && Precedes(a[1..], b[1..])))
  }

  /** The canonical request: method, the fixed model path (whatever URL the
      caller passed), an empty query, the headers, the signed-header list
      and the body's hash. */
  function CanonicalRequest(c: Crypto, host: string, date: string, token: Option<string>, body: string): string {
    Method + "\n" + ModelPath + "\n\n" + CanonicalHeaders(host, date, token) + "\n" + SignedHeaders(token) + "\n" + HexSha256(c, body)
  }

  /** Adds `X-Amz-Security-Token` when the token is truthy and leaves the
      other headers alone. */
  function WithSessionToken(headers: map<string, string>, token: Option<string>): (h: map<string, string>)
    requires "X-Amz-Security-Token" !in headers
    ensures h.Keys == headers.Keys + (if Truthy(token) then {"X-Amz-Security-Token"} else {})
    ensures forall k :: k in headers ==> h[k] == headers[k]
    ensures Truthy(token) ==> h["X-Amz-Security-Token"] == token.value
  {
    if Truthy(token) then headers["X-Amz-Security-Token" := token.value] else headers
  }

  /** `createAwsHeaders(url, body, accessKeyId, secretAccessKey, region,
      sessionToken)`; `now` is the text of `new Date().toISOString()`.
      `X-Amz-Security-Token` is sent exactly when the token is truthy. */
  function CreateHeaders(c: Crypto, now: string, url: string, body: string, accessKeyId: string,
                         secretAccessKey: string, region: string, token: Option<string>): (h: map<string, string>)
    ensures h.Keys == {"Authorization", "Content-Type", "X-Amz-Date"} + (if Truthy(token) then {"X-Amz-Security-Token"} else {})
    ensures Truthy(token) ==> h["X-Amz-Security-Token"] == token.value
    ensures h["Content-Type"] == "application/json"
    ensures h["X-Amz-Date"] == ConnectionAmzDate(now)
    ensures
      var date := ConnectionAmzDate(now);
      var scope := CredentialScope(DateStamp(date), region);
      var toSign := StringToSign(c, date, scope, CanonicalRequest(c, Host(region), date, token, body));
      var key := RawSigningKey(c, secretAccessKey, DateStamp(date), region, Service);
      h["Authorization"] == Authorization(accessKeyId, scope, SignedHeaders(token), Signature(c, key, toSign))
  {
    var date := ConnectionAmzDate(now);
    var dateStamp := DateStamp(date);
    var scope := CredentialScope(dateStamp, region);
    var toSign := StringToSign(c, date, scope, CanonicalRequest(c, Host(region), date, token, body));
    var signature := Signature(c, RawSigningKey(c, secretAccessKey, dateStamp, region, Service), toSign);
    WithSessionToken(AmzHeaders(Authorization(accessKeyId, scope, SignedHeaders(token), signature), date), token)
  }

  /** The tester's chain of four HMACs over raw bytes gives the same
      signing key as the add-on's chain with its hex round trips. */
  lemma TesterKeyMatchesAddOn(c: Crypto, secret: string, dateStamp: string, region: string)
    ensures RawSigningKey(c, secret, dateStamp, region, Service)
         == BedrockSigner.SigningKey(c, secret, dateStamp, region, Service)
  {
    BedrockSigner.SigningKeyIsRawChain(c, secret, dateStamp, region, Service);
  }

  lemma RenderTwo(a: HeaderEntry, b: HeaderEntry, rest: seq<HeaderEntry>)
    ensures RenderEntries([a, b] + rest) == Line(a) + (Line(b) + RenderEntries(rest))
  {
    assert ([a, b] + rest)[1..] == [b] + rest;
    assert ([b] + rest)[1..] == rest;
  }

  /** Both literals of the source agree with the one list of entries: the
      canonical headers render the entries in order, and the signed-header
      list names exactly those entries, in the same order, joined by `;`. */
  lemma LiteralsMatchEntries(host: string, date: string, token: Option<string>)
    ensures CanonicalHeaders(host, date, token) == RenderEntries(HeaderEntries(host, date, token))
    ensures SignedHeaders(token) == Join(Names(HeaderEntries(host, date, token)), ";")
  {
    if Truthy(token) {
      RenderedWithToken(host, date, token.value);
      NamedWithToken(host, date, token.value);
    } else {
      RenderedWithoutToken(host, date);
      NamedWithoutToken(host, date);
    }
  }

  lemma RenderedWithToken(host: string, date: string, token: string)
    requires token != ""
    ensures CanonicalHeaders(host, date, Some(token)) == RenderEntries(HeaderEntries(host, date, Some(token)))
  {
    var ct := HeaderEntry("content-type", "application/json");
    var hs := HeaderEntry("host", host);
    var dt := HeaderEntry("x-amz-date", date);
    var tk := HeaderEntry("x-amz-security-token", token);
    assert HeaderEntries(host, date, Some(token)) == [ct, hs] + [dt, tk];
    RenderTwo(ct, hs, [dt, tk]);
    assert [dt, tk] == [dt, tk] + [];
    RenderTwo(dt, tk, []);
    LiteralPieces();
    ThreeLinesAfter(Line(ct), "host", host, "x-amz-date", date, "x-amz-security-token", token);
  }

  /** Regrouping three `name:value` lines written after a prefix, the way
      the template literal interleaves them with its fixed text. */
  lemma ThreeLinesAfter(first: string, n2: string, v2: string, n3: string, v3: string, n4: string, v4: string)
    ensures first + (n2 + ":") + v2 + ("\n" + (n3 + ":")) + v3 + ("\n" + (n4 + ":")) + v4 + "\n"
         == first + ((n2 + ":" + v2 + "\n") + ((n3 + ":" + v3 + "\n") + ((n4 + ":" + v4 + "\n") + "")))
  {
    var c, nl := ":", "\n";
    var l4 := n4 + c + v4 + nl;
    var l3 := n3 + c + v3 + nl;
    var l2 := n2 + c + v2 + nl;
    assert l4 + "" == l4;
    assert (n3 + c) + v3 + (nl + (n4 + c)) + v4 + nl == l3 + l4;
    assert first + (n2 + c) + v2 + (nl + (n3 + c)) + v3 + (nl + (n4 + c)) + v4 + nl
        == first + ((n2 + c) + v2 + nl) + ((n3 + c) + v3 + (nl + (n4 + c)) + v4 + nl);
  }

  /** The two template prefixes split at their line ends. */
  lemma LiteralPieces()
    ensures "content-type:application/json\nhost:" == Line(HeaderEntry("content-type", "application/json")) + ("host" + ":")
    ensures "\nx-amz-date:" == "\n" + ("x-amz-date" + ":")
    ensures "\nx-amz-security-token:" == "\n" + ("x-amz-security-token" + ":")
  {
    FirstLiteralPiece();
  }

  lemma FirstLiteralPiece()
    ensures "content-type:application/json\nhost:" == Line(HeaderEntry("content-type", "application/json")) + ("host" + ":")
  {
    var a, b := "content-type", "application/json";
    assert Line(HeaderEntry(a, b)) == a + ":" + b + "\n";
    assert "content-type:application/json\nhost:" == a + ":" + b + "\n" + ("host" + ":");
  }

  lemma RenderedWithoutToken(host: string, date: string)
    ensures CanonicalHeaders(host, date, None) == RenderEntries(HeaderEntries(host, date, None))
  {
    var ct := HeaderEntry("content-type", "application/json");
    var hs := HeaderEntry("host", host);
    var dt := HeaderEntry("x-amz-date", date);
    assert HeaderEntries(host, date, None) == [ct, hs] + [dt];
    RenderTwo(ct, hs, [dt]);
    assert RenderEntries([dt]) == "x-amz-date:" + date + "\n";
    LiteralPieces();
  }

  lemma NamedWithToken(host: string, date: string, token: string)
    requires token != ""
    ensures SignedHeaders(Some(token)) == Join(Names(HeaderEntries(host, date, Some(token))), ";")
  {
    var n := Names(HeaderEntries(host, date, Some(token)));
    var a, b, c, d := "content-type", "host", "x-amz-date", "x-amz-security-token";
    assert n == [a, b, c, d];
    JoinFour(a, b, c, d, ";");
    SignedLiteralPieces();
  }

  lemma SignedLiteralPieces()
    ensures "content-type;host;x-amz-date;x-amz-security-token"
         == "content-type" + ";" + ("host" + ";" + ("x-amz-date" + ";" + "x-amz-security-token"))
  {
  }

  lemma JoinFour(a: string, b: string, c: string, d: string, sep: string)
    ensures Join([a, b, c, d], sep) == a + sep + (b + sep + (c + sep + d))
  {
    assert [c, d][1..] == [d];
    assert Join([c, d], sep) == c + sep + d;
    assert [b, c, d][1..] == [c, d];
    assert Join([b, c, d], sep) == b + sep + (c + sep + d);
    assert [a, b, c, d][1..] == [b, c, d];
  }

  lemma NamedWithoutToken(host: string, date: string)
    ensures SignedHeaders(None) == Join(Names(HeaderEntries(host, date, None)), ";")
  {
    var n := Names(HeaderEntries(host, date, None));
    assert n == ["content-type"] + ["host", "x-amz-date"];
    JoinCons("content-type", ["host", "x-amz-date"], ";");
    assert ["host", "x-amz-date"] == ["host"] + ["x-amz-date"];
    JoinCons("host", ["x-amz-date"], ";");
    assert "content-type;host;x-amz-date" == "content-type" + ";" + ("host" + ";" + "x-amz-date");
  }

  /** Strings that agree on their first `k` characters are ordered as what
      follows them is. */
  lemma {:induction false} PrecedesAfter(a: string, b: string, k: nat)
    requires k <= |a| && k <= |b| && a[..k] == b[..k]
    requires Precedes(a[k..], b[k..])
    ensures Precedes(a, b)
    decreases k
  {
    if k > 0 {
      assert a[1..][..k - 1] == a[1..k] == b[1..k] == b[1..][..k - 1];
      assert a[1..][k - 1..] == a[k..] && b[1..][k - 1..] == b[k..];
      PrecedesAfter(a[1..], b[1..], k - 1);
      assert a[0] == a[..k][0] == b[..k][0] == b[0];
    }
  }

  /** Three or four names in a row are ordered once each adjacent pair is. */
  lemma AdjacentOrdered(n: seq<string>)
    requires 3 <= |n| <= 4
    requires Precedes(n[0], n[1]) && Precedes(n[1], n[2])
    requires |n| == 4 ==> Precedes(n[2], n[3])
    ensures forall i :: 0 <= i < |n| - 1 ==> Precedes(n[i], n[i + 1])
  {
    forall i | 0 <= i < |n| - 1 ensures Precedes(n[i], n[i + 1]) {
      assert i == 0 || i == 1 || i == 2;
    }
  }

  /** The header names are in strictly increasing order, with or without
      the token, as Signature Version 4 requires of the signed headers. */
  lemma EntriesSorted(host: string, date: string, token: Option<string>)
    ensures var n := Names(HeaderEntries(host, date, token));
            forall i :: 0 <= i < |n| - 1 ==> Precedes(n[i], n[i + 1])
  {
    var n := Names(HeaderEntries(host, date, token));
    var a, b := "x-amz-date", "x-amz-security-token";
    assert n[0] == "content-type" && n[1] == "host" && n[2] == a;
    assert Precedes("content-type", "host");
    assert Precedes("host", a);
    if Truthy(token) {
      assert n[3] == b;
      assert a[..6] == b[..6];
      assert a[6..] == "date" && b[6..] == "security-token";
      PrecedesAfter(a, b, 6);
    }
    AdjacentOrdered(n);
  }

  /** The entries' lines without their newlines. */
  function EntryTexts(entries: seq<HeaderEntry>): (r: seq<string>)
    ensures |r| == |entries|
    ensures forall i :: 0 <= i < |r| ==> r[i] == entries[i].name + ":" + entries[i].value
  {
    if |entries| == 0 then [] else [entries[0].name + ":" + entries[0].value] + EntryTexts(entries[1..])
  }

  /** Rendering entries in front of newline-joined lines is joining their
      texts in front of those lines. */
  lemma {:induction false} RenderJoin(entries: seq<HeaderEntry>, rest: seq<string>)
    requires |rest| >= 1
    ensures RenderEntries(entries) + Join(rest, "\n") == Join(EntryTexts(entries) + rest, "\n")
    decreases |entries|
  {
    if |entries| == 0 {
      assert EntryTexts(entries) + rest == rest;
    } else {
      var t := entries[0].name + ":" + entries[0].value;
      var tail := EntryTexts(entries[1..]) + rest;
      RenderJoin(entries[1..], rest);
      assert EntryTexts(entries) + rest == [t] + tail;
      JoinConsPrefix(t, RenderEntries(entries[1..]), Join(rest, "\n"), tail);
    }
  }

  /** One more line in front of a newline-joined list whose join is split
      in two pieces. */
  lemma JoinConsPrefix(t: string, head: string, rest: string, lines: seq<string>)
    requires |lines| >= 1 && head + rest == Join(lines, "\n")
    ensures (t + "\n" + head) + rest == Join([t] + lines, "\n")
  {
    JoinCons(t, lines, "\n");
    assert (t + "\n" + head) + rest == t + "\n" + (head + rest);
  }

  /** The lines of the canonical request, written once. */
  function CanonicalLines(c: Crypto, host: string, date: string, token: Option<string>, body: string): seq<string> {
    [Method, ModelPath, ""] + EntryTexts(HeaderEntries(host, date, token)) + ["", SignedHeaders(token), HexSha256(c, body)]
  }

  /** Newline-joining the framed lines: three leading lines, the header
      texts, and a blank line, the signed-header list and the hash. */
  lemma FramedLines(m: string, p: string, texts: seq<string>, rendered: string, sh: string, h: string)
    requires rendered + Join(["", sh, h], "\n") == Join(texts + ["", sh, h], "\n")
    ensures Join([m, p, ""] + texts + ["", sh, h], "\n") == m + "\n" + p + "\n\n" + rendered + "\n" + sh + "\n" + h
  {
    var nl := "\n";
    var last := ["", sh, h];
    var tail := texts + last;
    JoinCons(sh, [h], nl);
    assert [""] + [sh, h] == last;
    JoinCons("", [sh, h], nl);
    JoinCons("", tail, nl);
    JoinCons(p, [""] + tail, nl);
    JoinCons(m, [p] + ([""] + tail), nl);
    assert [m, p, ""] + texts + last == [m] + ([p] + ([""] + tail));
    var j := Join(tail, nl);
    assert j == rendered + ("" + nl + (sh + nl + h));
    assert "" + nl + j == nl + j;
    assert "\n\n" == nl + nl;
    assert m + nl + (p + nl + (nl + j)) == m + nl + p + nl + nl + j;
  }

  /** The canonical request is its lines joined by newlines. */
  lemma CanonicalRequestJoin(c: Crypto, host: string, date: string, token: Option<string>, body: string)
    ensures Join(CanonicalLines(c, host, date, token, body), "\n") == CanonicalRequest(c, host, date, token, body)
  {
    var entries := HeaderEntries(host, date, token);
    var sh, h := SignedHeaders(token), HexSha256(c, body);
    RenderJoin(entries, ["", sh, h]);
    LiteralsMatchEntries(host, date, token);
    FramedLines(Method, ModelPath, EntryTexts(entries), CanonicalHeaders(host, date, token), sh, h);
  }

  /** No line of a list holds a newline of its own. */
  predicate SingleLines(lines: seq<string>) {
    forall i :: 0 <= i < |lines| ==> '\n' !in lines[i]
  }

  lemma SingleLinesAppend(a: seq<string>, b: seq<string>)
    requires SingleLines(a) && SingleLines(b)
    ensures SingleLines(a + b)
  {
    assert forall i :: |a| <= i < |a + b| ==> (a + b)[i] == b[i - |a|];
  }

  /** The header texts are single lines when the host, date and token are. */
  lemma EntryTextsSingle(host: string, date: string, token: Option<string>)
    requires NoNewline(host) && NoNewline(date) && (token.Some? ==> NoNewline(token.value))
    ensures SingleLines(EntryTexts(HeaderEntries(host, date, token)))
  {
    var entries := HeaderEntries(host, date, token);
    forall i | 0 <= i < |entries|
      ensures NoNewline(entries[i].name) && NoNewline(entries[i].value)
    {
      if i == 0 {
        assert entries[0] == HeaderEntry("content-type", "application/json");
      } else if i == 1 {
        assert entries[1] == HeaderEntry("host", host);
      } else if i == 2 {
        assert entries[2] == HeaderEntry("x-amz-date", date);
      } else {
        assert entries[3] == HeaderEntry("x-amz-security-token", token.value);
      }
    }
    TextsSingle(entries);
  }

  /** Entries whose names and values are single lines give single-line
      texts. */
  lemma TextsSingle(entries: seq<HeaderEntry>)
    requires forall i :: 0 <= i < |entries| ==> NoNewline(entries[i].name) && NoNewline(entries[i].value)
    ensures SingleLines(EntryTexts(entries))
  {
    var r := EntryTexts(entries);
    forall i | 0 <= i < |r| ensures '\n' !in r[i] {
      assert r[i] == entries[i].name + ":" + entries[i].value;
      assert NoNewline(entries[i].name) && NoNewline(entries[i].value);
    }
  }

  /** The canonical request reads back, line by line, as method, URI, empty
      query, one line per signed header, the blank line that ends the
      headers, the signed-header list and the payload hash. */
  lemma CanonicalRequestFields(c: Crypto, host: string, date: string, token: Option<string>, body: string)
    requires NoNewline(host) && NoNewline(date) && (token.Some? ==> NoNewline(token.value))
    ensures Split(CanonicalRequest(c, host, date, token, body), '\n') == CanonicalLines(c, host, date, token, body)
  {
    var texts := EntryTexts(HeaderEntries(host, date, token));
    var h := HexSha256(c, body);
    HexHasNoNewline(h);
    ModelPathHasNoNewline();
    EntryTextsSingle(host, date, token);
    assert SingleLines([Method, ModelPath, ""]);
    assert SingleLines(["", SignedHeaders(token), h]);
    SingleLinesAppend([Method, ModelPath, ""], texts);
    SingleLinesAppend([Method, ModelPath, ""] + texts, ["", SignedHeaders(token), h]);
    CanonicalRequestJoin(c, host, date, token, body);
    assert "\n" == ['\n'];
    SplitJoin(CanonicalLines(c, host, date, token, body), '\n');
  }

  /** With a clock reading in ISO form, `X-Amz-Date` is the 16-character
      `YYYYMMDDTHHMMSSZ` and the credential scope starts with `YYYYMMDD`. */
  lemma HeadersForIsoClock(c: Crypto, now: string, url: string, body: string, accessKeyId: string,
                           secretAccessKey: string, region: string, token: Option<string>)
    requires IsIsoTimestamp(now)
    ensures var h := CreateHeaders(c, now, url, body, accessKeyId, secretAccessKey, region, token);
            && h["X-Amz-Date"] == BasicDateTime(now) + "Z"
            && |h["X-Amz-Date"]| == 16
            && StartsWith(h["Authorization"],
                 AuthorizationPrefix(accessKeyId, CredentialScope(now[0..4] + now[5..7] + now[8..10], region), SignedHeaders(token)))
  {
    AmzDates(now);
  }
}

=== FILE: connection_test.dfy ===
/** `testAwsBedrockConnection` of test-aws-connection.js: one signed
    ten-token request, its outcome classified into a result object.  The
    clock, `JSON.stringify` and `fetch` are inputs. */
module ConnectionTest {
  import opened Common
  import opened JsText
  import opened Http
  import opened SigV4
  import ConnectionSigner

  const TestPrompt: string := "Test connection"
  const DefaultRegion: string := "us-east-1"

  /** What a result reports besides `success` and `message`: the parsed
      body on success, the response text or the error message otherwise,
      or nothing. */
  datatype Detail = Data(json: ResponseJson) | ErrorText(text: string) | NoDetail

  datatype ConnectionResult = ConnectionResult(success: bool, message: string, detail: Detail)

  /** The environment a request runs in: the primitives, the clock's ISO
      text, `JSON.stringify` of a payload, and `fetch`. */
  datatype Env = Env(crypto: Crypto, now: string, stringify: Payload -> string, send: HttpRequest -> FetchOutcome)

  function TestPayload(): (p: Payload)
    ensures p.anthropicVersion == AnthropicVersion && p.maxTokens == 10
    ensures p.messages == [Message("user", TestPrompt)]
  {
    Payload(AnthropicVersion, 10, [Message("user", TestPrompt)])
  }

  /** The request sent: a POST of the serialised payload to the region's
      invoke URL, with the headers the connection signer builds.  An
      absent region is the default parameter `us-east-1`. */
  function TestRequest(env: Env, accessKeyId: string, secretAccessKey: string,
                       region: Option<string>, token: Option<string>): (r: HttpRequest)
    ensures r.url == InvokeUrl(region.GetOr(DefaultRegion)) && r.verb == "POST"
    ensures r.body == env.stringify(TestPayload())
    ensures r.headers == ConnectionSigner.CreateHeaders(env.crypto, env.now, r.url, r.body,
                           accessKeyId, secretAccessKey, region.GetOr(DefaultRegion), token)
  {
    var reg := region.GetOr(DefaultRegion);
    var url := InvokeUrl(reg);
    var body := env.stringify(TestPayload());
    HttpRequest(url, "POST", ConnectionSigner.CreateHeaders(env.crypto, env.now, url, body, accessKeyId, secretAccessKey, reg, token), body)
  }

  /** Classifies what `fetch` gave: status 200 with a readable body is a
      success, any other status a failure naming the status, and a
      rejection (of `fetch`, `response.json()` or `response.text()`) the
      catch-all failure. */
  function Classify(outcome: FetchOutcome): (r: ConnectionResult)
    ensures r.success <==> outcome.Received? && outcome.response.status == 200 && outcome.response.json.BodyJson?
    ensures r.success ==>
              r == ConnectionResult(true, "AWS Bedrock connection successful", Data(outcome.response.json.value))
    ensures outcome.Received? && outcome.response.status != 200 && outcome.response.text.BodyText? ==>
              r == ConnectionResult(false, "Connection failed: " + Decimal(outcome.response.status),
                                    ErrorText(outcome.response.text.text))
    ensures outcome.Received? && outcome.response.status != 200 && outcome.response.text.TextError? ==>
              r == ConnectionResult(false, "Connection test failed", ErrorText(outcome.response.text.message))
    ensures outcome.NetworkError? ==> r == ConnectionResult(false, "Connection test failed", ErrorText(outcome.message))
    ensures outcome.Received? && outcome.response.status == 200 && outcome.response.json.BodyError? ==>
              r == ConnectionResult(false, "Connection test failed", ErrorText(outcome.response.json.message))
  {
    match outcome
    case NetworkError(m) => ConnectionResult(false, "Connection test failed", ErrorText(m))
    case Received(resp) =>
      if resp.status == 200 then
        match resp.json
        case BodyJson(data) => ConnectionResult(true, "AWS Bedrock connection successful", Data(data))
        case BodyError(m) => ConnectionResult(false, "Connection test failed", ErrorText(m))
      else
        match resp.text
        case BodyText(t) => ConnectionResult(false, "Connection failed: " + Decimal(resp.status), ErrorText(t))
        case TextError(m) => ConnectionResult(false, "Connection test failed", ErrorText(m))
  }

  /** `testAwsBedrockConnection(accessKeyId, secretAccessKey, region,
      sessionToken)`: it never throws; every outcome is a result object. */
  function TestConnection(env: Env, accessKeyId: string, secretAccessKey: string,
                          region: Option<string>, token: Option<string>): (r: ConnectionResult)
    ensures var out := env.send(TestRequest(env, accessKeyId, secretAccessKey, region, token));
            && (r.success <==> out.Received? && out.response.status == 200 && out.response.json.BodyJson?)
            && (out.NetworkError? ==> r.message == "Connection test failed")
  {
    Classify(env.send(TestRequest(env, accessKeyId, secretAccessKey, region, token)))
  }

  /** The failure message of a non-200 answer carries the status: reading
      back the digits after the fixed prefix gives the status again. */
  lemma FailureMessageNamesStatus(resp: Response)
    requires resp.status != 200
    ensures var m := Classify(Received(resp)).message;
            resp.text.BodyText? ==>
              StartsWith(m, "Connection failed: ") && ParseDecimal(m[|"Connection failed: "|..]) == resp.status
  {
    var p := "Connection failed: ";
    var m := p + Decimal(resp.status);
    assert m[..|p|] == p;
    assert m[|p|..] == Decimal(resp.status);
    DecimalRoundTrip(resp.status);
  }
}

=== FILE: hex.dfy ===
/** Bytes and the lowercase hexadecimal text both signers use for digests
    (`b.toString(16).padStart(2, '0')` per byte), together with the
    two-characters-at-a-time decoding that turns such text back into bytes
    (`s.match(/.{2}/g).map(p => parseInt(p, 16))`). */
module Hex {

  type Byte = b: int | 0 <= b < 256

  /** A SHA-256 or HMAC-SHA256 output: always 32 bytes. */
  type Digest = s: seq<Byte> | |s| == 32 witness seq(32, _ => 0)

  const LowerDigits: string := "0123456789abcdef"

  predicate IsLowerHexDigit(c: char) {
    ('0' <= c <= '9') || ('a' <= c <= 'f')
  }

  predicate IsHexDigit(c: char) {
    IsLowerHexDigit(c) || ('A' <= c <= 'F')
  }

  /** Each value below 16 has one lowercase digit, which reads back as that value. */
  lemma LowerDigitValue(d: nat)
    requires d < 16
    ensures IsLowerHexDigit(LowerDigits[d]) && HexValue(LowerDigits[d]) == d
  {
  }

  /** The value of one hexadecimal digit, either case, as `parseInt` reads it. */
  function HexValue(c: char): (v: nat)
    requires IsHexDigit(c)
    ensures v < 16
  {
    if '0' <= c <= '9' then c as int - '0' as int
    else if 'a' <= c <= 'f' then c as int - 'a' as int + 10
    else c as int - 'A' as int + 10
  }

  /** `n.toString(16)` for a byte: one digit below 16, two from 16 on. */
  function ToHexString(b: Byte): string {
    if b < 16 then [LowerDigits[b]] else [LowerDigits[b / 16], LowerDigits[b % 16]]
  }

  /** `s.padStart(2, '0')`. */
  function PadStart2(s: string): string {
    if |s| >= 2 then s else seq(2 - |s|, _ => '0') + s
  }

  /** One byte as exactly two lowercase hexadecimal digits, high digit first. */
  function ByteToHex(b: Byte): (r: string)
    ensures |r| == 2 && IsLowerHexDigit(r[0]) && IsLowerHexDigit(r[1])
    ensures 16 * HexValue(r[0]) + HexValue(r[1]) == b
  {
    LowerDigitValue(b / 16);
    LowerDigitValue(b % 16);
    PadStart2(ToHexString(b))
  }

  /** Hexadecimal text of a byte sequence, two lowercase digits per byte. */
  function HexEncode(bytes: seq<Byte>): (r: string)
    ensures |r| == 2 * |bytes|
    ensures forall i :: 0 <= i < |r| ==> IsLowerHexDigit(r[i])
    decreases |bytes|
  {
    if |bytes| == 0 then "" else ByteToHex(bytes[0]) + HexEncode(bytes[1..])
  }

  /** `parseInt(a + b, 16)` for two hexadecimal digits. */
  function ParsePair(a: char, b: char): Byte
    requires IsHexDigit(a) && IsHexDigit(b)
  {
    16 * HexValue(a) + HexValue(b)
  }

  /** `s.match(/.{2}/g)` followed by `parseInt(pair, 16)` on each pair: a final
      unpaired character is dropped. */
  function DecodePairs(s: string): (r: seq<Byte>)
    requires forall i :: 0 <= i < |s| ==> IsHexDigit(s[i])
    ensures |r| == |s| / 2
    decreases |s|
  {
    if |s| < 2 then [] else [ParsePair(s[0], s[1])] + DecodePairs(s[2..])
  }

  /** `new Uint8Array(s.match(/.{2}/g).map(b => parseInt(b, 16)))`.  The
      `match` yields `null` (and the `map` throws) for text shorter than two
      characters, so such text is outside the domain. */
  function HexDecode(s: string): (r: seq<Byte>)
    requires |s| >= 2
    requires forall i :: 0 <= i < |s| ==> IsHexDigit(s[i])
    ensures |r| == |s| / 2 && |r| >= 1
  {
    DecodePairs(s)
  }

  /** Decoding undoes encoding. */
  lemma {:induction false} DecodeEncode(bytes: seq<Byte>)
    ensures DecodePairs(HexEncode(bytes)) == bytes
    decreases |bytes|
  {
    if |bytes| > 0 {
      var h := HexEncode(bytes);
      DecodeEncode(bytes[1..]);
      assert h[2..] == HexEncode(bytes[1..]);
      assert [bytes[0]] + bytes[1..] == bytes;
    }
  }

  /** Every non-empty byte sequence survives an encode/decode round trip. */
  lemma HexRoundTrip(bytes: seq<Byte>)
    requires |bytes| >= 1
    ensures HexDecode(HexEncode(bytes)) == bytes
  {
    DecodeEncode(bytes);
  }

  lemma LowerDigitIndex(c: char)
    requires IsLowerHexDigit(c)
    ensures LowerDigits[HexValue(c)] == c
  {
  }

  /** Re-encoding a byte parsed from two lowercase digits gives those digits back. */
  lemma ByteToHexOfPair(a: char, b: char)
    requires IsLowerHexDigit(a) && IsLowerHexDigit(b)
    ensures ByteToHex(ParsePair(a, b)) == [a, b]
  {
    LowerDigitIndex(a);
    LowerDigitIndex(b);
    var v := ParsePair(a, b);
    assert v / 16 == HexValue(a) && v % 16 == HexValue(b);
    if v < 16 {
      assert HexValue(a) == 0;
    }
  }

  /** Encoding undoes decoding on even-length lowercase text. */
  lemma {:induction false} EncodeDecode(s: string)
    requires |s| % 2 == 0
    requires forall i :: 0 <= i < |s| ==> IsLowerHexDigit(s[i])
    ensures forall i :: 0 <= i < |s| ==> IsHexDigit(s[i])
    ensures HexEncode(DecodePairs(s)) == s
    decreases |s|
  {
    if |s| >= 2 {
      var d := DecodePairs(s);
      EncodeDecode(s[2..]);
      ByteToHexOfPair(s[0], s[1]);
      assert d[1..] == DecodePairs(s[2..]);
      assert s == [s[0], s[1]] + s[2..];
    }
  }
}

=== FILE: http.dfy ===
/** The Bedrock invocation both callers share: the endpoint, the request body
    and the shapes of what `fetch` hands back. */
module Http {
  import opened Common

  const ModelVendor: string := "anthropic"

  const ModelName: string := "claude-3-haiku-20240307-v1:0"

  /** The one model both files invoke,
      `/model/anthropic.claude-3-haiku-20240307-v1:0/invoke`; the path keeps
      the `:` un-encoded. */
  const ModelPath: string := "/model/" + ModelVendor + "." + ModelName + "/invoke"

  /** The fixed model path is a single line. */
  lemma ModelPathHasNoNewline()
    ensures '\n' !in ModelPath
  {
    var a, b, c := "claude-3-haiku", "-20240307", "-v1:0";
    assert '\n' !in a && '\n' !in b && '\n' !in c;
    assert ModelName == a + b + c;
    assert '\n' !in "/model/" && '\n' !in "/invoke" && '\n' !in ModelVendor;
  }

  const AnthropicVersion: string := "bedrock-2023-05-31"

  function Host(region: string): string {
    "bedrock-runtime." + region + ".amazonaws.com"
  }

  /** `https://bedrock-runtime.${region}.amazonaws.com/model/.../invoke`. */
  function InvokeUrl(region: string): string {
    "https://" + Host(region) + ModelPath
  }

  /** The four header names the signers send are pairwise distinct. */
  lemma HeaderNamesDistinct()
    ensures "Authorization" != "Content-Type" && "Authorization" != "X-Amz-Date"
    ensures "Authorization" != "X-Amz-Security-Token" && "Content-Type" != "X-Amz-Date"
    ensures "Content-Type" != "X-Amz-Security-Token" && "X-Amz-Date" != "X-Amz-Security-Token"
  {
    assert "Authorization"[0] == 'A' && "Content-Type"[0] == 'C' && "X-Amz-Date"[0] == 'X';
    assert "X-Amz-Security-Token"[0] == 'X' && "X-Amz-Date"[6] == 'D' && "X-Amz-Security-Token"[6] == 'S';
  }

  /** The three headers both signers send. */
  function AmzHeaders(authorization: string, date: string): (h: map<string, string>)
    ensures h.Keys == {"Authorization", "Content-Type", "X-Amz-Date"}
    ensures h["Authorization"] == authorization
    ensures h["Content-Type"] == "application/json"
    ensures h["X-Amz-Date"] == date
  {
    HeaderNamesDistinct();
    map["Authorization" := authorization, "Content-Type" := "application/json", "X-Amz-Date" := date]
  }

  datatype Message = Message(role: string, content: string)

  /** The JSON request body before `JSON.stringify`. */
  datatype Payload = Payload(anthropicVersion: string, maxTokens: nat, messages: seq<Message>)

  datatype HttpRequest = HttpRequest(url: string, verb: string, headers: map<string, string>, body: string)

  /** One element of the response's `content` array: an object whose `text`
      is a string, or anything else (no `text`, `null`, a non-object). */
  datatype ContentBlock = TextBlock(text: string) | OtherBlock

  /** The parsed response body; `content` is `None` when it is missing or is
      not an array. */
  datatype ResponseJson = ResponseJson(content: Option<seq<ContentBlock>>)

  /** What awaiting `response.json()` gives: the parsed body, or the
      rejection's message when the body is not JSON. */
  datatype JsonBody = BodyJson(value: ResponseJson) | BodyError(message: string)

  /** What awaiting `response.text()` gives: the body, or the rejection's
      message when the body cannot be read. */
  datatype TextBody = BodyText(text: string) | TextError(message: string)

  /** A response: its status, its body read by `response.json()` and its body
      read by `response.text()`. */
  datatype Response = Response(status: nat, json: JsonBody, text: TextBody)

  /** What awaiting `fetch` gives: a rejection (network failure) or a response. */
  datatype FetchOutcome = NetworkError(message: string) | Received(response: Response)
}

=== FILE: js_text.dfy ===
/** The parts of JavaScript's `String` semantics that the add-on relies on:
    `trim`, the `\s` and `.` regular-expression classes, `split`, `join`,
    `startsWith`, `indexOf`, `replace` with a string pattern, and the decimal
    rendering of a number inside a template literal. */
module JsText {
  import opened Common

  /** JavaScript's LineTerminator code points; the regular-expression `.`
      matches every character except these. */
  predicate IsLineTerminator(c: char) {
    c == '\n' || c == '\r' || c == '\U{2028}' || c == '\U{2029}'
  }

  /** JavaScript's WhiteSpace and LineTerminator code points: exactly the set
      that `\s` matches and that `String.prototype.trim` removes. */
  predicate IsWhitespace(c: char) {
    || c == '\t' || c == '\U{000B}' || c == '\U{000C}' || c == ' '
    || c == '\U{00A0}' || c == '\U{FEFF}' || c == '\U{1680}'
    || ('\U{2000}' <= c <= '\U{200A}')
    || c == '\U{202F}' || c == '\U{205F}' || c == '\U{3000}'
    || IsLineTerminator(c)
  }

  /** The regular-expression class `\d`: ASCII digits only. */
  predicate IsDigit(c: char) {
    '0' <= c <= '9'
  }

  /** Length of the longest prefix of `s` whose characters all satisfy `p`. */
  function PrefixLength(s: string, p: char -> bool): (k: nat)
    ensures k <= |s|
    ensures forall j :: 0 <= j < k ==> p(s[j])
    ensures k < |s| ==> !p(s[k])
  {
    if |s| == 0 || !p(s[0]) then 0 else 1 + PrefixLength(s[1..], p)
  }

  /** Start of the longest suffix of `s` whose characters all satisfy `p`. */
  function SuffixStart(s: string, p: char -> bool): (k: nat)
    ensures k <= |s|
    ensures forall j :: k <= j < |s| ==> p(s[j])
    ensures 0 < k ==> !p(s[k - 1])
  {
    if |s| == 0 || !p(s[|s| - 1]) then |s| else SuffixStart(s[..|s| - 1], p)
  }

  function TrimStart(s: string): string {
    s[PrefixLength(s, IsWhitespace)..]
  }

  function TrimEnd(s: string): string {
    s[..SuffixStart(s, IsWhitespace)]
  }

  /** `String.prototype.trim`. */
  function Trim(s: string): (r: string)
    ensures |r| <= |s|
    ensures r == [] || (!IsWhitespace(r[0]) && !IsWhitespace(r[|r| - 1]))
    ensures exists k, m :: 0 <= k <= m <= |s| && r == s[k..m] && AllWhitespace(s[..k]) && AllWhitespace(s[m..])
  {
    var k := PrefixLength(s, IsWhitespace);
    var t := TrimStart(s);
    var m := k + SuffixStart(t, IsWhitespace);
    var r := TrimEnd(t);
    assert r != [] ==> r[0] == t[0];
    assert r == s[k..m];
    assert s[m..] == t[m - k..];
    r
  }

  /** Every character is whitespace. */
  predicate AllWhitespace(s: string) {
    forall i :: 0 <= i < |s| ==> IsWhitespace(s[i])
  }

  /** A string is trimmed to nothing exactly when it is all whitespace. */
  lemma TrimEmptyIff(s: string)
    ensures Trim(s) == [] <==> forall i :: 0 <= i < |s| ==> IsWhitespace(s[i])
  {
    var k := PrefixLength(s, IsWhitespace);
    var t := s[k..];
    var m := SuffixStart(t, IsWhitespace);
    if Trim(s) == [] {
      assert m == 0;
      assert k == |s|;
    }
  }

  /** Trimming a string that neither starts nor ends with whitespace leaves it alone. */
  lemma TrimClean(s: string)
    requires s == [] || (!IsWhitespace(s[0]) && !IsWhitespace(s[|s| - 1]))
    ensures Trim(s) == s
  {
    if s != [] {
      assert PrefixLength(s, IsWhitespace) == 0;
      assert TrimStart(s) == s;
      assert SuffixStart(s, IsWhitespace) == |s|;
    }
  }

  /** Trimming a string whose first character is not whitespace keeps that first character. */
  lemma TrimKeepsFirst(s: string)
    requires s != [] && !IsWhitespace(s[0])
    ensures Trim(s) != [] && Trim(s)[0] == s[0]
  {
    assert PrefixLength(s, IsWhitespace) == 0;
    assert TrimStart(s) == s;
    assert SuffixStart(s, IsWhitespace) > 0;
  }

  /** `toLowerCase` on one character, for the ASCII letters. */
  function LowerChar(c: char): char {
    if 'A' <= c <= 'Z' then (c as int + 32) as char else c
  }

  /** `String.prototype.toLowerCase`, restricted to the ASCII letters. */
  function ToLower(s: string): (r: string)
    ensures |r| == |s|
  {
    seq(|s|, i requires 0 <= i < |s| => LowerChar(s[i]))
  }

  /** Lower-casing twice is lower-casing once. */
  lemma ToLowerIdempotent(s: string)
    ensures ToLower(ToLower(s)) == ToLower(s)
  {
    var l := ToLower(s);
    assert forall i :: 0 <= i < |s| ==> LowerChar(l[i]) == l[i];
  }

  /** JavaScript truthiness of an optional string: present and non-empty. */
  predicate Truthy(o: Option<string>) {
    o.Some? && o.value != ""
  }

  /** `s.startsWith(p)`. */
  predicate StartsWith(s: string, p: string) {
    |p| <= |s| && s[..|p|] == p
  }

  /** Number of occurrences of `c` in `s`. */
  function Count(s: string, c: char): nat {
    if |s| == 0 then 0 else (if s[0] == c then 1 else 0) + Count(s[1..], c)
  }

  /** `s.split(c)` for a one-character separator: the maximal runs between
      separators, so one more part than there are separators, none holding `c`. */
  function Split(s: string, c: char): (parts: seq<string>)
    ensures |parts| == Count(s, c) + 1
    ensures forall i :: 0 <= i < |parts| ==> c !in parts[i]
    decreases |s|
  {
    if |s| == 0 then [""]
    else
      var rest := Split(s[1..], c);
      if s[0] == c then [""] + rest
      else [[s[0]] + rest[0]] + rest[1..]
  }

  /** `parts.join(sep)`. */
  function Join(parts: seq<string>, sep: string): string
    decreases |parts|
  {
    if |parts| == 0 then ""
    else if |parts| == 1 then parts[0]
    else parts[0] + sep + Join(parts[1..], sep)
  }

  /** `Array.prototype.filter`: the elements satisfying `p`, in order. */
  function Filter<T>(s: seq<T>, p: T -> bool): (r: seq<T>)
    ensures |r| <= |s|
    ensures forall i :: 0 <= i < |r| ==> p(r[i]) && r[i] in s
  {
    if |s| == 0 then []
    else if p(s[0]) then [s[0]] + Filter(s[1..], p)
    else Filter(s[1..], p)
  }

  lemma FilterCons<T>(x: T, rest: seq<T>, p: T -> bool)
    ensures Filter([x] + rest, p) == (if p(x) then [x] else []) + Filter(rest, p)
  {
    assert ([x] + rest)[1..] == rest;
  }

  /** Filtering keeps the order: filtering a concatenation gives the kept
      elements of the first part followed by those of the second. */
  lemma {:induction false} FilterAppend<T>(a: seq<T>, b: seq<T>, p: T -> bool)
    ensures Filter(a + b, p) == Filter(a, p) + Filter(b, p)
    decreases |a|
  {
    if |a| == 0 {
      assert a + b == b;
    } else {
      var x, t := a[0], a[1..];
      FilterAppend(t, b, p);
      assert a + b == [x] + (t + b);
      assert a == [x] + t;
      FilterCons(x, t + b, p);
      FilterCons(x, t, p);
    }
  }

  /** An element is kept exactly when it occurs and satisfies `p`. */
  lemma {:induction false} FilterMembership<T>(s: seq<T>, p: T -> bool, x: T)
    ensures x in Filter(s, p) <==> x in s && p(x)
    decreases |s|
  {
    if |s| > 0 {
      FilterMembership(s[1..], p, x);
      assert s == [s[0]] + s[1..];
    }
  }

  lemma {:induction false} SplitNoSeparator(w: string, c: char)
    requires c !in w
    ensures Split(w, c) == [w]
    decreases |w|
  {
    if |w| > 0 {
      SplitNoSeparator(w[1..], c);
      assert [w[0]] + w[1..] == w;
    }
  }

  lemma {:induction false} SplitAfterWord(w: string, c: char, t: string)
    requires c !in w
    ensures Split(w + [c] + t, c) == [w] + Split(t, c)
    decreases |w|
  {
    if |w| == 0 {
      assert w + [c] + t == [c] + t;
      assert ([c] + t)[1..] == t;
    } else {
      SplitAfterWord(w[1..], c, t);
      assert (w + [c] + t)[1..] == w[1..] + [c] + t;
      assert [w[0]] + w[1..] == w;
    }
  }

  /** Splitting undoes joining, when no part holds the separator. */
  lemma {:induction false} SplitJoin(parts: seq<string>, c: char)
    requires |parts| >= 1
    requires forall i :: 0 <= i < |parts| ==> c !in parts[i]
    ensures Split(Join(parts, [c]), c) == parts
    decreases |parts|
  {
    if |parts| == 1 {
      SplitNoSeparator(parts[0], c);
    } else {
      SplitJoin(parts[1..], c);
      SplitAfterWord(parts[0], c, Join(parts[1..], [c]));
      assert [parts[0]] + parts[1..] == parts;
    }
  }

  /** Joining a part in front of at least one other part puts a separator between them. */
  lemma JoinCons(a: string, rest: seq<string>, sep: string)
    requires |rest| >= 1
    ensures Join([a] + rest, sep) == a + sep + Join(rest, sep)
  {
    assert ([a] + rest)[1..] == rest;
  }

  /** Joining the parts from index `k` on puts part `k` first. */
  lemma JoinLines(parts: seq<string>, k: nat)
    requires k < |parts|
    ensures Join(parts[k..], "\n") == if k + 1 == |parts| then parts[k] else parts[k] + "\n" + Join(parts[k + 1..], "\n")
  {
    if k + 1 < |parts| {
      assert parts[k..][1..] == parts[k + 1..];
    }
  }

  /** Prepending a character to the first part prepends it to the joined string. */
  lemma JoinExtendFirst(a: char, parts: seq<string>, sep: string)
    requires |parts| >= 1
    ensures Join([[a] + parts[0]] + parts[1..], sep) == [a] + Join(parts, sep)
  {
    var q := [[a] + parts[0]] + parts[1..];
    if |parts| > 1 {
      assert q[1..] == parts[1..];
    }
  }

  /** Joining undoes splitting: `split` loses no character. */
  lemma {:induction false} JoinSplit(s: string, c: char)
    ensures Join(Split(s, c), [c]) == s
    decreases |s|
  {
    if |s| > 0 {
      JoinSplit(s[1..], c);
      var rest := Split(s[1..], c);
      if s[0] == c {
        assert ([""] + rest)[1..] == rest;
      } else {
        JoinExtendFirst(s[0], rest, [c]);
      }
      assert s == [s[0]] + s[1..];
    }
  }

  function DigitChar(d: nat): (c: char)
    requires d < 10
    ensures IsDigit(c)
  {
    "0123456789"[d]
  }

  function DigitValue(c: char): (d: nat)
    requires IsDigit(c)
    ensures d < 10
  {
    c as int - '0' as int
  }

  /** The decimal rendering of a natural number inside a template literal. */
  function Decimal(n: nat): (r: string)
    ensures |r| >= 1
    ensures forall i :: 0 <= i < |r| ==> IsDigit(r[i])
    decreases n
  {
    if n < 10 then [DigitChar(n)] else Decimal(n / 10) + [DigitChar(n % 10)]
  }

  /** The value of a string of decimal digits. */
  function ParseDecimal(s: string): nat
    requires forall i :: 0 <= i < |s| ==> IsDigit(s[i])
    decreases |s|
  {
    if |s| == 0 then 0 else 10 * ParseDecimal(s[..|s| - 1]) + DigitValue(s[|s| - 1])
  }

  /** The decimal rendering loses nothing: reading it back gives the number. */
  lemma {:induction false} DecimalRoundTrip(n: nat)
    ensures ParseDecimal(Decimal(n)) == n
    decreases n
  {
    var r := Decimal(n);
    if n < 10 {
      assert r[..0] == [];
      assert DigitValue(DigitChar(n)) == n;
    } else {
      DecimalRoundTrip(n / 10);
      assert r[..|r| - 1] == Decimal(n / 10);
      assert DigitValue(DigitChar(n % 10)) == n % 10;
    }
  }

  /** `pat` occurs in `s` starting at index `i`. */
  predicate OccursAt(s: string, pat: string, i: nat) {
    i + |pat| <= |s| && s[i..i + |pat|] == pat
  }

  function IndexOfFrom(s: string, pat: string, from: nat): (r: Option<nat>)
    requires from <= |s|
    ensures r.Some? ==> from <= r.value && OccursAt(s, pat, r.value)
    ensures r.Some? ==> forall j :: from <= j < r.value ==> !OccursAt(s, pat, j)
    ensures r.None? ==> forall j :: from <= j <= |s| ==> !OccursAt(s, pat, j)
    decreases |s| - from
  {
    if from + |pat| > |s| then None
    else if OccursAt(s, pat, from) then Some(from)
    else IndexOfFrom(s, pat, from + 1)
  }

  /** `s.indexOf(pat)`: the first position where `pat` occurs, if any. */
  function IndexOf(s: string, pat: string): (r: Option<nat>)
    ensures r.Some? ==> OccursAt(s, pat, r.value)
    ensures r.Some? ==> forall j :: 0 <= j < r.value ==> !OccursAt(s, pat, j)
    ensures r.None? ==> forall j :: 0 <= j <= |s| ==> !OccursAt(s, pat, j)
  {
    IndexOfFrom(s, pat, 0)
  }

  /** Replaces the first occurrence of `pat` in `s` by `rep`, inserted verbatim. */
  function ReplaceFirstLiteral(s: string, pat: string, rep: string): (r: string)
    ensures IndexOf(s, pat).None? ==> r == s
    ensures IndexOf(s, pat).Some? ==>
              var i := IndexOf(s, pat).value;
              OccursAt(r, rep, i) && r[..i] == s[..i] && r[i + |rep|..] == s[i + |pat|..]
  {
    match IndexOf(s, pat)
    case None => s
    case Some(i) =>
      var r := s[..i] + rep + s[i + |pat|..];
      assert r[i..i + |rep|] == rep;
      r
  }

  /** The replacement text `String.prototype.replace` builds from `rep` when the
      pattern is a string (so there are no capture groups): `$$` stands for `$`,
      `$&` for the matched text, `` $` `` for the text before the match and `$'`
      for the text after it; every other `$` is literal. */
  function Substitution(rep: string, matched: string, before: string, after: string): string
    decreases |rep|
  {
    if |rep| == 0 then ""
    else if rep[0] == '$' && |rep| >= 2 && rep[1] == '$' then "$" + Substitution(rep[2..], matched, before, after)
    else if rep[0] == '$' && |rep| >= 2 && rep[1] == '&' then matched + Substitution(rep[2..], matched, before, after)
    else if rep[0] == '$' && |rep| >= 2 && rep[1] == '`' then before + Substitution(rep[2..], matched, before, after)
    else if rep[0] == '$' && |rep| >= 2 && rep[1] == '\'' then after + Substitution(rep[2..], matched, before, after)
    else [rep[0]] + Substitution(rep[1..], matched, before, after)
  }

  /** `s.replace(pat, rep)` as JavaScript evaluates it for a string pattern:
      the first occurrence only, with `rep` expanded by `Substitution`. */
  function ReplaceFirstJs(s: string, pat: string, rep: string): (r: string)
    ensures IndexOf(s, pat).None? ==> r == s
    ensures IndexOf(s, pat).Some? ==>
              var i := IndexOf(s, pat).value;
              var x := Substitution(rep, pat, s[..i], s[i + |pat|..]);
              OccursAt(r, x, i) && r[..i] == s[..i] && r[i + |x|..] == s[i + |pat|..]
  {
    match IndexOf(s, pat)
    case None => s
    case Some(i) =>
      var x := Substitution(rep, pat, s[..i], s[i + |pat|..]);
      var r := s[..i] + x + s[i + |pat|..];
      assert r[i..i + |x|] == x;
      r
  }

  /** Without a `$` the expansion is the identity. */
  lemma {:induction false} SubstitutionWithoutDollar(rep: string, matched: string, before: string, after: string)
    requires '$' !in rep
    ensures Substitution(rep, matched, before, after) == rep
    decreases |rep|
  {
    if |rep| > 0 {
      assert rep[0] != '$';
      assert '$' !in rep[1..] by { assert forall k :: 0 <= k < |rep[1..]| ==> rep[1..][k] == rep[k + 1]; }
      SubstitutionWithoutDollar(rep[1..], matched, before, after);
      assert [rep[0]] + rep[1..] == rep;
    }
  }

  /** The two replacements agree on every replacement text without a `$`. */
  lemma ReplaceAgreesWithoutDollar(s: string, pat: string, rep: string)
    requires '$' !in rep
    ensures ReplaceFirstJs(s, pat, rep) == ReplaceFirstLiteral(s, pat, rep)
  {
    match IndexOf(s, pat)
    case None =>
    case Some(i) =>
      SubstitutionWithoutDollar(rep, pat, s[..i], s[i + |pat|..]);
      assert ReplaceFirstJs(s, pat, rep) == s[..i] + rep + s[i + |pat|..];
      assert ReplaceFirstLiteral(s, pat, rep) == s[..i] + rep + s[i + |pat|..];
  }
}

=== FILE: resolver.dfy ===
/** The resolver functions of src/resolver.js that the issue panel and the
    settings page invoke: reading the list while generation runs, editing
    it, and testing the stored AWS credentials.  Storage failures, the
    random ids and the connection tester are inputs. */
module Resolver {
  import opened Common
  import opened JsText
  import opened Storage
  import BedrockClient
  import opened ConnectionTest

  /** `getAll(context)`: the stored list, or `[]` when there is none or the
      read fails. */
  function GetAll(s: Store, issue: string, readFails: bool): (r: seq<Record>)
    ensures !readFails && StorageGet(s, issue).Some? ==> r == StorageGet(s, issue).value
    ensures readFails || StorageGet(s, issue).None? ==> r == []
  {
    if readFails then [] else StorageGet(s, issue).GetOr([])
  }

  /** The store as one status check sees it, and whether its two reads
      (status, then list) fail. */
  datatype Snapshot = Snapshot(store: Store, statusReadFails: bool, listReadFails: bool)

  datatype PollAnswer = Cases(records: seq<Record>) | PollFailed

  /** What the poller answered, and how many status reads and waits it made. */
  datatype PollResult = PollResult(answer: PollAnswer, statusReads: nat, waits: nat)

  /** The status check of one attempt finds generation still running. */
  predicate StillLoading(snap: Snapshot, issue: string) {
    !snap.statusReadFails && GetGenStatus(snap.store, issue) == Some("loading")
  }

  /** `getGenrStatus(context, attempt)`; `world(k)` is the store as attempt
      `k` reads it.  A status other than `loading` (or a failed status read)
      returns the list; `loading` past attempt 3 gives `failed`; otherwise it
      waits and tries again. */
  function GetGenrStatus(world: int -> Snapshot, issue: string, attempt: int): (r: PollResult)
    ensures r.statusReads == r.waits + 1
    ensures r.statusReads <= if attempt <= 3 then 5 - attempt else 1
    ensures !StillLoading(world(attempt), issue) ==>
              r == PollResult(Cases(GetAll(world(attempt).store, issue, world(attempt).listReadFails)), 1, 0)
    decreases if attempt <= 3 then 4 - attempt else 0
  {
    var snap := world(attempt);
    if !StillLoading(snap, issue) then PollResult(Cases(GetAll(snap.store, issue, snap.listReadFails)), 1, 0)
    else if attempt > 3 then PollResult(PollFailed, 1, 0)
    else
      var next := GetGenrStatus(world, issue, attempt + 1);
      PollResult(next.answer, next.statusReads + 1, next.waits + 1)
  }

  /** The last attempt the poller can reach from `attempt`. */
  function LastAttempt(attempt: int): int {
    if attempt <= 4 then 4 else attempt
  }

  /** The poller answers `failed` exactly when every attempt up to the
      last one saw `loading`. */
  lemma {:induction false} PollFailsIffAlwaysLoading(world: int -> Snapshot, issue: string, attempt: int)
    ensures GetGenrStatus(world, issue, attempt).answer == PollFailed
        <==> forall k :: attempt <= k <= LastAttempt(attempt) ==> StillLoading(world(k), issue)
    decreases if attempt <= 3 then 4 - attempt else 0
  {
    if StillLoading(world(attempt), issue) && attempt <= 3 {
      PollFailsIffAlwaysLoading(world, issue, attempt + 1);
      assert LastAttempt(attempt + 1) == LastAttempt(attempt);
    }
  }

  /** From the first attempt, at most four status reads and three waits. */
  lemma PollBounded(world: int -> Snapshot, issue: string)
    ensures var r := GetGenrStatus(world, issue, 1); r.statusReads <= 4 && r.waits <= 3
  {
  }

  /** The `get-all` resolver: the poller from attempt 1, or `[]` when the
      settings read of `verifyStoredValues` fails. */
  function GetAllResolver(world: int -> Snapshot, issue: string, verifyFails: bool): (r: PollAnswer)
    ensures verifyFails ==> r == Cases([])
    ensures !verifyFails ==> r == GetGenrStatus(world, issue, 1).answer
  {
    if verifyFails then Cases([]) else GetGenrStatus(world, issue, 1).answer
  }

  /** A number in a template literal. */
  function IntText(n: int): string {
    if n < 0 then "-" + Decimal(-n) else Decimal(n)
  }

  /** What `create` does: stores a record, or throws (past the limit, or
      with the error of a rejected limit read, which the catch rethrows). */
  datatype CreateOutcome = Created(store: Store, record: Record) | LimitReached(message: string) | LimitReadRejected(message: string)

  /** The `create` resolver: refuses once the list holds the project's limit
      (or 5); otherwise appends `{ id, ...payload }`, in which an `id` of the
      payload overrides the fresh one.  `limitRead` is the error of a
      rejected `getTestCaseLimit` read, `None` when it resolves. */
  function Create(s: Store, issue: string, project: string, payload: Record, readFails: bool,
                  limitRead: Option<string>, randomText: string): (r: CreateOutcome)
    ensures limitRead.Some? ==> r == LimitReadRejected(limitRead.value)
    ensures var records := GetAll(s, issue, readFails);
            r.LimitReached? <==> limitRead.None? && |records| >= GetTestCaseLimit(s, project)
    ensures r.LimitReached? ==> r.message == "Maximum test case limit of " + IntText(GetTestCaseLimit(s, project)) + " reached"
    ensures r.Created? ==>
              limitRead.None? &&
              var records := GetAll(s, issue, readFails);
              && StorageGet(r.store, issue) == Some(records + [r.record])
              && (forall f :: f in payload ==> f in r.record && r.record[f] == payload[f])
              && r.record.Keys == payload.Keys + {"id"}
              && ("id" !in payload ==> r.record["id"] == BedrockClient.UniqueId(randomText) && r.record["id"][0] == '_')
              && (forall k :: k in s && k != IssueKey(issue, TestGenList) ==> k in r.store && r.store[k] == s[k])
  {
    var records := GetAll(s, issue, readFails);
    if limitRead.Some? then LimitReadRejected(limitRead.value)
    else
      var limit := GetTestCaseLimit(s, project);
      if |records| >= limit then LimitReached("Maximum test case limit of " + IntText(limit) + " reached")
      else
        var record := map["id" := BedrockClient.UniqueId(randomText)] + payload;
        Created(StorageSet(s, issue, records + [record]), record)
  }

  /** A record's `id`, `undefined` when it has none. */
  function IdOf(r: Record): Option<string> {
    if "id" in r then Some(r["id"]) else None
  }

  /** `records.map(item => item.id === payload.id ? payload : item)`. */
  function Replace(records: seq<Record>, payload: Record): (r: seq<Record>)
    ensures |r| == |records|
    ensures forall i :: 0 <= i < |r| ==> r[i] == if IdOf(records[i]) == IdOf(payload) then payload else records[i]
  {
    seq(|records|, i requires 0 <= i < |records| => if IdOf(records[i]) == IdOf(payload) then payload else records[i])
  }

  /** The `update` resolver: stores the replaced list, returns the payload. */
  function Update(s: Store, issue: string, payload: Record, readFails: bool): (r: (Store, Record))
    ensures r.1 == payload
    ensures StorageGet(r.0, issue) == Some(Replace(GetAll(s, issue, readFails), payload))
    ensures forall k :: k in s && k != IssueKey(issue, TestGenList) ==> k in r.0 && r.0[k] == s[k]
  {
    (StorageSet(s, issue, Replace(GetAll(s, issue, readFails), payload)), payload)
  }

  /** `records.filter(item => item.id !== payload.id)`. */
  function Without(records: seq<Record>, id: Option<string>): (r: seq<Record>)
    ensures |r| <= |records|
    ensures forall i :: 0 <= i < |r| ==> IdOf(r[i]) != id
  {
    if |records| == 0 then []
    else if IdOf(records[0]) != id then [records[0]] + Without(records[1..], id)
    else Without(records[1..], id)
  }

  /** The `delete` resolver: stores the list without the payload's id. */
  function Delete(s: Store, issue: string, payload: Record, readFails: bool): (r: (Store, Record))
    ensures r.1 == payload
    ensures StorageGet(r.0, issue) == Some(Without(GetAll(s, issue, readFails), IdOf(payload)))
    ensures forall k :: k in s && k != IssueKey(issue, TestGenList) ==> k in r.0 && r.0[k] == s[k]
  {
    (StorageSet(s, issue, Without(GetAll(s, issue, readFails), IdOf(payload))), payload)
  }

  /** The `delete-all` resolver. */
  function DeleteAll(s: Store, issue: string): (r: Store)
    ensures StorageGet(r, issue) == Some([])
    ensures forall k :: k in s && k != IssueKey(issue, TestGenList) ==> k in r && r[k] == s[k]
  {
    StorageSet(s, issue, [])
  }

  /** The `get-status` resolver: the stored list (or `[]`), and `undefined`
      (here `None`) when the read fails and the catch returns nothing. */
  function GetStatus(s: Store, issue: string, readFails: bool): (r: Option<seq<Record>>)
    ensures r.None? <==> readFails
    ensures r.Some? ==> r.value == GetAll(s, issue, false)
  {
    if readFails then None else Some(StorageGet(s, issue).GetOr([]))
  }

  /** Reading after `create`: the list is the one `create` read, with the
      new record last. */
  lemma CreateThenGetAll(s: Store, issue: string, project: string, payload: Record, readFails: bool,
                          limitRead: Option<string>, randomText: string)
    requires Create(s, issue, project, payload, readFails, limitRead, randomText).Created?
    ensures var c := Create(s, issue, project, payload, readFails, limitRead, randomText);
            && GetAll(c.store, issue, false) == GetAll(s, issue, readFails) + [c.record]
            && GetStatus(c.store, issue, false) == Some(GetAll(s, issue, readFails) + [c.record])
  {
  }

  /** Deleting a record whose id no record of the list has keeps the list. */
  lemma {:induction false} WithoutAbsent(records: seq<Record>, id: Option<string>)
    requires forall i :: 0 <= i < |records| ==> IdOf(records[i]) != id
    ensures Without(records, id) == records
    decreases |records|
  {
    if |records| > 0 {
      WithoutAbsent(records[1..], id);
      assert records == [records[0]] + records[1..];
    }
  }

  /** Deleting the record `create` just added, when its fresh id is new to
      the list, gives back the list `create` started from. */
  lemma CreateThenDeleteRestores(s: Store, issue: string, project: string, payload: Record, readFails: bool,
                                  limitRead: Option<string>, randomText: string)
    requires "id" !in payload
    requires Create(s, issue, project, payload, readFails, limitRead, randomText).Created?
    requires var records := GetAll(s, issue, readFails);
             forall i :: 0 <= i < |records| ==> IdOf(records[i]) != Some(BedrockClient.UniqueId(randomText))
    ensures var c := Create(s, issue, project, payload, readFails, limitRead, randomText);
            GetAll(Delete(c.store, issue, c.record, false).0, issue, false) == GetAll(s, issue, readFails)
  {
    var c := Create(s, issue, project, payload, readFails, limitRead, randomText);
    var records := GetAll(s, issue, readFails);
    var id := IdOf(c.record);
    assert id == Some(BedrockClient.UniqueId(randomText));
    WithoutAppend(records, [c.record], id);
    WithoutAbsent(records, id);
    assert Without([c.record], id) == [];
  }

  /** Deleting the same id twice is deleting it once. */
  lemma {:induction false} DeleteIdempotent(s: Store, issue: string, payload: Record, readFails: bool)
    ensures var once := Delete(s, issue, payload, readFails).0;
            GetAll(Delete(once, issue, payload, false).0, issue, false) == GetAll(once, issue, false)
  {
    var once := Delete(s, issue, payload, readFails).0;
    var kept := Without(GetAll(s, issue, readFails), IdOf(payload));
    WithoutAbsent(kept, IdOf(payload));
  }

  /** Updating with the same payload twice is updating once. */
  lemma UpdateIdempotent(s: Store, issue: string, payload: Record, readFails: bool)
    ensures var once := Update(s, issue, payload, readFails).0;
            GetAll(Update(once, issue, payload, false).0, issue, false) == GetAll(once, issue, false)
  {
  }

  /** After `delete-all` the list reads back empty. */
  lemma DeleteAllThenGetAll(s: Store, issue: string)
    ensures GetAll(DeleteAll(s, issue), issue, false) == []
    ensures GetStatus(DeleteAll(s, issue), issue, false) == Some([])
  {
  }

  /** An update whose payload has no `id` changes no record that has one:
      on a list where every record has an id, it is the identity. */
  lemma UpdateWithoutIdKeepsList(records: seq<Record>, payload: Record)
    requires "id" !in payload
    requires forall i :: 0 <= i < |records| ==> "id" in records[i]
    ensures Replace(records, payload) == records
  {
  }

  /** Deleting keeps exactly the records whose id differs from the payload's. */
  lemma {:induction false} WithoutMembership(records: seq<Record>, id: Option<string>, x: Record)
    ensures x in Without(records, id) <==> x in records && IdOf(x) != id
    decreases |records|
  {
    if |records| > 0 {
      WithoutMembership(records[1..], id, x);
      assert records == [records[0]] + records[1..];
    }
  }

  lemma WithoutCons(x: Record, rest: seq<Record>, id: Option<string>)
    ensures Without([x] + rest, id) == (if IdOf(x) != id then [x] else []) + Without(rest, id)
  {
    assert ([x] + rest)[1..] == rest;
  }

  /** Deleting keeps the order of the records it keeps. */
  lemma {:induction false} WithoutAppend(a: seq<Record>, b: seq<Record>, id: Option<string>)
    ensures Without(a + b, id) == Without(a, id) + Without(b, id)
    decreases |a|
  {
    if |a| == 0 {
      assert a + b == b;
    } else {
      var x, t := a[0], a[1..];
      WithoutAppend(t, b, id);
      assert a + b == [x] + (t + b);
      assert a == [x] + t;
      var h := if IdOf(x) != id then [x] else [];
      calc {
        Without(a + b, id);
        { WithoutCons(x, t + b, id); }
        h + Without(t + b, id);
        h + (Without(t, id) + Without(b, id));
        (h + Without(t, id)) + Without(b, id);
        { WithoutCons(x, t, id); }
        Without(a, id) + Without(b, id);
      }
    }
  }

  /** What the connection tester gave: a result, or an exception. */
  datatype TesterOutcome = Answered(result: ConnectionResult) | TesterThrew(message: string)

  /** `testAwsBedrockConnection(accessKeyId, secretAccessKey, region)`, the
      callee both credential resolvers use. */
  type Tester = (string, string, Option<string>) -> TesterOutcome

  /** The `test-aws-connection` resolver: refuses without both keys, and
      otherwise reports what the tester gave. */
  function TestAwsConnection(tester: Tester, accessKeyId: Option<string>, secretAccessKey: Option<string>,
                             region: Option<string>): (r: ConnectionResult)
    ensures !Truthy(accessKeyId) || !Truthy(secretAccessKey) ==>
              r == ConnectionResult(false, "AWS credentials are required", NoDetail)
    ensures Truthy(accessKeyId) && Truthy(secretAccessKey) ==>
              match tester(accessKeyId.value, secretAccessKey.value, region)
              case Answered(res) => r == res
              case TesterThrew(m) => r == ConnectionResult(false, "Test failed", ErrorText(m))
  {
    if !Truthy(accessKeyId) || !Truthy(secretAccessKey) then ConnectionResult(false, "AWS credentials are required", NoDetail)
    else match tester(accessKeyId.value, secretAccessKey.value, region)
      case Answered(res) => res
      case TesterThrew(m) => ConnectionResult(false, "Test failed", ErrorText(m))
  }

  /** Both stored keys of the project are truthy: what `hasCredentials` of
      `verifyStoredValues` reports. */
  predicate HasStoredKeys(s: Store, project: string) {
    var creds := GetAwsCredentials(s, project);
    Truthy(creds.accessKeyId) && Truthy(creds.secretAccessKey)
  }

  /** The `execute-aws-test` resolver: refuses without a project key or
      without both stored keys, and otherwise tests the stored keys in the
      stored region (or `us-east-1`).  `settingsRead` is the error of a
      rejected credentials or region read, `None` when both resolve; like a
      throwing tester it ends in `Test execution failed`. */
  function ExecuteAwsTest(tester: Tester, s: Store, project: Option<string>, settingsRead: Option<string>): (r: ConnectionResult)
    ensures !Truthy(project) ==> r == ConnectionResult(false, "No project key found", NoDetail)
    ensures Truthy(project) && settingsRead.Some? ==>
              r == ConnectionResult(false, "Test execution failed", ErrorText(settingsRead.value))
    ensures Truthy(project) && settingsRead.None? && !HasStoredKeys(s, project.value) ==>
              r == ConnectionResult(false, "No AWS credentials configured for this project", NoDetail)
    ensures Truthy(project) && settingsRead.None? && HasStoredKeys(s, project.value) ==>
              var creds := GetAwsCredentials(s, project.value);
              match tester(creds.accessKeyId.value, creds.secretAccessKey.value, Some(GetAwsRegion(s, project.value)))
              case Answered(res) => r == res
              case TesterThrew(m) => r == ConnectionResult(false, "Test execution failed", ErrorText(m))
    ensures r.success ==> Truthy(project) && settingsRead.None? && HasStoredKeys(s, project.value)
  {
    if !Truthy(project) then ConnectionResult(false, "No project key found", NoDetail)
    else if settingsRead.Some? then ConnectionResult(false, "Test execution failed", ErrorText(settingsRead.value))
    else
      var creds := GetAwsCredentials(s, project.value);
      var region := GetAwsRegion(s, project.value);
      if !Truthy(creds.accessKeyId) || !Truthy(creds.secretAccessKey) then
        ConnectionResult(false, "No AWS credentials configured for this project", NoDetail)
      else match tester(creds.accessKeyId.value, creds.secretAccessKey.value, Some(region))
        case Answered(res) => res
        case TesterThrew(m) => ConnectionResult(false, "Test execution failed", ErrorText(m))
  }

  /** Without both keys the tester is never consulted: the answer is the
      same whatever tester is plugged in. */
  lemma GuardsIgnoreTester(t1: Tester, t2: Tester, accessKeyId: Option<string>, secretAccessKey: Option<string>,
                           region: Option<string>, s: Store, project: Option<string>, settingsRead: Option<string>)
    ensures !Truthy(accessKeyId) || !Truthy(secretAccessKey) ==>
              TestAwsConnection(t1, accessKeyId, secretAccessKey, region) == TestAwsConnection(t2, accessKeyId, secretAccessKey, region)
    ensures !Truthy(project) || settingsRead.Some? || !HasStoredKeys(s, project.value) ==>
              ExecuteAwsTest(t1, s, project, settingsRead) == ExecuteAwsTest(t2, s, project, settingsRead)
  {
  }
}

=== FILE: sigv4.dfy ===
/** The pieces of AWS Signature Version 4 both signers build the same way:
    the hashing primitives, the credential scope, the string to sign, the
    `Authorization` header and the raw-byte signing-key chain. */
module SigV4 {
  import opened JsText
  import opened Hex

  /** The primitives the signers call, left uninterpreted: the UTF-8 encoding
      of a string (`TextEncoder`, or Node's implicit string encoding),
      SHA-256, and HMAC-SHA256 of a key and a message.  Their 32-byte output
      length is part of the `Digest` type. */
  datatype Crypto = Crypto(
    utf8: string -> seq<Byte>,
    sha256: seq<Byte> -> Digest,
    hmac: (seq<Byte>, seq<Byte>) -> Digest)

  const Algorithm: string := "AWS4-HMAC-SHA256"
  const Service: string := "bedrock"
  const Method: string := "POST"
  const ScopeTerminator: string := "aws4_request"

  /** `sha256(message)` of both files: lowercase hex of the SHA-256 of the
      message's UTF-8 bytes. */
  function HexSha256(c: Crypto, message: string): (r: string)
    ensures |r| == 64
    ensures forall i :: 0 <= i < |r| ==> IsLowerHexDigit(r[i])
  {
    HexEncode(c.sha256(c.utf8(message)))
  }

  /** `${dateStamp}/${region}/${service}/aws4_request`. */
  function CredentialScope(dateStamp: string, region: string): string {
    dateStamp + "/" + region + "/" + Service + "/" + ScopeTerminator
  }

  /** `${algorithm}\n${date}\n${credentialScope}\n${sha256(canonicalRequest)}`. */
  function StringToSign(c: Crypto, date: string, scope: string, canonicalRequest: string): string {
    Algorithm + "\n" + date + "\n" + scope + "\n" + HexSha256(c, canonicalRequest)
  }

  /** Everything of the `Authorization` header before the signature. */
  function AuthorizationPrefix(accessKeyId: string, scope: string, signedHeaders: string): string {
    Algorithm + " Credential=" + accessKeyId + "/" + scope + ", SignedHeaders=" + signedHeaders + ", Signature="
  }

  /** `${algorithm} Credential=${accessKeyId}/${credentialScope}, SignedHeaders=${signedHeaders}, Signature=${signature}`. */
  function Authorization(accessKeyId: string, scope: string, signedHeaders: string, signature: string): (r: string)
    ensures StartsWith(r, AuthorizationPrefix(accessKeyId, scope, signedHeaders))
    ensures r[|AuthorizationPrefix(accessKeyId, scope, signedHeaders)|..] == signature
  {
    var p := AuthorizationPrefix(accessKeyId, scope, signedHeaders);
    assert (p + signature)[..|p|] == p;
    p + signature
  }

  /** The signing key of test-aws-connection.js: four HMAC steps, each
      intermediate key passed on as raw bytes. */
  function RawSigningKey(c: Crypto, secret: string, dateStamp: string, region: string, service: string): Digest {
    var kDate := c.hmac(c.utf8("AWS4" + secret), c.utf8(dateStamp));
    var kRegion := c.hmac(kDate, c.utf8(region));
    var kService := c.hmac(kRegion, c.utf8(service));
    c.hmac(kService, c.utf8(ScopeTerminator))
  }

  /** The lowercase-hex HMAC of the string to sign under a signing key. */
  function Signature(c: Crypto, signingKey: seq<Byte>, stringToSign: string): (r: string)
    ensures |r| == 64
    ensures forall i :: 0 <= i < |r| ==> IsLowerHexDigit(r[i])
  {
    HexEncode(c.hmac(signingKey, c.utf8(stringToSign)))
  }

  predicate NoNewline(s: string) {
    '\n' !in s
  }

  lemma HexHasNoNewline(s: string)
    requires forall i :: 0 <= i < |s| ==> IsLowerHexDigit(s[i])
    ensures NoNewline(s)
  {
  }

  /** The string to sign reads back, line by line, as its four fields:
      algorithm, date, credential scope and the canonical request's hash. */
  lemma StringToSignFields(c: Crypto, date: string, scope: string, canonicalRequest: string)
    requires NoNewline(date) && NoNewline(scope)
    ensures Split(StringToSign(c, date, scope, canonicalRequest), '\n')
         == [Algorithm, date, scope, HexSha256(c, canonicalRequest)]
  {
    var h := HexSha256(c, canonicalRequest);
    HexHasNoNewline(h);
    var fields := [Algorithm, date, scope, h];
    JoinCons(scope, [h], "\n");
    JoinCons(date, [scope, h], "\n");
    assert [date] + [scope, h] == [date, scope, h];
    JoinCons(Algorithm, [date, scope, h], "\n");
    assert [Algorithm] + [date, scope, h] == fields;
    assert [scope] + [h] == [scope, h];
    assert Join(fields, "\n") == StringToSign(c, date, scope, canonicalRequest);
    SplitJoin(fields, '\n');
  }
}

=== FILE: storage.dfy ===
/** The Jira entity properties the add-on keeps, and the helpers of
    src/helpers/storageHelper.js that read and write them.  The property
    store is a pure map from (issue or project, property name) to a value;
    each helper takes the store and, when it writes, returns the new one. */
module Storage {
  import opened Common
  import opened JsText

  /** A test case as stored: an object of string-valued fields (`label`,
      `id`, and whatever else the model or the UI put there). */
  type Record = map<string, string>

  /** Distinct properties are stored under distinct keys, so the enumeration
      loses nothing. */
  lemma PropertyNamesDistinct(p: Property, q: Property)
    ensures PropertyName(p) == PropertyName(q) ==> p == q
  {
  }

  datatype Scope = OnIssue | OnProject

  /** `properties.onJiraIssue(entity)` or `properties.onJiraProject(entity)`,
      then the property name. */
  datatype Key = Key(scope: Scope, entity: string, property: Property)

  /** The JSON values the add-on stores: strings, the test-case limit, and
      test-case lists. */
  datatype Value = Text(text: string) | Number(number: int) | Records(records: seq<Record>)

  type Store = map<Key, Value>

  /** The properties the add-on keeps, on issues (the test-case list and
      the generation status) and on projects (the settings). */
  datatype Property =
    | TestGenList | GenStatus
    | TriggerStatus | AwsAccessKey | AwsSecretKey | AwsRegion | CaseLimit | PromptTemplate | AwsSessionToken

  /** The property key each one is stored under. */
  function PropertyName(p: Property): string {
    match p
    case TestGenList => "test_gen"
    case GenStatus => "test-genR-status"
    case TriggerStatus => "test-genR-trigger-status"
    case AwsAccessKey => "test-genR-aws-access-key"
    case AwsSecretKey => "test-genR-aws-secret-key"
    case AwsRegion => "test-genR-aws-region"
    case CaseLimit => "test-genR-limit"
    case PromptTemplate => "test-genR-prompt"
    case AwsSessionToken => "test-genR-aws-session-token"
  }

  const DefaultRegion: string := "us-east-1"
  const DefaultLimit: int := 5
  const MaxLimit: int := 15
  const DescriptionPlaceholder: string := "{description}"
  const DefaultPromptTemplate: string := "Write test cases for the following story requirements: " + DescriptionPlaceholder

  /** The properties that hold text, on projects and on issues. */
  predicate IsTextProperty(k: Key) {
    || (k.scope == OnIssue && k.property == GenStatus)
    || (k.scope == OnProject && k.property in {TriggerStatus, AwsAccessKey, AwsSecretKey,
                                              AwsRegion, PromptTemplate, AwsSessionToken})
  }

  /** Every property holds the type of value the add-on writes to it: the
      test-case list is a list, the limit a number, everything else text. */
  predicate WellTyped(s: Store) {
    forall k :: k in s ==>
      if k.scope == OnIssue && k.property == TestGenList then s[k].Records?
      else if k.scope == OnProject && k.property == CaseLimit then s[k].Number?
      else IsTextProperty(k) ==> s[k].Text?
  }

  function IssueKey(issue: string, property: Property): Key {
    Key(OnIssue, issue, property)
  }

  function ProjectKey(project: string, property: Property): Key {
    Key(OnProject, project, property)
  }

  function ReadText(s: Store, k: Key): Option<string> {
    if k in s && s[k].Text? then Some(s[k].text) else None
  }

  function ReadNumber(s: Store, k: Key): Option<int> {
    if k in s && s[k].Number? then Some(s[k].number) else None
  }

  function ReadRecords(s: Store, k: Key): Option<seq<Record>> {
    if k in s && s[k].Records? then Some(s[k].records) else None
  }

  /** One property write: the key now holds the value, and every other key
      keeps what it held. */
  function Write(s: Store, k: Key, v: Value): (r: Store)
    ensures k in r && r[k] == v
    ensures r.Keys == s.Keys + {k}
    ensures forall k' :: k' in s && k' != k ==> r[k'] == s[k']
  {
    s[k := v]
  }

  /** `storageGetHelper(issueKey)`: the issue's test-case list. */
  function StorageGet(s: Store, issue: string): Option<seq<Record>> {
    ReadRecords(s, IssueKey(issue, TestGenList))
  }

  /** `storageSetHelper(issueKey, record)`. */
  function StorageSet(s: Store, issue: string, records: seq<Record>): (r: Store)
    ensures StorageGet(r, issue) == Some(records)
    ensures forall k :: k in s && k != IssueKey(issue, TestGenList) ==> k in r && r[k] == s[k]
  {
    Write(s, IssueKey(issue, TestGenList), Records(records))
  }

  /** `getSelectedStatus(projectKey)`: the configured trigger status, with
      no default: `undefined` (here `None`) when none is stored. */
  function GetSelectedStatus(s: Store, project: string): (r: Option<string>)
    ensures ProjectKey(project, TriggerStatus) !in s ==> r == None
    ensures WellTyped(s) && ProjectKey(project, TriggerStatus) in s ==>
              r == Some(s[ProjectKey(project, TriggerStatus)].text)
  {
    ReadText(s, ProjectKey(project, TriggerStatus))
  }

  /** `getGenStatus(issueKey)`: the stored status, with no default. */
  function GetGenStatus(s: Store, issue: string): (r: Option<string>)
    ensures IssueKey(issue, GenStatus) !in s ==> r == None
    ensures WellTyped(s) && IssueKey(issue, GenStatus) in s ==> r == Some(s[IssueKey(issue, GenStatus)].text)
  {
    ReadText(s, IssueKey(issue, GenStatus))
  }

  /** `setGenStatus(issueKey, stat)`. */
  function SetGenStatus(s: Store, issue: string, status: string): (r: Store)
    ensures GetGenStatus(r, issue) == Some(status)
    ensures forall k :: k in s && k != IssueKey(issue, GenStatus) ==> k in r && r[k] == s[k]
  {
    Write(s, IssueKey(issue, GenStatus), Text(status))
  }

  datatype Credentials = Credentials(accessKeyId: Option<string>, secretAccessKey: Option<string>)

  /** `getAwsCredentials(projectKey)`: the two stored values, as stored. */
  function GetAwsCredentials(s: Store, project: string): (r: Credentials)
    ensures r.accessKeyId == ReadText(s, ProjectKey(project, AwsAccessKey))
    ensures r.secretAccessKey == ReadText(s, ProjectKey(project, AwsSecretKey))
  {
    Credentials(ReadText(s, ProjectKey(project, AwsAccessKey)), ReadText(s, ProjectKey(project, AwsSecretKey)))
  }

  /** `value || fallback` for a stored string. */
  function TextOr(o: Option<string>, fallback: string): (r: string)
    ensures Truthy(o) ==> r == o.value
    ensures !Truthy(o) ==> r == fallback
  {
    if Truthy(o) then o.value else fallback
  }

  /** `getAwsRegion(projectKey)`: the stored region unless it is falsy, in
      which case `us-east-1`; never empty. */
  function GetAwsRegion(s: Store, project: string): (r: string)
    ensures r != ""
    ensures Truthy(ReadText(s, ProjectKey(project, AwsRegion))) ==> r == ReadText(s, ProjectKey(project, AwsRegion)).value
    ensures !Truthy(ReadText(s, ProjectKey(project, AwsRegion))) ==> r == DefaultRegion
  {
    TextOr(ReadText(s, ProjectKey(project, AwsRegion)), DefaultRegion)
  }

  /** `getTestCaseLimit(projectKey)`: the stored limit unless it is falsy
      (absent or 0). */
  function GetTestCaseLimit(s: Store, project: string): (r: int)
    ensures r != 0
    ensures var n := ReadNumber(s, ProjectKey(project, CaseLimit));
            n.Some? && n.value != 0 ==> r == n.value
    ensures var n := ReadNumber(s, ProjectKey(project, CaseLimit));
            n.None? || n.value == 0 ==> r == DefaultLimit
  {
    match ReadNumber(s, ProjectKey(project, CaseLimit))
    case Some(n) => if n != 0 then n else DefaultLimit
    case None => DefaultLimit
  }

  /** `Math.min(Math.max(parseInt(limit) || 5, 1), 15)`, where `parsed` is
      what `parseInt` gave: `None` for `NaN`. */
  function ClampLimit(parsed: Option<int>): (r: int)
    ensures 1 <= r <= MaxLimit
  {
    var n := match parsed
      case Some(v) => if v != 0 then v else DefaultLimit
      case None => DefaultLimit;
    var atLeastOne := if n < 1 then 1 else n;
    if atLeastOne < MaxLimit then atLeastOne else MaxLimit
  }

  /** `setTestCaseLimit(projectKey, limit)`: stores the clamped value and
      returns it. */
  function SetTestCaseLimit(s: Store, project: string, parsed: Option<int>): (r: (Store, int))
    ensures 1 <= r.1 <= MaxLimit
    ensures GetTestCaseLimit(r.0, project) == r.1
    ensures forall k :: k in s && k != ProjectKey(project, CaseLimit) ==> k in r.0 && r.0[k] == s[k]
  {
    var v := ClampLimit(parsed);
    (Write(s, ProjectKey(project, CaseLimit), Number(v)), v)
  }

  /** `getPromptTemplate(projectKey)`: the stored template unless it is
      falsy, in which case the default template; never empty. */
  function GetPromptTemplate(s: Store, project: string): (r: string)
    ensures r != ""
    ensures Truthy(ReadText(s, ProjectKey(project, PromptTemplate))) ==> r == ReadText(s, ProjectKey(project, PromptTemplate)).value
    ensures !Truthy(ReadText(s, ProjectKey(project, PromptTemplate))) ==> r == DefaultPromptTemplate
  {
    TextOr(ReadText(s, ProjectKey(project, PromptTemplate)), DefaultPromptTemplate)
  }

  /** `getSessionToken(projectKey)`: the stored token, with no default. */
  function GetSessionToken(s: Store, project: string): (r: Option<string>)
    ensures ProjectKey(project, AwsSessionToken) !in s ==> r == None
    ensures WellTyped(s) && ProjectKey(project, AwsSessionToken) in s ==>
              r == Some(s[ProjectKey(project, AwsSessionToken)].text)
  {
    ReadText(s, ProjectKey(project, AwsSessionToken))
  }

  /** `setSessionToken(projectKey, token)`: stores the token and returns it. */
  function SetSessionToken(s: Store, project: string, token: string): (r: (Store, string))
    ensures r.1 == token && GetSessionToken(r.0, project) == Some(token)
    ensures forall k :: k in s && k != ProjectKey(project, AwsSessionToken) ==> k in r.0 && r.0[k] == s[k]
  {
    (Write(s, ProjectKey(project, AwsSessionToken), Text(token)), token)
  }

  /** The object `verifyStoredValues` assembles.  `isTemporaryCredentials`
      is `undefined` (here `None`) when there is no access key. */
  datatype Verification = Verification(
    triggerStatus: Option<string>,
    awsRegion: string,
    testCaseLimit: int,
    promptTemplate: string,
    hasCredentials: bool,
    hasSessionToken: bool,
    isTemporaryCredentials: Option<bool>,
    generationStatus: Option<string>,
    testCases: Option<seq<Record>>)

  /** `verifyStoredValues(projectKey, issueKey)`: reads every setting; the
      issue's status and list only when there is an issue key. */
  function VerifyStoredValues(s: Store, project: string, issue: Option<string>): (v: Verification)
    ensures v.hasCredentials <==> Truthy(GetAwsCredentials(s, project).accessKeyId) && Truthy(GetAwsCredentials(s, project).secretAccessKey)
    ensures v.hasSessionToken <==> Truthy(GetSessionToken(s, project))
    ensures v.isTemporaryCredentials.Some? <==> GetAwsCredentials(s, project).accessKeyId.Some?
    ensures v.isTemporaryCredentials == Some(true) <==>
              exists a :: GetAwsCredentials(s, project).accessKeyId == Some(a) && |a| >= 4 && a[..4] == "ASIA"
    ensures !Truthy(issue) ==> v.generationStatus == None && v.testCases == None
  {
    var creds := GetAwsCredentials(s, project);
    Verification(
      GetSelectedStatus(s, project),
      GetAwsRegion(s, project),
      GetTestCaseLimit(s, project),
      GetPromptTemplate(s, project),
      Truthy(creds.accessKeyId) && Truthy(creds.secretAccessKey),
      Truthy(GetSessionToken(s, project)),
      match creds.accessKeyId
        case Some(a) => Some(StartsWith(a, "ASIA"))
        case None => None,
      if Truthy(issue) then GetGenStatus(s, issue.value) else None,
      if Truthy(issue) then StorageGet(s, issue.value) else None)
  }

  /** Clamping is idempotent: a value already clamped comes back unchanged. */
  lemma ClampIdempotent(parsed: Option<int>)
    ensures ClampLimit(Some(ClampLimit(parsed))) == ClampLimit(parsed)
  {
  }

  /** The clamping cases one by one: `NaN` and 0 give the default, values
      below 1 give 1, values above 15 give 15, and the rest are kept. */
  lemma ClampCases(parsed: Option<int>)
    ensures parsed == None || parsed == Some(0) ==> ClampLimit(parsed) == DefaultLimit
    ensures parsed.Some? && parsed.value < 0 ==> ClampLimit(parsed) == 1
    ensures parsed.Some? && parsed.value > MaxLimit ==> ClampLimit(parsed) == MaxLimit
    ensures parsed.Some? && 1 <= parsed.value <= MaxLimit ==> ClampLimit(parsed) == parsed.value
  {
  }

  /** The settings a setter writes read back through their getters: the
      clamped limit, the session token, and a truthy region or template
      written under its key. */
  lemma SettingsReadBack(s: Store, project: string, parsed: Option<int>, token: string, region: string, template: string)
    requires region != "" && template != ""
    ensures GetTestCaseLimit(SetTestCaseLimit(s, project, parsed).0, project) == ClampLimit(parsed)
    ensures GetSessionToken(SetSessionToken(s, project, token).0, project) == Some(token)
    ensures GetAwsRegion(Write(s, ProjectKey(project, AwsRegion), Text(region)), project) == region
    ensures GetPromptTemplate(Write(s, ProjectKey(project, PromptTemplate), Text(template)), project) == template
  {
  }

  /** The test-case list and the generation status of an issue are
      distinct properties: writing either leaves the other as it was. */
  lemma SeparateKeys(s: Store, issue: string, other: string, records: seq<Record>, status: string)
    ensures IssueKey(issue, TestGenList) != IssueKey(other, GenStatus)
    ensures GetGenStatus(StorageSet(s, issue, records), other) == GetGenStatus(s, other)
    ensures StorageGet(SetGenStatus(s, issue, status), other) == StorageGet(s, other)
  {
  }

  /** Writing an issue's generation status leaves the project's prompt
      template as it was. */
  lemma StatusWriteKeepsTemplate(s: Store, issue: string, status: string, project: string)
    ensures GetPromptTemplate(SetGenStatus(s, issue, status), project) == GetPromptTemplate(s, project)
  {
    var k := ProjectKey(project, PromptTemplate);
    assert k != IssueKey(issue, GenStatus);
    assert ReadText(SetGenStatus(s, issue, status), k) == ReadText(s, k);
  }

  /** Every write the helpers make keeps the store well typed. */
  lemma WritesKeepTypes(s: Store, issue: string, project: string, records: seq<Record>, status: string,
                        parsed: Option<int>, token: string)
    requires WellTyped(s)
    ensures WellTyped(StorageSet(s, issue, records))
    ensures WellTyped(SetGenStatus(s, issue, status))
    ensures WellTyped(SetTestCaseLimit(s, project, parsed).0)
    ensures WellTyped(SetSessionToken(s, project, token).0)
  {
  }
}

=== FILE: testgen.dfy ===
/** `run(event, context)` of src/testgen.jsx: the issue-update trigger that
    generates test cases once an issue of type Story moves into the
    project's trigger status.  The description lookup and the model call are
    inputs; `BedrockGenerator` is the model call the add-on makes. */
module TestGen {
  import opened Common
  import opened JsText
  import opened Storage
  import BedrockClient

  /** `event.associatedStatuses`: a falsy value, a truthy value that is not
      an array, or an array, here the `name` of each element (`None` when
      the element or its name is missing). */
  datatype StatusList = NoStatuses | NotAList | StatusNames(names: seq<Option<string>>)

  /** The fields of the event `run` reads (`None` for a missing one, which
      JavaScript reads as `undefined`). */
  datatype Event = Event(issueKey: Option<string>, issueId: Option<string>, issueType: Option<string>,
                         projectKey: Option<string>, statuses: StatusList)

  /** What `getDescription(event.issue.id)` gives: a string, an array of
      strings, or a failure (a rejection, or a value without `join`). */
  datatype Description = DescText(text: string) | DescParts(parts: seq<string>) | DescFailed(message: string)

  /** Which of the storage reads `run` awaits reject, and with what
      message: the trigger status (line 72), the issue's existing list
      (line 99) and the prompt template (line 124). */
  datatype ReadFaults = ReadFaults(triggerRead: Option<string>, listRead: Option<string>, templateRead: Option<string>)

  /** Every storage read succeeds. */
  const NoFaults: ReadFaults := ReadFaults(None, None, None)

  /** `return true`, or the error rethrown from the `catch` block. */
  datatype Outcome = Returned | Threw(message: string)

  /** What one run did: its outcome, the store it leaves, the statuses it
      wrote in order, whether it asked for the description, and the prompt
      it sent to Bedrock (`None` when it made no call). */
  datatype Trace = Trace(outcome: Outcome, store: Store, statusWrites: seq<string>, descriptionRead: bool, prompt: Option<string>)

  /** What the `try` block did before it returned or threw. */
  datatype Attempt = Attempt(store: Store, statusWrites: seq<string>, descriptionRead: bool, prompt: Option<string>, error: Option<string>)

  /** What `sanitizeForLog(undefined)` throws: `JSON.stringify(undefined)`
      is `undefined`, and reading its `substring` is a TypeError, worded
      here as V8 words it. */
  const UndefinedTypeError: string := "Cannot read properties of undefined (reading 'substring')"

  /** `event?.issue?.key || 'unknown'`. */
  function IssueKeyOf(e: Event): string {
    TextOr(e.issueKey, "unknown")
  }

  /** The destination status matches the trigger status after trimming and
      lower-casing both. */
  predicate StatusMatches(toStatus: string, trigger: string) {
    ToLower(Trim(toStatus)) == ToLower(Trim(trigger))
  }

  /** The guards tested before the issue type is logged: a status
      transition with at least two statuses. */
  predicate StatusGuards(e: Event) {
    e.statuses.StatusNames? && |e.statuses.names| >= 2
  }

  /** The guards tested before the trigger status is read: the ones above,
      an issue of type Story (in any case), and a project key. */
  predicate PreGuards(e: Event) {
    && StatusGuards(e)
    && Truthy(e.issueType) && ToLower(e.issueType.value) == "story"
    && Truthy(e.projectKey)
  }

  /** The transition reaches the trigger status: a configured trigger
      status, a destination status, and a match. */
  predicate Matches(s: Store, e: Event) {
    && PreGuards(e)
    && Truthy(GetSelectedStatus(s, e.projectKey.value))
    && Truthy(e.statuses.names[1])
    && StatusMatches(e.statuses.names[1].value, GetSelectedStatus(s, e.projectKey.value).value)
  }

  /** Every guard of lines 45-93 passes and nothing logged on the way is
      `undefined`: the transition matches and its source status has a name. */
  predicate Triggered(s: Store, e: Event) {
    Matches(s, e) && e.statuses.names[0].Some?
  }

  /** A value the guard chain hands to `sanitizeForLog` is `undefined`: the
      issue type (line 56), or, once the trigger status was read, the source
      or destination status (line 76) or the trigger status (line 77). */
  predicate LogsUndefined(s: Store, e: Event, triggerRead: Option<string>) {
    || (StatusGuards(e) && e.issueType.None?)
    || (PreGuards(e) && triggerRead.None? &&
        (e.statuses.names[0].None? || e.statuses.names[1].None? || GetSelectedStatus(s, e.projectKey.value).None?))
  }

  /** How the guard chain ends: generation goes ahead, a guard returns
      `true`, or the chain throws. */
  datatype GuardOutcome = Proceed | Skip | Rejected(message: string)

  /** The guard chain of lines 45-93 in the order the source tests it; a
      failing guard returns `true` at once, having written nothing.  It
      throws the error of a rejected trigger-status read, and the TypeError
      of `sanitizeForLog` when a value it logs is `undefined`. */
  function CheckGuards(s: Store, e: Event, triggerRead: Option<string>): (g: GuardOutcome)
    ensures g == Proceed <==> triggerRead.None? && Triggered(s, e)
    ensures g.Rejected? <==> (PreGuards(e) && triggerRead.Some?) || LogsUndefined(s, e, triggerRead)
    ensures PreGuards(e) && triggerRead.Some? ==> g == Rejected(triggerRead.value)
    ensures LogsUndefined(s, e, triggerRead) ==> g == Rejected(UndefinedTypeError)
  {
    if e.statuses.NoStatuses? then Skip
    else if !e.statuses.StatusNames? || |e.statuses.names| < 2 then Skip
    else if e.issueType.None? then Rejected(UndefinedTypeError)
    else if !Truthy(e.issueType) || ToLower(e.issueType.value) != "story" then Skip
    else if !Truthy(e.projectKey) then Skip
    else if triggerRead.Some? then Rejected(triggerRead.value)
    else
      var trigger := GetSelectedStatus(s, e.projectKey.value);
      var from, to := e.statuses.names[0], e.statuses.names[1];
      if from.None? || to.None? || trigger.None? then Rejected(UndefinedTypeError)
      else if !Truthy(trigger) then Skip
      else if !Truthy(to) then Skip
      else if !StatusMatches(to.value, trigger.value) then Skip
      else Proceed
  }

  /** The guard chain as its log lines and its `!triggerStatus` test
      intend: logging never throws, so a missing issue type, status or
      trigger status is a failing guard, and only a rejected read throws. */
  function IntendedGuards(s: Store, e: Event, triggerRead: Option<string>): (g: GuardOutcome)
    ensures g == Proceed <==> triggerRead.None? && Matches(s, e)
    ensures g.Rejected? <==> PreGuards(e) && triggerRead.Some?
    ensures g.Rejected? ==> g.message == triggerRead.value
  {
    if e.statuses.NoStatuses? then Skip
    else if !e.statuses.StatusNames? || |e.statuses.names| < 2 then Skip
    else if !Truthy(e.issueType) || ToLower(e.issueType.value) != "story" then Skip
    else if !Truthy(e.projectKey) then Skip
    else if triggerRead.Some? then Rejected(triggerRead.value)
    else
      var trigger := GetSelectedStatus(s, e.projectKey.value);
      var to := e.statuses.names[1];
      if !Truthy(trigger) then Skip
      else if !Truthy(to) then Skip
      else if !StatusMatches(to.value, trigger.value) then Skip
      else Proceed
  }

  /** The two chains differ only where a logged value is `undefined`. */
  lemma GuardsAgreeWhenLogged(s: Store, e: Event, triggerRead: Option<string>)
    ensures !LogsUndefined(s, e, triggerRead) <==> CheckGuards(s, e, triggerRead) == IntendedGuards(s, e, triggerRead)
  {
  }

  /** What `callAWSBedrock(prompt, projectKey)` answers, given the store it
      reads its settings from. */
  type Generator = (Store, string, string) -> seq<Record>

  /** The model call of src/helpers/callAWSBedrock.js under the inputs
      `env` fixes. */
  function BedrockGenerator(env: BedrockClient.Env): Generator {
    (s: Store, prompt: string, project: string) => BedrockClient.CallBedrock(env, s, prompt, project)
  }

  /** The description as one string: an array is joined with `.`. */
  function DescriptionText(d: Description): Option<string> {
    match d
    case DescText(t) => Some(t)
    case DescParts(ps) => Some(Join(ps, "."))
    case DescFailed(_) => None
  }

  /** The description has some text besides whitespace. */
  predicate NonBlank(d: Description) {
    DescriptionText(d).Some? && Trim(DescriptionText(d).value) != ""
  }

  /** The issue already has test cases: a non-empty list is stored. */
  predicate HasList(s: Store, issue: string) {
    var l := StorageGet(s, issue);
    l.Some? && |l.value| > 0
  }

  /** `promptTemplate.replace('{description}', extractedText)` as the source
      writes it: the first placeholder gives way to the description with its
      `$` patterns expanded, and the text around it is kept. */
  function PromptAsWritten(template: string, text: string): (r: string)
    ensures IndexOf(template, DescriptionPlaceholder).None? ==> r == template
    ensures IndexOf(template, DescriptionPlaceholder).Some? ==>
              var i := IndexOf(template, DescriptionPlaceholder).value;
              var x := Substitution(text, DescriptionPlaceholder, template[..i], template[i + |DescriptionPlaceholder|..]);
              r == template[..i] + x + template[i + |DescriptionPlaceholder|..]
  {
    var r := ReplaceFirstJs(template, DescriptionPlaceholder, text);
    if IndexOf(template, DescriptionPlaceholder).Some? then
      var i := IndexOf(template, DescriptionPlaceholder).value;
      var x := Substitution(text, DescriptionPlaceholder, template[..i], template[i + |DescriptionPlaceholder|..]);
      assert r == r[..i] + r[i..i + |x|] + r[i + |x|..];
      r
    else r
  }

  /** The prompt as intended: the first `{description}` replaced by the
      description, inserted verbatim. */
  function Prompt(template: string, text: string): (r: string)
    ensures IndexOf(template, DescriptionPlaceholder).None? ==> r == template
    ensures IndexOf(template, DescriptionPlaceholder).Some? ==>
              var i := IndexOf(template, DescriptionPlaceholder).value;
              OccursAt(r, text, i) && r[..i] == template[..i] && r[i + |text|..] == template[i + |DescriptionPlaceholder|..]
  {
    ReplaceFirstLiteral(template, DescriptionPlaceholder, text)
  }

  /** Lines 97-145, once every guard has passed: `loading` has been
      written, giving the store `loading`.  The existing list is read (a
      rejection throws); an issue that already has test cases stops there;
      otherwise the issue id is logged (an `undefined` one throws), the
      description is read, and a failed read throws, a blank one stops, and
      any other is put into the template (a rejected template read throws)
      and the answer is stored as the issue's list. */
  function Generate(gen: Generator, desc: Description, faults: ReadFaults, loading: Store, issue: string,
                    issueId: Option<string>, project: string): (a: Attempt)
    ensures a.statusWrites == ["loading"]
    ensures a.descriptionRead <==> faults.listRead.None? && !HasList(loading, issue) && issueId.Some?
    ensures faults.listRead.Some? ==> a.error == faults.listRead
    ensures faults.listRead.None? && !HasList(loading, issue) && issueId.None? ==> a.error == Some(UndefinedTypeError)
    ensures a.descriptionRead && desc.DescFailed? ==> a.error == Some(desc.message)
    ensures a.descriptionRead && NonBlank(desc) ==> a.error == faults.templateRead
    ensures a.error.Some? <==>
              || faults.listRead.Some?
              || (!HasList(loading, issue) && issueId.None?)
              || (a.descriptionRead && (desc.DescFailed? || (NonBlank(desc) && faults.templateRead.Some?)))
    ensures a.prompt.Some? <==> a.descriptionRead && NonBlank(desc) && faults.templateRead.None?
    ensures a.prompt.Some? ==> a.store == StorageSet(loading, issue, gen(loading, a.prompt.value, project))
    ensures a.prompt.None? ==> a.store == loading
  {
    if faults.listRead.Some? then Attempt(loading, ["loading"], false, None, faults.listRead)
    else if HasList(loading, issue) then Attempt(loading, ["loading"], false, None, None)
    else if issueId.None? then Attempt(loading, ["loading"], false, None, Some(UndefinedTypeError))
    else match DescriptionText(desc)
      case None => Attempt(loading, ["loading"], true, None, Some(desc.message))
      case Some(text) =>
        if Trim(text) == "" then Attempt(loading, ["loading"], true, None, None)
        else if faults.templateRead.Some? then Attempt(loading, ["loading"], true, None, faults.templateRead)
        else
          var prompt := PromptAsWritten(GetPromptTemplate(loading, project), text);
          var cases := gen(loading, prompt, project);
          Attempt(StorageSet(loading, issue, cases), ["loading"], true, Some(prompt), None)
  }

  /** The `try` block, lines 45-145: the guard chain, then `loading` and the
      generation.  Nothing is written unless every guard passes, and a
      rejected trigger-status read or an `undefined` logged value among the
      guards throws before any write. */
  function TryBlock(gen: Generator, desc: Description, faults: ReadFaults, s: Store, e: Event): (a: Attempt)
    ensures CheckGuards(s, e, faults.triggerRead) == Skip ==> a == Attempt(s, [], false, None, None)
    ensures PreGuards(e) && faults.triggerRead.Some? ==> a == Attempt(s, [], false, None, faults.triggerRead)
    ensures LogsUndefined(s, e, faults.triggerRead) ==> a == Attempt(s, [], false, None, Some(UndefinedTypeError))
    ensures a.statusWrites == if CheckGuards(s, e, faults.triggerRead) == Proceed then ["loading"] else []
    ensures a.error.Some? ==> a.prompt.None?
  {
    match CheckGuards(s, e, faults.triggerRead)
    case Skip => Attempt(s, [], false, None, None)
    case Rejected(m) => Attempt(s, [], false, None, Some(m))
    case Proceed =>
      var issue := IssueKeyOf(e);
      Generate(gen, desc, faults, SetGenStatus(s, issue, "loading"), issue, e.issueId, e.projectKey.value)
  }

  /** `run(event, context)`: the `try` block, then `error` on a failure, then
      `done` in `finally`, on every path. */
  function Run(gen: Generator, desc: Description, faults: ReadFaults, s: Store, e: Event): (t: Trace)
    ensures t.statusWrites == (if CheckGuards(s, e, faults.triggerRead) == Proceed then ["loading"] else [])
                              + (if t.outcome.Threw? then ["error", "done"] else ["done"])
    ensures GetGenStatus(t.store, IssueKeyOf(e)) == Some("done")
  {
    var issue := IssueKeyOf(e);
    var a := TryBlock(gen, desc, faults, s, e);
    match a.error
    case Some(m) =>
      Trace(Threw(m), SetGenStatus(SetGenStatus(a.store, issue, "error"), issue, "done"),
            a.statusWrites + ["error", "done"], a.descriptionRead, a.prompt)
    case None =>
      Trace(Returned, SetGenStatus(a.store, issue, "done"), a.statusWrites + ["done"], a.descriptionRead, a.prompt)
  }

  /** The run as its `try` block left it: `error` and `done` after a
      failure, `done` alone otherwise, and the issue's list as the block
      left it. */
  lemma RunFromAttempt(gen: Generator, desc: Description, faults: ReadFaults, s: Store, e: Event)
    ensures var a, t := TryBlock(gen, desc, faults, s, e), Run(gen, desc, faults, s, e);
            && t.outcome == (if a.error.Some? then Threw(a.error.value) else Returned)
            && t.statusWrites == a.statusWrites + (if a.error.Some? then ["error", "done"] else ["done"])
            && t.descriptionRead == a.descriptionRead && t.prompt == a.prompt
            && StorageGet(t.store, IssueKeyOf(e)) == StorageGet(a.store, IssueKeyOf(e))
  {
    var issue := IssueKeyOf(e);
    var a := TryBlock(gen, desc, faults, s, e);
    SeparateKeys(a.store, issue, issue, [], "error");
    SeparateKeys(SetGenStatus(a.store, issue, "error"), issue, issue, [], "done");
    SeparateKeys(a.store, issue, issue, [], "done");
  }

  /** The two properties of an issue that a run may write. */
  predicate RunKey(k: Key, issue: string) {
    k == IssueKey(issue, TestGenList) || k == IssueKey(issue, GenStatus)
  }

  /** A run writes only the issue's test-case list and status: every other
      property keeps its value. */
  lemma RunChangesOnlyIssueProperties(gen: Generator, desc: Description, faults: ReadFaults, s: Store, e: Event)
    ensures var t := Run(gen, desc, faults, s, e);
            forall k :: k in s && !RunKey(k, IssueKeyOf(e)) ==> k in t.store && t.store[k] == s[k]
  {
    var issue := IssueKeyOf(e);
    var a := TryBlock(gen, desc, faults, s, e);
    assert forall k :: k in s && !RunKey(k, issue) ==> k in a.store && a.store[k] == s[k];
  }

  /** When a guard fails, the run writes only `done`: it reads no
      description, calls no model and leaves the test-case list alone;
      `loading` is the first status written exactly when every guard passes
      and the trigger status was read. */
  lemma SkipsUnlessTriggered(gen: Generator, desc: Description, faults: ReadFaults, s: Store, e: Event)
    ensures var t := Run(gen, desc, faults, s, e);
            CheckGuards(s, e, faults.triggerRead) == Skip ==>
              && t.outcome == Returned && t.statusWrites == ["done"]
              && !t.descriptionRead && t.prompt == None
              && StorageGet(t.store, IssueKeyOf(e)) == StorageGet(s, IssueKeyOf(e))
    ensures var t := Run(gen, desc, faults, s, e);
            faults.triggerRead.None? && Triggered(s, e) <==> t.statusWrites[0] == "loading"
  {
    SeparateKeys(s, IssueKeyOf(e), IssueKeyOf(e), [], "done");
  }

  /** A rejected read of the trigger status, once the event passed the
      guards before it, writes `error` and `done` and rethrows, without
      `loading` and without touching the list. */
  lemma TriggerReadRejected(gen: Generator, desc: Description, faults: ReadFaults, s: Store, e: Event)
    requires PreGuards(e) && faults.triggerRead.Some?
    ensures var t := Run(gen, desc, faults, s, e);
            && t.outcome == Threw(faults.triggerRead.value) && t.statusWrites == ["error", "done"]
            && !t.descriptionRead && t.prompt == None
            && StorageGet(t.store, IssueKeyOf(e)) == StorageGet(s, IssueKeyOf(e))
  {
    var issue := IssueKeyOf(e);
    SeparateKeys(s, issue, issue, [], "error");
    SeparateKeys(SetGenStatus(s, issue, "error"), issue, issue, [], "done");
  }

  /** An `undefined` value logged among the guards makes the run write
      `error` and `done` and throw the TypeError of `sanitizeForLog`,
      without `loading` and without touching the list. */
  lemma LoggingUndefinedThrows(gen: Generator, desc: Description, faults: ReadFaults, s: Store, e: Event)
    requires LogsUndefined(s, e, faults.triggerRead)
    ensures var t := Run(gen, desc, faults, s, e);
            && t.outcome == Threw(UndefinedTypeError) && t.statusWrites == ["error", "done"]
            && !t.descriptionRead && t.prompt == None
            && StorageGet(t.store, IssueKeyOf(e)) == StorageGet(s, IssueKeyOf(e))
  {
    RunFromAttempt(gen, desc, faults, s, e);
  }

  /** A Story moving between two named statuses in a project with no
      trigger status configured: the run as written throws the TypeError
      where the intended chain skips it. */
  lemma UnconfiguredTriggerThrows(gen: Generator, desc: Description, s: Store)
    requires ProjectKey("P", TriggerStatus) !in s
    ensures var e := Event(Some("P-1"), Some("10001"), Some("Story"), Some("P"), StatusNames([Some("To Do"), Some("Ready")]));
            && Run(gen, desc, NoFaults, s, e).outcome == Threw(UndefinedTypeError)
            && Run(gen, desc, NoFaults, s, e).statusWrites == ["error", "done"]
            && IntendedGuards(s, e, None) == Skip
  {
    var e := Event(Some("P-1"), Some("10001"), Some("Story"), Some("P"), StatusNames([Some("To Do"), Some("Ready")]));
    assert ToLower("Story") == "story";
    assert LogsUndefined(s, e, NoFaults.triggerRead);
    LoggingUndefinedThrows(gen, desc, NoFaults, s, e);
  }

  /** Once `loading` is written and no list is stored, an event without an
      issue id throws the TypeError when the id is logged (line 107),
      before the description is read. */
  lemma IssueIdUndefinedThrows(gen: Generator, desc: Description, faults: ReadFaults, s: Store, e: Event)
    requires faults.triggerRead.None? && Triggered(s, e)
    requires faults.listRead.None? && !HasList(s, IssueKeyOf(e)) && e.issueId.None?
    ensures var t := Run(gen, desc, faults, s, e);
            && t.outcome == Threw(UndefinedTypeError) && t.statusWrites == ["loading", "error", "done"]
            && !t.descriptionRead && t.prompt == None
            && StorageGet(t.store, IssueKeyOf(e)) == StorageGet(s, IssueKeyOf(e))
  {
    var issue := IssueKeyOf(e);
    var s1 := SetGenStatus(s, issue, "loading");
    assert CheckGuards(s, e, faults.triggerRead) == Proceed;
    SeparateKeys(s, issue, issue, [], "loading");
    assert HasList(s1, issue) == HasList(s, issue);
    var a := Generate(gen, desc, faults, s1, issue, e.issueId, e.projectKey.value);
    assert a == Attempt(s1, ["loading"], false, None, Some(UndefinedTypeError));
    assert TryBlock(gen, desc, faults, s, e) == a;
    RunFromAttempt(gen, desc, faults, s, e);
  }

  /** Trimming and lower-casing let any status padded with one space on
      each side match the trigger status written in lower case. */
  lemma PaddedStatusMatches(t: string)
    requires t != [] && !IsWhitespace(t[0]) && !IsWhitespace(t[|t| - 1])
    ensures StatusMatches(" " + t + " ", ToLower(t))
  {
    var padded := " " + t + " ";
    assert padded[1..|padded| - 1] == t;
    TrimPadded(padded);
    var low := ToLower(t);
    assert !IsWhitespace(low[0]) && !IsWhitespace(low[|low| - 1]);
    TrimClean(low);
    ToLowerIdempotent(t);
  }

  /** Trimming a string with one space at each end and none inside at the
      ends drops just those two spaces. */
  lemma TrimPadded(s: string)
    requires |s| >= 3 && s[0] == ' ' && s[|s| - 1] == ' '
    requires !IsWhitespace(s[1]) && !IsWhitespace(s[|s| - 2])
    ensures Trim(s) == s[1..|s| - 1]
  {
    assert PrefixLength(s[1..], IsWhitespace) == 0;
    assert PrefixLength(s, IsWhitespace) == 1;
    var t := s[1..];
    assert t[..|t| - 1] == s[1..|s| - 1];
    assert SuffixStart(t[..|t| - 1], IsWhitespace) == |t| - 1;
  }

  /** A rejected read of the existing list, after `loading`, writes `error`
      and `done` and rethrows, before the description is read. */
  lemma ListReadRejected(gen: Generator, desc: Description, faults: ReadFaults, s: Store, e: Event)
    requires faults.triggerRead.None? && Triggered(s, e)
    requires faults.listRead.Some?
    ensures var t := Run(gen, desc, faults, s, e);
            && t.outcome == Threw(faults.listRead.value) && t.statusWrites == ["loading", "error", "done"]
            && !t.descriptionRead && t.prompt == None
            && StorageGet(t.store, IssueKeyOf(e)) == StorageGet(s, IssueKeyOf(e))
  {
    var issue := IssueKeyOf(e);
    var s1 := SetGenStatus(s, issue, "loading");
    assert CheckGuards(s, e, faults.triggerRead) == Proceed;
    SeparateKeys(s, issue, issue, [], "loading");
    assert HasList(s1, issue) == HasList(s, issue);
    var a := Generate(gen, desc, faults, s1, issue, e.issueId, e.projectKey.value);
    assert a == Attempt(s1, ["loading"], false, None, faults.listRead);
    assert TryBlock(gen, desc, faults, s, e) == a;
    RunFromAttempt(gen, desc, faults, s, e);
  }

  /** Once the issue has test cases, a triggered run marks it `loading`,
      then `done`, and changes nothing else: no description, no model call,
      the same list. */
  lemma ExistingListKept(gen: Generator, desc: Description, faults: ReadFaults, s: Store, e: Event)
    requires faults.triggerRead.None? && Triggered(s, e)
    requires faults.listRead.None? && HasList(s, IssueKeyOf(e))
    ensures var t := Run(gen, desc, faults, s, e);
            && t.outcome == Returned && t.statusWrites == ["loading", "done"]
            && !t.descriptionRead && t.prompt == None
            && StorageGet(t.store, IssueKeyOf(e)) == StorageGet(s, IssueKeyOf(e))
  {
    var issue := IssueKeyOf(e);
    var s1 := SetGenStatus(s, issue, "loading");
    assert CheckGuards(s, e, faults.triggerRead) == Proceed;
    SeparateKeys(s, issue, issue, [], "loading");
    assert HasList(s1, issue) == HasList(s, issue);
    var a := Generate(gen, desc, faults, s1, issue, e.issueId, e.projectKey.value);
    assert a == Attempt(s1, ["loading"], false, None, None);
    assert TryBlock(gen, desc, faults, s, e) == a;
    RunFromAttempt(gen, desc, faults, s, e);
  }

  /** An empty or all-whitespace description ends the run after `loading`,
      without a model call and without touching the list. */
  lemma BlankDescriptionSkips(gen: Generator, desc: Description, faults: ReadFaults, s: Store, e: Event)
    requires faults.triggerRead.None? && Triggered(s, e)
    requires faults.listRead.None? && !HasList(s, IssueKeyOf(e)) && e.issueId.Some?
    requires DescriptionText(desc).Some? && Trim(DescriptionText(desc).value) == ""
    ensures var t := Run(gen, desc, faults, s, e);
            && t.outcome == Returned && t.statusWrites == ["loading", "done"]
            && t.descriptionRead && t.prompt == None
            && StorageGet(t.store, IssueKeyOf(e)) == StorageGet(s, IssueKeyOf(e))
  {
    var issue := IssueKeyOf(e);
    var s1 := SetGenStatus(s, issue, "loading");
    assert CheckGuards(s, e, faults.triggerRead) == Proceed;
    SeparateKeys(s, issue, issue, [], "loading");
    assert HasList(s1, issue) == HasList(s, issue);
    var a := Generate(gen, desc, faults, s1, issue, e.issueId, e.projectKey.value);
    assert a == Attempt(s1, ["loading"], true, None, None);
    assert TryBlock(gen, desc, faults, s, e) == a;
    RunFromAttempt(gen, desc, faults, s, e);
  }

  /** A failed description lookup writes `error`, then `done`, and rethrows
      its error; the list is untouched. */
  lemma DescriptionFailureRethrows(gen: Generator, desc: Description, faults: ReadFaults, s: Store, e: Event)
    requires faults.triggerRead.None? && Triggered(s, e)
    requires faults.listRead.None? && !HasList(s, IssueKeyOf(e)) && e.issueId.Some?
    requires desc.DescFailed?
    ensures var t := Run(gen, desc, faults, s, e);
            && t.outcome == Threw(desc.message) && t.statusWrites == ["loading", "error", "done"]
            && t.descriptionRead && t.prompt == None
            && StorageGet(t.store, IssueKeyOf(e)) == StorageGet(s, IssueKeyOf(e))
  {
    var issue := IssueKeyOf(e);
    var s1 := SetGenStatus(s, issue, "loading");
    assert CheckGuards(s, e, faults.triggerRead) == Proceed;
    SeparateKeys(s, issue, issue, [], "loading");
    assert HasList(s1, issue) == HasList(s, issue);
    var a := Generate(gen, desc, faults, s1, issue, e.issueId, e.projectKey.value);
    assert a == Attempt(s1, ["loading"], true, None, Some(desc.message));
    assert TryBlock(gen, desc, faults, s, e) == a;
    RunFromAttempt(gen, desc, faults, s, e);
  }

  /** A rejected read of the prompt template, once a description with text
      is in hand, writes `error` and `done` and rethrows, without a model
      call and without touching the list. */
  lemma TemplateReadRejected(gen: Generator, desc: Description, faults: ReadFaults, s: Store, e: Event)
    requires faults.triggerRead.None? && Triggered(s, e)
    requires faults.listRead.None? && !HasList(s, IssueKeyOf(e)) && e.issueId.Some?
    requires NonBlank(desc) && faults.templateRead.Some?
    ensures var t := Run(gen, desc, faults, s, e);
            && t.outcome == Threw(faults.templateRead.value) && t.statusWrites == ["loading", "error", "done"]
            && t.descriptionRead && t.prompt == None
            && StorageGet(t.store, IssueKeyOf(e)) == StorageGet(s, IssueKeyOf(e))
  {
    var issue := IssueKeyOf(e);
    var s1 := SetGenStatus(s, issue, "loading");
    assert CheckGuards(s, e, faults.triggerRead) == Proceed;
    SeparateKeys(s, issue, issue, [], "loading");
    assert HasList(s1, issue) == HasList(s, issue);
    var a := Generate(gen, desc, faults, s1, issue, e.issueId, e.projectKey.value);
    assert a == Attempt(s1, ["loading"], true, None, faults.templateRead);
    assert TryBlock(gen, desc, faults, s, e) == a;
    RunFromAttempt(gen, desc, faults, s, e);
  }

  /** After `loading`, with every read succeeding, an issue without test
      cases and a description with some text lead to one model call, on the
      prompt the source builds, whose answer is stored. */
  lemma GenerateCalls(gen: Generator, desc: Description, loading: Store, issue: string, issueId: string, project: string)
    requires !HasList(loading, issue) && NonBlank(desc)
    ensures var prompt := PromptAsWritten(GetPromptTemplate(loading, project), DescriptionText(desc).value);
            Generate(gen, desc, NoFaults, loading, issue, Some(issueId), project)
              == Attempt(StorageSet(loading, issue, gen(loading, prompt, project)),
                         ["loading"], true, Some(prompt), None)
  {
  }

  /** The `try` block of a generating run, with every read succeeding:
      `loading`, then one model call on the source's prompt, whose answer
      becomes the list. */
  lemma GeneratingAttempt(gen: Generator, desc: Description, s: Store, e: Event)
    requires Triggered(s, e) && e.issueId.Some?
    requires !HasList(s, IssueKeyOf(e)) && NonBlank(desc)
    ensures var issue, project := IssueKeyOf(e), e.projectKey.value;
            var loading := SetGenStatus(s, issue, "loading");
            var prompt := PromptAsWritten(GetPromptTemplate(s, project), DescriptionText(desc).value);
            TryBlock(gen, desc, NoFaults, s, e)
              == Attempt(StorageSet(loading, issue, gen(loading, prompt, project)), ["loading"], true, Some(prompt), None)
  {
    var issue, project := IssueKeyOf(e), e.projectKey.value;
    var loading := SetGenStatus(s, issue, "loading");
    assert CheckGuards(s, e, NoFaults.triggerRead) == Proceed;
    SeparateKeys(s, issue, issue, [], "loading");
    assert HasList(loading, issue) == HasList(s, issue);
    StatusWriteKeepsTemplate(s, issue, "loading", project);
    GenerateCalls(gen, desc, loading, issue, e.issueId.value, project);
    assert TryBlock(gen, desc, NoFaults, s, e) == Generate(gen, desc, NoFaults, loading, issue, e.issueId, project);
  }

  /** With every read succeeding, no list yet and a description with some
      text, the run sends the templated prompt and the list becomes exactly
      what Bedrock returned. */
  lemma GeneratedListStored(gen: Generator, desc: Description, s: Store, e: Event)
    requires Triggered(s, e) && e.issueId.Some?
    requires !HasList(s, IssueKeyOf(e)) && NonBlank(desc)
    ensures var t := Run(gen, desc, NoFaults, s, e);
            var issue, project := IssueKeyOf(e), e.projectKey.value;
            var loading := SetGenStatus(s, issue, "loading");
            var prompt := PromptAsWritten(GetPromptTemplate(s, project), DescriptionText(desc).value);
            && t.outcome == Returned && t.statusWrites == ["loading", "done"]
            && t.prompt == Some(prompt)
            && StorageGet(t.store, issue) == Some(gen(loading, prompt, project))
  {
    GeneratingAttempt(gen, desc, s, e);
    RunFromAttempt(gen, desc, NoFaults, s, e);
  }

  /** On a description without `$`, the prompt a generating run sends is the
      intended one: the template with the description inserted verbatim. */
  lemma RunPromptAsIntended(gen: Generator, desc: Description, s: Store, e: Event)
    requires Triggered(s, e) && e.issueId.Some?
    requires !HasList(s, IssueKeyOf(e)) && NonBlank(desc)
    requires '$' !in DescriptionText(desc).value
    ensures Run(gen, desc, NoFaults, s, e).prompt
              == Some(Prompt(GetPromptTemplate(s, e.projectKey.value), DescriptionText(desc).value))
  {
    GeneratedListStored(gen, desc, s, e);
    PromptAgreesWithoutDollar(GetPromptTemplate(s, e.projectKey.value), DescriptionText(desc).value);
  }

  /** With the add-on's own model call, the test cases a generating run
      stores carry the ids `_...` drawn from the random source, in order. */
  lemma BedrockRunIds(env: BedrockClient.Env, desc: Description, s: Store, e: Event)
    requires Triggered(s, e) && e.issueId.Some?
    requires !HasList(s, IssueKeyOf(e)) && NonBlank(desc)
    ensures var stored := StorageGet(Run(BedrockGenerator(env), desc, NoFaults, s, e).store, IssueKeyOf(e));
            && stored.Some?
            && forall i :: 0 <= i < |stored.value| ==>
                 "id" in stored.value[i] && stored.value[i]["id"] == BedrockClient.UniqueId(env.randomText(i))
  {
    var issue, project := IssueKeyOf(e), e.projectKey.value;
    var loading := SetGenStatus(s, issue, "loading");
    var prompt := PromptAsWritten(GetPromptTemplate(s, project), DescriptionText(desc).value);
    GeneratedListStored(BedrockGenerator(env), desc, s, e);
    var cases := BedrockClient.CallBedrock(env, loading, prompt, project);
    assert StorageGet(Run(BedrockGenerator(env), desc, NoFaults, s, e).store, issue) == Some(cases);
  }

  /** Running again once a run has stored test cases is a no-op on the
      list, whatever the second run's reads do: it makes no model call and
      keeps the list. */
  lemma RepeatKeepsList(gen1: Generator, gen2: Generator, d1: Description, d2: Description,
                        f1: ReadFaults, f2: ReadFaults, s: Store, e: Event)
    requires HasList(Run(gen1, d1, f1, s, e).store, IssueKeyOf(e))
    ensures var t1 := Run(gen1, d1, f1, s, e);
            var t2 := Run(gen2, d2, f2, t1.store, e);
            && t2.prompt == None
            && StorageGet(t2.store, IssueKeyOf(e)) == StorageGet(t1.store, IssueKeyOf(e))
  {
    var t1 := Run(gen1, d1, f1, s, e);
    SkipsUnlessTriggered(gen2, d2, f2, t1.store, e);
    if PreGuards(e) && f2.triggerRead.Some? {
      TriggerReadRejected(gen2, d2, f2, t1.store, e);
    } else if LogsUndefined(t1.store, e, f2.triggerRead) {
      LoggingUndefinedThrows(gen2, d2, f2, t1.store, e);
    } else if f2.triggerRead.None? && Triggered(t1.store, e) {
      if f2.listRead.Some? {
        ListReadRejected(gen2, d2, f2, t1.store, e);
      } else {
        ExistingListKept(gen2, d2, f2, t1.store, e);
      }
    }
  }

  /** The template replacement as written expands `$&` in the description
      into the matched placeholder: a description `$&` leaves the template
      `{description}` unchanged, where the intended prompt is `$&`. */
  lemma DollarPatternCounterexample()
    ensures PromptAsWritten(DescriptionPlaceholder, "$&") == DescriptionPlaceholder
    ensures Prompt(DescriptionPlaceholder, "$&") == "$&"
  {
    var p := DescriptionPlaceholder;
    assert OccursAt(p, p, 0);
    assert IndexOf(p, p) == Some(0);
    assert p[..0] == "" && p[|p|..] == "";
    var rep := "$&";
    assert rep[0] == '$' && rep[1] == '&' && rep[2..] == "";
    assert Substitution(rep, p, "", "") == p;
  }

  /** The two replacements differ only on descriptions with a `$`. */
  lemma PromptAgreesWithoutDollar(template: string, text: string)
    requires '$' !in text
    ensures PromptAsWritten(template, text) == Prompt(template, text)
  {
    ReplaceAgreesWithoutDollar(template, DescriptionPlaceholder, text);
  }
}

=== FILE: timestamp.dfy ===
/** The `X-Amz-Date` value both signers derive from `new Date().toISOString()`.
    The clock itself is an input: the ISO-8601 text it produced. */
module Timestamp {
  import opened JsText

  /** The shape of `Date.prototype.toISOString()` for years 0 to 9999:
      `YYYY-MM-DDTHH:MM:SS.sssZ`. */
  predicate IsIsoTimestamp(s: string) {
    && |s| == 24
    && s[4] == '-' && s[7] == '-' && s[10] == 'T' && s[13] == ':' && s[16] == ':'
    && s[19] == '.' && s[23] == 'Z'
    && forall i :: 0 <= i < 24 && DigitPosition(i) ==> IsDigit(s[i])
  }

  /** The positions of that shape that hold digits. */
  predicate DigitPosition(i: int) {
    i != 4 && i != 7 && i != 10 && i != 13 && i != 16 && i != 19 && i != 23
  }

  /** The ISO-8601 basic form `YYYYMMDDTHHMMSS` of an extended timestamp. */
  function BasicDateTime(iso: string): string
    requires IsIsoTimestamp(iso)
  {
    iso[0..4] + iso[5..7] + iso[8..10] + "T" + iso[11..13] + iso[14..16] + iso[17..19]
  }

  /** What the regular-expression tail `.*` consumes: everything up to the
      next line terminator. */
  function SkipLine(s: string): (r: string)
    ensures |r| <= |s| && r == s[|s| - |r|..]
    ensures r == [] || IsLineTerminator(r[0])
  {
    if |s| == 0 || IsLineTerminator(s[0]) then s else SkipLine(s[1..])
  }

  predicate IsSeparator(c: char) {
    c == ':' || c == '-'
  }

  /** Every character of a suffix occurs in the whole. */
  lemma SuffixMembers(s: string, t: string)
    requires |t| <= |s| && t == s[|s| - |t|..]
    ensures forall x :: x in t ==> x in s
  {
    forall x | x in t ensures x in s {
      var i :| 0 <= i < |t| && t[i] == x;
      assert s[|s| - |t| + i] == x;
    }
  }

  /** No `:` or `-` in the text. */
  predicate NoSeparator(s: string) {
    ':' !in s && '-' !in s
  }

  /** No `.` in the text. */
  predicate NoDot(s: string) {
    '.' !in s
  }

  // `s.replace(/[:\-]|\..*/g, '')`: drops every `:` and `-`, and every `.`
  // together with the rest of its line.
  function CompactDate(s: string): (r: string)
    ensures |r| <= |s|
    ensures NoSeparator(r) && NoDot(r)
    ensures NoSeparator(s) && NoDot(s) ==> r == s
    decreases |s|
  {
    if |s| == 0 then ""
    else if IsSeparator(s[0]) then CompactDate(s[1..])
    else if s[0] == '.' then CompactDate(SkipLine(s[1..]))
    else [s[0]] + CompactDate(s[1..])
  }

  /** `s.replace(/[:\-]/g, '')`. */
  function StripSeparators(s: string): (r: string)
    ensures |r| <= |s|
    ensures NoSeparator(r)
    decreases |s|
  {
    if |s| == 0 then ""
    else if IsSeparator(s[0]) then StripSeparators(s[1..])
    else [s[0]] + StripSeparators(s[1..])
  }

  // `s.replace(/\..*/g, rep)`: every `.` together with the rest of its line
  // becomes `rep`.
  function ReplaceFraction(s: string, rep: string): string
    decreases |s|
  {
    if |s| == 0 then ""
    else if s[0] == '.' then rep + ReplaceFraction(SkipLine(s[1..]), rep)
    else [s[0]] + ReplaceFraction(s[1..], rep)
  }

  /** The replacement leaves no `.` unless `rep` brings one, and brings no
      `:` or `-` into a text that had none. */
  lemma {:induction false} FractionClean(s: string, rep: string)
    ensures NoDot(rep) ==> NoDot(ReplaceFraction(s, rep))
    ensures NoSeparator(s) && NoSeparator(rep) ==> NoSeparator(ReplaceFraction(s, rep))
    decreases |s|
  {
    if |s| > 0 {
      if s[0] == '.' {
        var t := SkipLine(s[1..]);
        SuffixMembers(s[1..], t);
        SuffixMembers(s, s[1..]);
        FractionClean(t, rep);
        assert ReplaceFraction(s, rep) == rep + ReplaceFraction(t, rep);
      } else {
        SuffixMembers(s, s[1..]);
        FractionClean(s[1..], rep);
        assert ReplaceFraction(s, rep) == [s[0]] + ReplaceFraction(s[1..], rep);
      }
    }
  }

  /** `X-Amz-Date` in src/helpers/callAWSBedrock.js: no `:`, `-` or `.`
      is left, whatever text the clock gave. */
  function BedrockAmzDate(iso: string): (r: string)
    ensures |r| <= |iso|
    ensures NoSeparator(r) && NoDot(r)
  {
    CompactDate(iso)
  }

  /** `X-Amz-Date` in test-aws-connection.js: no `:`, `-` or `.` is left,
      whatever text the clock gave. */
  function ConnectionAmzDate(iso: string): (r: string)
    ensures NoSeparator(r) && NoDot(r)
  {
    FractionClean(StripSeparators(iso), "Z");
    ReplaceFraction(StripSeparators(iso), "Z")
  }

  /** `date.substr(0, 8)`. */
  function DateStamp(date: string): (r: string)
    ensures |r| == if |date| < 8 then |date| else 8
  {
    if |date| < 8 then date else date[..8]
  }

  lemma {:induction false} SkipLineStrip(t: string)
    ensures SkipLine(StripSeparators(t)) == StripSeparators(SkipLine(t))
    decreases |t|
  {
    if |t| > 0 && !IsLineTerminator(t[0]) {
      SkipLineStrip(t[1..]);
    }
  }

  /** The single regular expression of callAWSBedrock.js does what the two
      consecutive replacements of test-aws-connection.js do, with an empty
      fraction replacement. */
  lemma {:induction false} CompactIsStripThenCut(s: string)
    ensures CompactDate(s) == ReplaceFraction(StripSeparators(s), "")
    decreases |s|
  {
    if |s| > 0 {
      if IsSeparator(s[0]) {
        CompactIsStripThenCut(s[1..]);
      } else if s[0] == '.' {
        CompactIsStripThenCut(SkipLine(s[1..]));
        SkipLineStrip(s[1..]);
        assert StripSeparators(s) == "." + StripSeparators(s[1..]);
      } else {
        CompactIsStripThenCut(s[1..]);
        assert StripSeparators(s) == [s[0]] + StripSeparators(s[1..]);
      }
    }
  }

  lemma {:induction false} StripAppend(a: string, b: string)
    ensures StripSeparators(a + b) == StripSeparators(a) + StripSeparators(b)
    decreases |a|
  {
    if |a| > 0 {
      StripAppend(a[1..], b);
      assert (a + b)[1..] == a[1..] + b;
    } else {
      assert a + b == b;
    }
  }

  lemma {:induction false} StripPlain(a: string)
    requires forall i :: 0 <= i < |a| ==> !IsSeparator(a[i])
    ensures StripSeparators(a) == a
    decreases |a|
  {
    if |a| > 0 {
      StripPlain(a[1..]);
      assert a == [a[0]] + a[1..];
    }
  }

  lemma {:induction false} FractionAppend(a: string, b: string, rep: string)
    requires '.' !in a
    ensures ReplaceFraction(a + b, rep) == a + ReplaceFraction(b, rep)
    decreases |a|
  {
    if |a| > 0 {
      var t := a[1..];
      assert a[0] != '.' && '.' !in t;
      assert (a + b)[0] == a[0] && (a + b)[1..] == t + b;
      assert ReplaceFraction(a + b, rep) == [a[0]] + ReplaceFraction(t + b, rep);
      FractionAppend(t, b, rep);
      assert a == [a[0]] + t;
    } else {
      assert a + b == b;
    }
  }

  /** A line with no terminator is consumed entirely by `.*`. */
  lemma {:induction false} SkipLineWhole(s: string)
    requires forall i :: 0 <= i < |s| ==> !IsLineTerminator(s[i])
    ensures SkipLine(s) == ""
    decreases |s|
  {
    if |s| > 0 {
      SkipLineWhole(s[1..]);
    }
  }

  lemma StripRangeStep(s: string, a: nat, k: nat, m: nat)
    requires a <= k && k + m <= |s|
    ensures StripSeparators(s[a..k + m]) == StripSeparators(s[a..k]) + StripSeparators(s[k..k + m])
  {
    assert s[a..k + m] == s[a..k] + s[k..k + m];
    StripAppend(s[a..k], s[k..k + m]);
  }

  lemma DigitPiece(iso: string, k: nat, m: nat)
    requires k + m <= |iso|
    requires forall i :: k <= i < k + m ==> !IsSeparator(iso[i])
    ensures StripSeparators(iso[k..k + m]) == iso[k..k + m]
  {
    var piece := iso[k..k + m];
    forall i | 0 <= i < |piece| ensures !IsSeparator(piece[i]) {
      assert piece[i] == iso[k + i];
    }
    StripPlain(piece);
  }

  lemma SeparatorPiece(iso: string, k: nat)
    requires k < |iso| && IsSeparator(iso[k])
    ensures StripSeparators(iso[k..k + 1]) == ""
  {
    assert iso[k..k + 1] == [iso[k]];
  }

  /** `YYYY-MM` loses its hyphen. */
  lemma StripIsoYearMonth(iso: string)
    requires IsIsoTimestamp(iso)
    ensures StripSeparators(iso[0..7]) == iso[0..4] + iso[5..7]
  {
    DigitPiece(iso, 0, 4);
    SeparatorPiece(iso, 4);
    DigitPiece(iso, 5, 2);
    StripRangeStep(iso, 0, 4, 1);
    StripRangeStep(iso, 0, 5, 2);
  }

  /** The date part `YYYY-MM-DD` loses its two hyphens. */
  lemma StripIsoDate(iso: string)
    requires IsIsoTimestamp(iso)
    ensures StripSeparators(iso[0..10]) == iso[0..4] + iso[5..7] + iso[8..10]
  {
    StripIsoYearMonth(iso);
    SeparatorPiece(iso, 7);
    DigitPiece(iso, 8, 2);
    StripRangeStep(iso, 0, 7, 1);
    StripRangeStep(iso, 0, 8, 2);
  }

  /** `THH:MM` loses its colon. */
  lemma StripIsoHourMinute(iso: string)
    requires IsIsoTimestamp(iso)
    ensures StripSeparators(iso[10..16]) == "T" + iso[11..13] + iso[14..16]
  {
    DigitPiece(iso, 10, 1);
    assert iso[10..11] == "T";
    DigitPiece(iso, 11, 2);
    SeparatorPiece(iso, 13);
    DigitPiece(iso, 14, 2);
    StripRangeStep(iso, 10, 11, 2);
    StripRangeStep(iso, 10, 13, 1);
    StripRangeStep(iso, 10, 14, 2);
  }

  /** The time part `THH:MM:SS` loses its two colons. */
  lemma StripIsoTime(iso: string)
    requires IsIsoTimestamp(iso)
    ensures StripSeparators(iso[10..19]) == "T" + iso[11..13] + iso[14..16] + iso[17..19]
  {
    StripIsoHourMinute(iso);
    SeparatorPiece(iso, 16);
    DigitPiece(iso, 17, 2);
    StripRangeStep(iso, 10, 16, 1);
    StripRangeStep(iso, 10, 17, 2);
  }

  /** The separators of an ISO timestamp's date-and-time part disappear, and
      nothing else does. */
  lemma StripIsoHead(iso: string)
    requires IsIsoTimestamp(iso)
    ensures StripSeparators(iso[..19]) == BasicDateTime(iso)
  {
    StripIsoDate(iso);
    StripIsoTime(iso);
    StripRangeStep(iso, 0, 10, 9);
    assert iso[..19] == iso[0..19];
  }

  /** Removing separators from an ISO timestamp leaves the basic date-time
      followed by the untouched `.sssZ` tail. */
  lemma StripIso(iso: string)
    requires IsIsoTimestamp(iso)
    ensures StripSeparators(iso) == BasicDateTime(iso) + iso[19..]
    ensures '.' !in BasicDateTime(iso)
  {
    StripIsoHead(iso);
    StripPlain(iso[19..]);
    StripAppend(iso[..19], iso[19..]);
    assert iso == iso[..19] + iso[19..];
  }

  /** The `.sssZ` tail of an ISO timestamp is one fraction: it becomes
      `rep` whole. */
  lemma IsoTailFraction(iso: string, rep: string)
    requires IsIsoTimestamp(iso)
    ensures ReplaceFraction(iso[19..], rep) == rep
  {
    var tail := iso[19..];
    SkipLineWhole(tail[1..]);
    assert tail[0] == '.';
  }

  /** callAWSBedrock.js cuts the whole `.sssZ` tail. */
  lemma BedrockAmzDateIso(iso: string)
    requires IsIsoTimestamp(iso)
    ensures BedrockAmzDate(iso) == BasicDateTime(iso)
  {
    StripIso(iso);
    CompactIsStripThenCut(iso);
    IsoTailFraction(iso, "");
    FractionAppend(BasicDateTime(iso), iso[19..], "");
  }

  /** test-aws-connection.js replaces the `.sssZ` tail by `Z`. */
  lemma ConnectionAmzDateIso(iso: string)
    requires IsIsoTimestamp(iso)
    ensures ConnectionAmzDate(iso) == BasicDateTime(iso) + "Z"
  {
    StripIso(iso);
    IsoTailFraction(iso, "Z");
    FractionAppend(BasicDateTime(iso), iso[19..], "Z");
  }

  /** For every ISO timestamp the clock can produce, callAWSBedrock.js sends
      the 15-character basic form `YYYYMMDDTHHMMSS` without a trailing `Z`,
      test-aws-connection.js sends the same followed by `Z`, and both date
      stamps are `YYYYMMDD`. */
  lemma AmzDates(iso: string)
    requires IsIsoTimestamp(iso)
    ensures BedrockAmzDate(iso) == BasicDateTime(iso)
    ensures ConnectionAmzDate(iso) == BasicDateTime(iso) + "Z"
    ensures |BedrockAmzDate(iso)| == 15 && BedrockAmzDate(iso)[8] == 'T'
    ensures DateStamp(BedrockAmzDate(iso)) == iso[0..4] + iso[5..7] + iso[8..10]
    ensures DateStamp(ConnectionAmzDate(iso)) == DateStamp(BedrockAmzDate(iso))
  {
    var b := BasicDateTime(iso);
    BedrockAmzDateIso(iso);
    ConnectionAmzDateIso(iso);
    assert (b + "Z")[..8] == b[..8];
  }
}
